=== FILE: README.md ===
# FanVault backend core in Dafny

FanVault is a creator-subscription platform. Creators publish posts that are free or pay-per-view, send messages that can be paid, and offer up to three subscription tiers. Fans subscribe, buy posts and messages, like posts and message creators.

This project models the Express/PostgreSQL backend's core as pure functions over one immutable `State` record that holds every table. The core covered is:

- purchases and the earnings ledger;
- the access decisions for posts and message threads;
- subscriptions and tiers;
- registration, login and the route guards;
- the CORS allow-list.

Two front-end rules are modelled as well: the password-strength meter and the Explore page's filter.

Every route handler is a function `(State, inputs) -> Transition<T>`, which pairs the reply with the state the route leaves behind. A reply is `Ok(value)` or `Err(e)`, where `e` is one of:

- `Invalid`: a validator rejected the request (400);
- `Refused(status, message)`: the handler refused with that status and message;
- `Fault(message)`: the database failed (500).

Conventions:

- **Money** is integer pence. `isFloat({ min: 0.50 })` becomes `amount >= 50`, and the price comparison of a purchase is integer equality.
- **Database behaviour** is a parameter `Db = Healthy | FailsAt(k)`, meaning the k-th write statement of the request fails.
  - Transactional blocks roll back to the state before the request: purchases, registration and the tier replacement.
  - Autocommitted statement pairs keep the writes made before the failure: the like toggle and subscribing.
- **Fresh row ids** come from a counter `nextId` in the state. It stands in for the database's UUID generation.
- **bcrypt and JWT are parameters.**
  - Registration receives the digest the hasher produced.
  - Login receives the password comparison as a function.
  - Authentication receives the token decoder as a function `string -> Decoded`, whose outcome is a user id, an invalid token, an expired token or another verification error.

The single-post view and the thread send, next to the emptied `mediaUrls` key, the whole row with its `media_urls` column (see "## Findings"). `Api.Step` answers those two routes with the corrected views, `Content.SealedPost` and `Messages.SealedThread`, and keeps the routes as written (`Content.GetPost`, `Messages.Thread`) for comparison.

Modules, following the source files:

| module | source | contents |
|---|---|---|
| `Store` | schema as the routes use it | rows, `State`, lookups, ledger sums, the invariants `Consistent` |
| `Text` | express-validator `trim`, `toLowerCase`, `includes` | trim of the six ASCII whitespace characters, lower-casing, substring search |
| `Middleware` | backend/src/middleware/auth.js | bearer token extraction, `authenticateToken`, the role gates, `requireActiveSubscription` |
| `Payments` | backend/src/routes/payments.js | content and message purchases, earnings |
| `Content` | backend/src/routes/content.js | post creation, feed, single post, like toggle, deletion |
| `Messages` | backend/src/routes/messages.js | sending, thread, mark read, deletion |
| `Subscriptions` | backend/src/routes/subscriptions.js | subscribe, unsubscribe, status |
| `Users` | backend/src/routes/users.js | public profile, profile update, tier replacement, settings update |
| `AuthRoutes` | backend/src/routes/auth.js | register, login |
| `Cors` | backend/src/server.js | the CORS origin callback |
| `Api` | backend/src/server.js | the mounted routers as one `Step` function, and the invariants every request keeps |
| `PasswordStrength` | src/components/PasswordStrength.tsx | requirements, strength, label and colours |
| `Explore` | src/pages/Explore.tsx | the creator filter |

## Model

| member | source | states |
|---|---|---|
| Payments.PurchaseContent | backend/src/routes/payments.js:9-100 | The checks run in the source's order: amount below 0.50 is a validation error, then "Content already purchased" (400), "Content not found" (404), "This content is free" (400), "Invalid amount" (400). It succeeds iff all checks pass and the three-statement block commits. Success appends exactly one purchase row plus a purchase and a sale ledger row (the sale credited to the post's creator). Any failure changes nothing. |
| Payments.PurchaseMessage | backend/src/routes/payments.js:103-199 | The same check order for messages. It succeeds iff the four-statement block commits. Success records the purchase, the two ledger rows, and sets the message's `is_unlocked`. Any failure changes nothing. |
| Payments.GetEarnings | backend/src/routes/payments.js:202-231 | A non-creator gets 403 "Creator access required", and only a non-creator is refused. Total earnings are always content earnings plus message earnings. |
| Payments.EarningsOfEmptyLedger | backend/src/routes/payments.js:208-215 | A creator with no ledger rows is reported zero earnings of each kind and zero sales. |
| Payments.EarningsReportAppend | backend/src/routes/payments.js:208-215 | One more ledger row changes a creator's report only when it is the creator's own completed sale row. Its amount then goes to the total and to the content or message figure its type names, and the sale count rises by one. With the empty-ledger case this fixes the report as the sums over the caller's completed sale rows. |
| Payments.EarningsCountSaleRows | backend/src/routes/payments.js:213-215 | The reported `totalSales` is the number of distinct completed sale rows of the caller. |
| Payments.EarningsSplit | backend/src/routes/payments.js:208-215 | Over any ledger, for any user, the completed sales total equals the content-sale total plus the message-sale total. |
| Payments.PurchaseContentCreditsSeller | backend/src/routes/payments.js:76-81 | After a successful content purchase, the earnings report of the post's creator has total and content earnings raised by exactly the amount, and one more sale. Every other creator's report is unchanged. |
| Payments.PurchaseMessageCreditsSender | backend/src/routes/payments.js:174-180 | After a successful message purchase, the sender's report has total and message earnings raised by the amount and one more sale. Every other creator's report is unchanged. |
| Payments.NoDoubleContentPurchase | backend/src/routes/payments.js:23-31 | Once a purchase succeeded, the same fan buying the same post again is refused with "Content already purchased" and changes nothing. The first purchase added one purchase row and two ledger rows. |
| Payments.PurchaseContentKeepsConsistent | backend/src/routes/payments.js:56-94 | A content purchase, whether it succeeds or fails, preserves every invariant. These are: unique purchases per fan and item, at most one active subscription per fan and creator, unique emails, unique usernames, priced iff paid, and the ledger balanced against the purchase tables. |
| Payments.RecordMessagePurchaseBalances | backend/src/routes/payments.js:154-180 | The committed block of a message purchase adds its amount to the purchase table, the completed purchase rows and the completed sale rows alike, so the ledger stays balanced. |
| Payments.RecordMessagePurchaseKeepsUnique | backend/src/routes/payments.js:117-125 | A fan's first purchase of a message leaves at most one purchase row per fan and message. |
| Payments.PurchaseMessageKeepsConsistent | backend/src/routes/payments.js:150-192 | A message purchase preserves every invariant, as above. |
| Middleware.BearerToken | backend/src/middleware/auth.js:6-7 | The token is the second space-separated word of the header. A token, when present, is non-empty and holds no space. |
| Middleware.BearerTokenOfHeader | backend/src/middleware/auth.js:7 | The header `scheme + " " + token` (optionally followed by a space and more) yields exactly `token`. |
| Middleware.HeaderWithoutSpaceHasNoToken | backend/src/middleware/auth.js:7-10 | A header with no space yields no token, so the request gets 401 "Access token required". |
| Middleware.Authenticate | backend/src/middleware/auth.js:4-42 | No token gives 401 "Access token required". Invalid and expired tokens give 403 "Invalid token" / "Token expired"; other verification errors give 500. An unknown user gives 401 "User not found", a deactivated one 403 "Account is deactivated". Success yields exactly an active account's id and role. |
| Middleware.RequireCreator | backend/src/middleware/auth.js:44-49 | Passes iff the role is creator; otherwise 403 "Creator access required". |
| Middleware.RequireFan | backend/src/middleware/auth.js:51-56 | Passes iff the role is fan; otherwise 403 "Fan access required". |
| Middleware.RoleGatesPartition | backend/src/middleware/auth.js:44-56 | Every principal passes exactly one of the two role gates. |
| Middleware.RequireActiveSubscription | backend/src/middleware/auth.js:58-79 | Non-creators always pass. A creator passes iff there is an active `creator_subscriptions` row for them; otherwise 403. |
| Content.ParseContentType | backend/src/routes/content.js:11 | Accepted iff the type is "image", "video" or "text". |
| Content.CreatePost | backend/src/routes/content.js:9-47 | Non-creators get 403. Invalid input gives 400. A paid post without a price gives "Price required for paid content". A failed INSERT gives 500 "Failed to create content". Otherwise the post is stored under a fresh id with the trimmed caption (or ''), a price iff paid, the given media (or []) and zero counters. Nothing else changes. |
| Content.Feed | backend/src/routes/content.js:53-81 | The feed lists exactly the posts whose creator has a profile, each row unchanged (media included). `isLocked` means paid and not bought by the viewer, with no exemption for the owner. `isPurchased` and `isLiked` reflect the viewer's rows. |
| Content.GetPost | backend/src/routes/content.js:107-152 | 404 iff the post is not listed. `isLocked` is the negation of access, where access means free, bought, or the viewer's own post. The answer carries the whole row; its `mediaUrls` key is emptied without access. With access, a failed view-count UPDATE gives 500 "Failed to get content". A granted fetch adds exactly one view, and nothing else in the state changes. |
| Content.FeedVersusPostView | backend/src/routes/content.js:71-76 | The feed and the single-post view agree on the lock flag except on the owner's own unbought paid post, which the feed shows locked. The single view's `mediaUrls` key is empty exactly when it is locked. |
| Content.PurchaseUnlocksPost | backend/src/routes/content.js:131 | After a fan buys a post, that fan sees it unlocked with its media under `mediaUrls`. A third party who has not bought it still sees it locked with that key empty. |
| Content.OwnerAlwaysHasAccess | backend/src/routes/content.js:144-145 | The creator of a post always sees it unlocked, with its media under `mediaUrls`. |
| Content.LockedPostLeaksMedia | backend/src/routes/content.js:141-146 | As written, a viewer without access to a post that has media gets it locked with `mediaUrls` empty, yet the row sent alongside still carries every media URL. |
| Content.SealedPost | backend/src/routes/content.js:141-146 | The corrected single-post view: the same refusals, the same view-count effect and the same flags as GetPost, but the row sent carries only the media the `mediaUrls` key carries. |
| Content.SealedPostHidesMedia | backend/src/routes/content.js:131-146 | In the corrected view, a viewer without access gets no media under either key, and a viewer with access gets all of them under both. |
| Content.ToggleLike | backend/src/routes/content.js:155-192 | With both statements committed, an existing like is removed and the count drops by one, or a new like is added and the count rises by one. The reply says whether the post is now liked. A failure of the first statement changes nothing. A failure of the second keeps the like change but not the count change. |
| Content.ToggleLikeTwiceRestores | backend/src/routes/content.js:159-187 | Two toggles in a row give opposite answers and restore the exact original state. |
| Content.ToggleLikeKeepsCounts | backend/src/routes/content.js:159-187 | A completed toggle keeps every post's like count equal to its number of like rows. |
| Content.ToggleLikeFaultDriftsCount | backend/src/routes/content.js:166-186 | When the counter update fails after the like row changed, the like count no longer matches the like rows. |
| Content.DeletePost | backend/src/routes/content.js:195-213 | Non-creators get 403. A failed DELETE gives 500 "Failed to delete content". Otherwise deletion succeeds iff the post exists and belongs to the caller, else 404 "Content not found or unauthorized". Success removes exactly that post. |
| Messages.SendMessage | backend/src/routes/messages.js:9-57 | Invalid input gives 400, then a paid message without a price gives "Price required for paid messages", then an absent or inactive recipient gives 404, then a failed INSERT gives 500 "Failed to send message". Success stores an unread message under a fresh id with a price iff paid, unlocked iff free, and the trimmed body. |
| Messages.Thread | backend/src/routes/messages.js:100-138 | The thread holds exactly the messages between the two users whose sender has a profile, each row whole, with its purchase flag. `isLocked` is paid, not unlocked, not bought and not sent by the viewer. The `mediaUrls` key is emptied when the message is paid, not bought and not the viewer's own. The single update marks read exactly the messages `other` sent to the viewer. |
| Messages.ThreadLeaksWithheldMedia | backend/src/routes/messages.js:127-132 | As written, a thread entry whose `mediaUrls` key is emptied still carries every media URL in the row sent alongside. |
| Messages.SealedThread | backend/src/routes/messages.js:127-132 | The corrected thread: the same entries, flags and read-marking as Thread, but each row sent carries only the media its `mediaUrls` key carries. |
| Messages.SealedThreadHidesMedia | backend/src/routes/messages.js:127-132 | In the corrected thread, an entry whose media are withheld has none under either key, and any other entry has all of them under both. |
| Messages.LockedImpliesWithheld | backend/src/routes/messages.js:130-131 | A locked thread entry always has its `mediaUrls` key emptied. |
| Messages.ThirdPartyPurchaseUnlocksWithoutMedia | backend/src/routes/messages.js:130-131 | When someone other than the recipient buys a message, the recipient's thread shows it unlocked but with its `mediaUrls` key empty. |
| Messages.RecipientPurchaseUnlocksMessage | backend/src/routes/messages.js:130-131 | When the recipient buys a message, the recipient's thread shows it unlocked with its media under `mediaUrls`. |
| Messages.MarkRead | backend/src/routes/messages.js:141-155 | Succeeds iff the statement commits. It marks the message read only when the caller is its recipient, and otherwise changes nothing. |
| Messages.MarkReadIdempotent | backend/src/routes/messages.js:145-148 | Marking the same message read twice is the same as once. |
| Messages.DeleteMessage | backend/src/routes/messages.js:158-176 | A failed DELETE gives 500 "Failed to delete message". Otherwise it succeeds iff the message exists and the caller sent it, and removes exactly that message; else 404. A refusal changes nothing. |
| Messages.DeletedMessageLeavesThread | backend/src/routes/messages.js:162-169 | A deleted message appears in no thread afterwards. |
| Subscriptions.FindTier | backend/src/routes/subscriptions.js:37-45 | Finds a tier with the given id belonging to the given creator. It finds none iff no such tier exists. |
| Subscriptions.Subscribe | backend/src/routes/subscriptions.js:9-76 | Non-fans get 403, an existing active subscription gives "Already subscribed to this creator", and a tier not of that creator gives 404. Success adds one active subscription under a fresh id and one ledger row at the tier's price. A failure of the second statement keeps the subscription row. |
| Subscriptions.Unsubscribe | backend/src/routes/subscriptions.js:79-100 | 404 iff there is no active subscription. Success cancels every active subscription of the caller to that creator and changes nothing else. |
| Subscriptions.Status | backend/src/routes/subscriptions.js:160-184 | Subscribed iff an active subscription of the caller to the creator joins to an existing tier row. |
| Subscriptions.StatusMatchesGuard | backend/src/routes/subscriptions.js:28-35 | While every subscription's tier exists, the status check answers exactly what the subscribe guard tests. |
| Subscriptions.SubscribeThenStatus | backend/src/routes/subscriptions.js:51-65 | After subscribing, the status says subscribed and a second subscribe is refused as already subscribed. |
| Subscriptions.UnsubscribeThenResubscribe | backend/src/routes/subscriptions.js:83-93 | After unsubscribing, the status says not subscribed and subscribing again succeeds. |
| Subscriptions.SubscribeKeepsSingleActive | backend/src/routes/subscriptions.js:28-35 | Subscribing never creates a second active subscription of a fan to a creator. |
| Subscriptions.SubscribeCreditsNoEarnings | backend/src/routes/subscriptions.js:57-64 | A subscription's ledger row is not a sale, so nobody's earnings change. |
| Subscriptions.SubscribeKeepsConsistent | backend/src/routes/subscriptions.js:9-76 | Subscribing, with any database behaviour, preserves every invariant. |
| Subscriptions.UnsubscribeKeepsSingleActive | backend/src/routes/subscriptions.js:83-93 | Unsubscribing keeps at most one active subscription per fan and creator. |
| Users.CreatorTiers | backend/src/routes/users.js:158-161 | The tiers of one creator are exactly the tier rows with that creator. |
| Users.ReplaceTiers | backend/src/routes/users.js:132-193 | The creator check comes before validation. Validation needs one to three tiers of level 1-3, with a trimmed name of 1-50 characters and a price of at least 0.50. One transaction deletes the creator's tiers and inserts the new ones in request order, with fresh ids and trimmed name and description. Any failure keeps the old tiers. |
| Users.ReplaceTiersEffect | backend/src/routes/users.js:158-174 | After a replacement, the caller's tiers are exactly the inserted ones, and every other creator's tiers are unchanged. |
| Users.TierReplaceHidesSubscription | backend/src/routes/users.js:158-161 | Under the assumed schema in which a subscription's `tier_id` neither blocks nor cascades the deletion of its tier (see "## Left out"): after a creator replaces their tiers, a fan's still-active subscription is reported as not subscribed by the status check, yet it still blocks a new subscription. |
| Users.SortByLevel | backend/src/routes/users.js:35-41 | The result is sorted by tier level and is a permutation of the input. |
| Users.LookupProfile | backend/src/routes/users.js:9-65 | 404 "User not found" iff no active account has a profile with that username. Otherwise the answer holds that account's id, role, profile and active-subscriber count. A creator's tiers are exactly their active tiers, sorted by level; a fan has none. |
| Users.DeactivatedProfileIsHidden | backend/src/routes/users.js:21 | Deactivating the only account with a username makes its profile lookup fail. |
| Users.UpdateProfile | backend/src/routes/users.js:68-129 | Validation comes first, then "No updates provided" when no field is given. Then one update of the caller's own profile sets exactly the supplied fields, trimmed, and keeps the username. |
| Users.UpdateProfileIdempotent | backend/src/routes/users.js:87-106 | Applying the same profile update twice equals applying it once. |
| Users.UpdateSettings | backend/src/routes/users.js:215-274 | "No updates provided" when no field is given. Otherwise one update of the caller's own settings sets exactly the supplied fields. |
| Users.UpdateSettingsCompose | backend/src/routes/users.js:225-252 | Two settings updates in a row equal one update with the later update's fields overriding the earlier's. |
| AuthRoutes.ParseRole | backend/src/routes/auth.js:23 | "creator" and "fan" are the only accepted user types. |
| AuthRoutes.DefaultTiers | backend/src/routes/auth.js:86-90 | A new creator's tiers are Basic, Premium and VIP at levels 1-3 and prices 9.99, 19.99 and 49.99. |
| AuthRoutes.Register | backend/src/routes/auth.js:19-127 | Validation first, then "Email already registered", then "Username already taken". Success means the block commits. It adds an active, unverified account, its profile with the trimmed names, default settings and, for a creator, the three default tiers. Nothing else changes, and any failure changes nothing. |
| AuthRoutes.RegisterDefaultTiers | backend/src/routes/auth.js:84-98 | A new creator owns exactly the three default tiers; a new fan owns none. |
| AuthRoutes.RegisterKeepsConsistent | backend/src/routes/auth.js:37-54 | Registration keeps emails and usernames unique and preserves every other invariant. |
| AuthRoutes.Login | backend/src/routes/auth.js:130-191 | An empty password is a validation error. An unknown email and a wrong password both give 401 "Invalid credentials". A deactivated account gives 403 before the password is compared. An active account with that email whose hash matches the password logs in as exactly that account, and every success is of that kind. |
| AuthRoutes.RegisterThenLogin | backend/src/routes/auth.js:154-169 | Right after registering, logging in with the same email and a password the hasher accepts yields the new user. |
| Cors.AllowOrigin | backend/src/server.js:36-56 | A missing or empty origin passes. Any other origin passes iff some allow-list entry admits it. |
| Cors.AllowOriginClosedForm | backend/src/server.js:28-49 | A non-empty origin passes iff it is localhost:3000 or localhost:5173, equals a set `FRONTEND_URL`, or ends in ".vercel.app". |
| Cors.VercelPreviewAllowed | backend/src/server.js:32 | Every https origin on vercel.app passes, whatever `FRONTEND_URL` is. |
| Cors.UnsetFrontendBlocks | backend/src/server.js:31 | Without `FRONTEND_URL`, any origin other than the local ones and vercel.app is blocked. |
| Api.Step | backend/src/server.js:76-81 | The mounted routers, with the single-post and thread routes answered by their corrected views (see "## Left out"). A protected route with a failing token answers the authentication error and changes nothing. Read-only routes never change the state. A refused request changes nothing, except for a database failure part-way through one of the two autocommitted routes. |
| Api.StepKeepsInvariant | backend/src/server.js:76-81 | Every request, on every route and with any database behaviour, preserves every invariant. The invariants are the six of `Consistent`, plus every id held (of accounts, profiles, settings, posts, messages, subscriptions and the tiers they name, and tiers) having been drawn from the counter, so a new row never overwrites one. |
| Api.NextIdIsFresh | backend/src/routes/content.js:30-36 | Under the invariant, the next id names no existing account, profile, settings row, post, message, subscription or tier, so an INSERT under it adds a row. |
| Api.MissingTokenRefused | backend/src/middleware/auth.js:9-11 | A protected request without an Authorization header gets 401 "Access token required" and changes nothing. |
| PasswordStrength.Strength | src/components/PasswordStrength.tsx:16-17 | The strength is 20 per requirement met, so it is 0 iff none is met and 100 iff all are. |
| PasswordStrength.Render | src/components/PasswordStrength.tsx:35 | Nothing is shown iff the password is empty. |
| PasswordStrength.LabelByPassCount | src/components/PasswordStrength.tsx:19-33 | By number of requirements met: none gives no label, 1 "Weak", 2 "Fair", 3 "Good", 4 or 5 "Strong". The bar colours go the same way. |
| PasswordStrength.StrengthGrowsWithInput | src/components/PasswordStrength.tsx:8-17 | Appending characters never lowers the strength. |
| PasswordStrength.StrengthExtremes | src/components/PasswordStrength.tsx:8-17 | The strength is 100 iff the password has at least 8 characters, an upper-case letter, a lower-case letter, a digit and a special character. It is 0 iff none of the five holds. |
| Explore.Filter | src/pages/Explore.tsx:155-161 | A creator is shown iff it matches the category ('all' matches every category) and the query occurs in its name, username or bio, ignoring case. |
| Explore.FilterIsSubsequence | src/pages/Explore.tsx:155 | The filter keeps the creators' relative order. |
| Explore.ClearFiltersShowsAll | src/pages/Explore.tsx:306-309 | After "Clear filters" (empty query, category 'all') every creator is shown, in order. |
| Explore.SearchIgnoresCase | src/pages/Explore.tsx:157-159 | A query and its lower-cased form select the same creators. |
| Explore.NameMatchFound | src/pages/Explore.tsx:157 | A name that contains the query, ignoring case, is always found. |
| Text.Trim | backend/src/routes/auth.js:24-25 | The result is the input without leading and trailing whitespace: it neither starts nor ends with whitespace, and only whitespace was removed. |
| Text.TrimIdempotent | backend/src/routes/users.js:70-72 | Trimming twice is the same as trimming once. |
| Text.ContainsIffOccurs | src/pages/Explore.tsx:157-159 | The substring search answers true iff the needle occurs at some position of the haystack. |

## Left out

- The format validators `isEmail`, `isUUID` and `isURL` are not modelled. Only length, range and membership validators are.
- The `normalizeEmail` sanitiser is not modelled: emails are stored and compared exactly as given, so two addresses that normalise to the same one are distinct accounts in the model.
- GET /payments/transactions, /subscriptions/my-subscriptions, /subscriptions/my-subscribers, /content/creator/:id, /messages/conversations, /users/search, /auth/me and GET /users/settings are pure listings and queries outside the core. They are not modelled.
- Row ordering (`ORDER BY created_at`), `LIMIT`/`OFFSET` pagination and joined display columns (avatars, names) are not modelled. Feed and thread are maps from row id to entry.
- Users.SortByLevel: the order among tiers of equal level is left unspecified, as the SQL `ORDER BY tier_level` leaves it.
- Database failures on reads are not modelled: the SELECT lookups inside a handler, the listing queries of the feed and the earnings report, and the "Subscription check error" of `requireActiveSubscription`. Every modelled write statement can fail through the `Db` parameter, with the handler's 500 answer; so can the read-marking UPDATE of the thread and the view-count UPDATE of the single-post view.
- bcrypt hashing and comparison, JWT signing and verification are parameters. Token issue on login and register is not modelled.
- Text.Trim: only the six ASCII whitespace characters are removed. JavaScript's `trim()` also removes the non-ASCII Unicode spaces and line terminators (no-break space, U+2028 and others).
- Text.Lower: only `A`-`Z` are folded; JavaScript folds every cased letter.
- Lengths count Unicode code points. The validators' `isLength` also counts a surrogate pair as one character, so the two agree except on the variation selectors U+FE0E and U+FE0F, which `isLength` leaves uncounted and the model counts: a `displayName` of "A" followed by U+FE0F is refused by the source as too short and accepted by the model.
- PasswordStrength.Checks: its "at least 8 characters" uses `p.length`, which counts UTF-16 code units, where the model counts code points: a password of four characters outside the Basic Multilingual Plane meets the source's length test but not the model's.
- The schema's cascading deletes are not modelled. Deleting a post or message keeps its purchase and like rows, and the schema file is not part of this model. The "ledger balanced" part of Api.StepKeepsInvariant rests on this: if a post's deletion cascaded into its `content_purchases` rows, the ledger would keep sale and purchase rows that no purchase row matches.
- Users.ReplaceTiers / Users.TierReplaceHidesSubscription: the schema is assumed to give `fan_subscriptions.tier_id` no foreign key that acts on deletion. With a restricting key the tiers' DELETE would fail whenever a subscriber exists, and the route would answer 500 "Failed to update subscription tiers" with the old tiers kept. With a cascading key the subscription row would vanish, and the subscribe guard would no longer block.
- Column defaults are assumed, not read from a schema: a new account is active (`is_active`) and unverified (`is_verified`), a new message is unread (`is_read`), and a new tier is active (`is_active`). The INSERT statements do not set these columns.
- Content.CreatePost / Messages.SendMessage: `isPaid` arrives as a JSON boolean and `price` as a number or absent. String values of `isPaid` ("true", "false", "1", "0"), which the `isBoolean()` validator accepts and the handlers read by JavaScript truthiness, are not modelled. Neither is a `null` price, which the validators reject. So a request such as `isPaid: "0"` with a price, which stores an unpaid post carrying a price, lies outside the model and outside the "priced iff paid" invariant's guarantee.
- Api.Step: GET /content/:contentId and GET /messages/thread/:userId are answered with the corrected views Content.SealedPost and Messages.SealedThread, not with the source's replies. Those replies also carry the row's `media_urls` (see "## Findings"); they are modelled by Content.GetPost and Messages.Thread. Both versions leave the same state.
- `requireActiveSubscription` is modelled as a gate but is mounted on no route in the source, so `Api.Step` never applies it.
- The Explore page's sort (`sortBy`), its sample data and the rest of the front end are not modelled.
- Timestamps (`created_at`, `current_period_end`, ...), the Stripe webhook and checkout flows, the email service, rate limiting and `helmet` are outside the core.
- Content.GetPost and Messages.Thread: a locked message's body (the `content` column) is sent too, as in the source, which does not try to hide it.
- Payments.PurchaseMessage: as in the source, anyone may buy any paid message, including one addressed to someone else. The purchase sets the message's single `is_unlocked` flag for everyone. Messages.ThirdPartyPurchaseUnlocksWithoutMedia states the resulting lock/media mismatch.
- Content.ToggleLike: as in the source, the route does not check that the post exists. Liking an unknown id inserts the like row and updates no counter.
- Subscriptions.Subscribe: as in the source, the tier's `is_active` flag is not consulted, and no creator-side row is written. The ledger row has type `subscription`, which the earnings query does not count.

## Findings

| source | as written | input that shows it | evidently intended | confidence | as-written member | corrected member |
|---|---|---|---|---|---|---|
| backend/src/routes/content.js:141-146 | The answer spreads the whole post row, `media_urls` included, and only the added `mediaUrls` key is emptied without access. | A fan who has not bought a paid post with media fetches it: `isLocked` is true and `mediaUrls` is `[]`, but `post.media_urls` lists every URL. | A viewer without access receives no media URL in any field. | likely; not executed | Content.LockedPostLeaksMedia | Content.SealedPost |
| backend/src/routes/messages.js:127-132 | Each thread entry spreads the whole message row, `media_urls` included, and only the added `mediaUrls` key is emptied. | The recipient of an unbought paid message with media opens the thread: the entry's `mediaUrls` is `[]`, but its `media_urls` lists every URL. | An entry whose media are withheld carries no media URL in any field. | likely; not executed | Messages.ThreadLeaksWithheldMedia | Messages.SealedThread |

=== FILE: api.dfy ===
/**
  The mounted routers of backend/src/server.js as one step function: a request is
  authenticated (unless its route is public), dispatched to its handler, and answered with
  the handler's response and the state it leaves behind.

  The collaborators outside the model are fields of the `Context`: the `Authorization`
  header, the token decoder, the behaviour of the database for this request, the digest the
  password hasher produced and the password comparison.
 */
module Api {
  import opened Store
  import Middleware
  import Payments
  import Content
  import Messages
  import Subscriptions
  import Users
  import AuthRoutes

  datatype Request =
    | BuyContent(contentId: Id, amount: Pence)                // POST /api/payments/purchase-content
    | BuyMessage(messageId: Id, amount: Pence)                // POST /api/payments/purchase-message
    | ViewEarnings                                            // GET /api/payments/earnings
    | CreatePost(post: Content.NewPost)                       // POST /api/content
    | ViewFeed                                                // GET /api/content/feed
    | ViewPost(contentId: Id)                                 // GET /api/content/:contentId
    | ToggleLike(contentId: Id)                               // POST /api/content/:contentId/like
    | DeletePost(contentId: Id)                               // DELETE /api/content/:contentId
    | SendMessage(message: Messages.NewMessage)               // POST /api/messages
    | ViewThread(other: Id)                                   // GET /api/messages/thread/:userId
    | MarkRead(messageId: Id)                                 // PUT /api/messages/:messageId/read
    | DeleteMessage(messageId: Id)                            // DELETE /api/messages/:messageId
    | Subscribe(creatorId: Id, tierId: Id)                    // POST /api/subscriptions/subscribe
    | Unsubscribe(creatorId: Id)                              // POST /api/subscriptions/unsubscribe/:creatorId
    | CheckStatus(creatorId: Id)                              // GET /api/subscriptions/status/:creatorId
    | ReplaceTiers(specs: seq<Users.TierSpec>)                // PUT /api/users/subscription-tiers
    | UpdateProfile(profile: Users.ProfileUpdate)             // PUT /api/users/profile
    | UpdateSettings(settings: Users.SettingsUpdate)          // PUT /api/users/settings
    | ViewProfile(username: string)                           // GET /api/users/profile/:username
    | Register(registration: AuthRoutes.Registration)         // POST /api/auth/register
    | Login(email: string, password: string)                  // POST /api/auth/login

  datatype Response =
    | Unlocked
    | EarningsReport(earnings: Payments.Earnings)
    | PostCreated(postId: Id, post: Post)
    | FeedPage(feed: map<Id, Content.FeedPost>)
    | PostPage(view: Content.PostView)
    | LikeState(liked: bool)
    | Deleted
    | MessageSent(messageId: Id, message: Message)
    | ThreadPage(thread: map<Id, Messages.MessageView>)
    | MarkedRead
    | Subscribed(subscriptionId: Id)
    | Unsubscribed
    | StatusReport(subscribed: bool)
    | TiersReplaced(tiers: seq<Tier>)
    | ProfileUpdated(profile: Option<Profile>)
    | SettingsUpdated(settings: Option<Settings>)
    | ProfilePage(page: Users.ProfileView)
    | Registered(user: Principal)
    | LoggedIn(user: Principal)

  datatype Context = Context(authorization: Option<string>, decode: string -> Middleware.Decoded, db: Db,
                             hash: string, matches: (string, string) -> bool)

  /** The routes mounted without `authenticateToken`. */
  predicate IsPublic(req: Request) {
    req.ViewProfile? || req.Register? || req.Login?
  }

  /** The routes that only read. */
  predicate IsReadOnly(req: Request) {
    req.ViewEarnings? || req.ViewFeed? || req.CheckStatus? || req.ViewProfile? || req.Login?
  }

  /** The routes whose writes are separate autocommitted statements rather than one transaction. */
  predicate IsAutocommit(req: Request) {
    req.ToggleLike? || req.Subscribe?
  }

  function MapReply<T>(r: Result<T>, f: T -> Response): Result<Response> {
    match r
    case Ok(v) => Ok(f(v))
    case Err(e) => Err(e)
  }

  function Answer<T>(t: Transition<T>, f: T -> Response): (u: Transition<Response>)
    ensures u.state == t.state && u.reply.Err? == t.reply.Err?
    ensures t.reply.Err? ==> u.reply.error == t.reply.error
  {
    Transition(MapReply(t.reply, f), t.state)
  }

  /** The routes of each router that sit behind `authenticateToken`. */
  predicate IsPaymentRoute(req: Request) {
    req.BuyContent? || req.BuyMessage? || req.ViewEarnings?
  }

  predicate IsContentRoute(req: Request) {
    req.CreatePost? || req.ViewFeed? || req.ViewPost? || req.ToggleLike? || req.DeletePost?
  }

  predicate IsMessageRoute(req: Request) {
    req.SendMessage? || req.ViewThread? || req.MarkRead? || req.DeleteMessage?
  }

  predicate IsSubscriptionRoute(req: Request) {
    req.Subscribe? || req.Unsubscribe? || req.CheckStatus?
  }

  /**
    What `Step` promises of every protected handler: a read-only route leaves the state
    alone, and so does a refusal, unless it is a database fault part-way through an
    autocommitted route.
   */
  predicate Framed(s: State, req: Request, t: Transition<Response>) {
    && (IsReadOnly(req) ==> t.state == s)
    && (t.reply.Err? && !(t.reply.error.Fault? && IsAutocommit(req)) ==> t.state == s)
  }

  /** /api/payments, for the principal `authenticateToken` attached. */
  function PaymentRoutes(s: State, ctx: Context, p: Principal, req: Request): (t: Transition<Response>)
    requires IsPaymentRoute(req)
    ensures Framed(s, req, t)
  {
    match req
    case BuyContent(id, amount) => Answer(Payments.PurchaseContent(s, p, id, amount, ctx.db), _ => Unlocked)
    case BuyMessage(id, amount) => Answer(Payments.PurchaseMessage(s, p, id, amount, ctx.db), _ => Unlocked)
    case ViewEarnings => Transition(MapReply(Payments.GetEarnings(s, p), e => EarningsReport(e)), s)
  }

  /** /api/content, for the principal `authenticateToken` attached. */
  function ContentRoutes(s: State, ctx: Context, p: Principal, req: Request): (t: Transition<Response>)
    requires IsContentRoute(req)
    ensures Framed(s, req, t)
  {
    match req
    case CreatePost(post) => Answer(Content.CreatePost(s, p, post, ctx.db), (r: (Id, Post)) => PostCreated(r.0, r.1))
    case ViewFeed => Transition(Ok(FeedPage(Content.Feed(s, p))), s)
    case ViewPost(id) => Answer(Content.SealedPost(s, p, id, ctx.db), v => PostPage(v))
    case ToggleLike(id) => Answer(Content.ToggleLike(s, p, id, ctx.db), b => LikeState(b))
    case DeletePost(id) => Answer(Content.DeletePost(s, p, id, ctx.db), _ => Deleted)
  }

  /** /api/messages, for the principal `authenticateToken` attached. */
  function MessageRoutes(s: State, ctx: Context, p: Principal, req: Request): (t: Transition<Response>)
    requires IsMessageRoute(req)
    ensures Framed(s, req, t)
  {
    match req
    case SendMessage(m) => Answer(Messages.SendMessage(s, p, m, ctx.db), (r: (Id, Message)) => MessageSent(r.0, r.1))
    case ViewThread(other) => Answer(Messages.SealedThread(s, p, other, ctx.db), v => ThreadPage(v))
    case MarkRead(id) => Answer(Messages.MarkRead(s, p, id, ctx.db), _ => MarkedRead)
    case DeleteMessage(id) => Answer(Messages.DeleteMessage(s, p, id, ctx.db), _ => Deleted)
  }

  /** /api/subscriptions, for the principal `authenticateToken` attached. */
  function SubscriptionRoutes(s: State, ctx: Context, p: Principal, req: Request): (t: Transition<Response>)
    requires IsSubscriptionRoute(req)
    ensures Framed(s, req, t)
  {
    match req
    case Subscribe(creator, tier) => Answer(Subscriptions.Subscribe(s, p, creator, tier, ctx.db), id => Subscribed(id))
    case Unsubscribe(creator) => Answer(Subscriptions.Unsubscribe(s, p, creator, ctx.db), _ => Unsubscribed)
    case CheckStatus(creator) => Transition(Ok(StatusReport(Subscriptions.Status(s, p, creator))), s)
  }

  /** The protected routes of /api/users, for the principal `authenticateToken` attached. */
  function UserRoutes(s: State, ctx: Context, p: Principal, req: Request): (t: Transition<Response>)
    requires !IsPublic(req) && !IsPaymentRoute(req) && !IsContentRoute(req) && !IsMessageRoute(req)
    requires !IsSubscriptionRoute(req)
    ensures Framed(s, req, t)
  {
    match req
    case ReplaceTiers(specs) => Answer(Users.ReplaceTiers(s, p, specs, ctx.db), ts => TiersReplaced(ts))
    case UpdateProfile(u) => Answer(Users.UpdateProfile(s, p, u, ctx.db), r => ProfileUpdated(r))
    case UpdateSettings(u) => Answer(Users.UpdateSettings(s, p, u, ctx.db), r => SettingsUpdated(r))
  }

  /** The handlers behind `authenticateToken`, each in the router it is mounted under. */
  function Authorized(s: State, ctx: Context, p: Principal, req: Request): (t: Transition<Response>)
    requires !IsPublic(req)
    ensures Framed(s, req, t)
  {
    if IsPaymentRoute(req) then PaymentRoutes(s, ctx, p, req)
    else if IsContentRoute(req) then ContentRoutes(s, ctx, p, req)
    else if IsMessageRoute(req) then MessageRoutes(s, ctx, p, req)
    else if IsSubscriptionRoute(req) then SubscriptionRoutes(s, ctx, p, req)
    else UserRoutes(s, ctx, p, req)
  }

  /** The public handlers. */
  function Public(s: State, ctx: Context, req: Request): Transition<Response>
    requires IsPublic(req)
  {
    match req
    case ViewProfile(username) => Transition(MapReply(Users.LookupProfile(s, username), v => ProfilePage(v)), s)
    case Register(reg) => Answer(AuthRoutes.Register(s, reg, ctx.hash, ctx.db), u => Registered(u))
    case Login(email, password) =>
      Transition(MapReply(AuthRoutes.Login(s, email, password, ctx.matches), u => LoggedIn(u)), s)
  }

  /**
    One request. A protected route answers with the authentication error, and changes
    nothing, unless the token names an active user. Read-only routes never change the state,
    and a refused request changes nothing unless it is a database failure part-way through
    one of the two autocommitted routes.
   */
  function Step(s: State, ctx: Context, req: Request): (t: Transition<Response>)
    ensures !IsPublic(req) && Middleware.Authenticate(s, ctx.authorization, ctx.decode).Err?
            ==> t == Transition(Err(Middleware.Authenticate(s, ctx.authorization, ctx.decode).error), s)
    ensures IsReadOnly(req) ==> t.state == s
    ensures t.reply.Err? && !(t.reply.error.Fault? && IsAutocommit(req)) ==> t.state == s
  {
    if IsPublic(req) then Public(s, ctx, req)
    else
      match Middleware.Authenticate(s, ctx.authorization, ctx.decode)
      case Err(e) => Transition(Err(e), s)
      case Ok(p) => Authorized(s, ctx, p, req)
  }

  /**
    Every id the store holds was drawn from the counter before: those of accounts, profiles,
    settings, posts, messages, fan subscriptions (and the tier each names) and tiers. The
    next id is therefore fresh in every table, as a new UUID is.
   */
  predicate IdsIssued(s: State) {
    && (forall i :: 0 <= i < |s.accounts| ==> s.accounts[i].id < s.nextId)
    && (forall id :: id in s.profiles ==> id < s.nextId)
    && (forall id :: id in s.settings ==> id < s.nextId)
    && (forall id :: id in s.posts ==> id < s.nextId)
    && (forall id :: id in s.messages ==> id < s.nextId)
    && (forall id :: id in s.fanSubscriptions ==> id < s.nextId && s.fanSubscriptions[id].tierId < s.nextId)
    && (forall i :: 0 <= i < |s.tiers| ==> s.tiers[i].id < s.nextId)
  }

  /**
    In a state that keeps the invariant, a row inserted under the next id overwrites nothing:
    that id names no account, profile, post, message, subscription or tier.
   */
  lemma NextIdIsFresh(s: State)
    requires Invariant(s)
    ensures s.nextId !in s.profiles && s.nextId !in s.settings && s.nextId !in s.posts
    ensures s.nextId !in s.messages && s.nextId !in s.fanSubscriptions
    ensures forall i :: 0 <= i < |s.accounts| ==> s.accounts[i].id != s.nextId
    ensures forall i :: 0 <= i < |s.tiers| ==> s.tiers[i].id != s.nextId
  {
  }

  /** The invariants every request keeps. */
  predicate Invariant(s: State) {
    Consistent(s) && IdsIssued(s)
  }

  /** An update of the caller's profile keeps usernames unique. */
  lemma UpdateProfileKeepsUsernames(s: State, p: Principal, u: Users.ProfileUpdate, db: Db)
    requires UsernamesUnique(s)
    ensures UsernamesUnique(Users.UpdateProfile(s, p, u, db).state)
  {
    var s1 := Users.UpdateProfile(s, p, u, db).state;
    forall a, b | a in s1.profiles && b in s1.profiles && a != b
      ensures s1.profiles[a].username != s1.profiles[b].username
    {
      assert s1.profiles[a].username == s.profiles[a].username;
      assert s1.profiles[b].username == s.profiles[b].username;
    }
  }

  /** A successful registration draws the account's id and its default tiers' ids from the counter. */
  lemma RegisterKeepsInvariant(s: State, req: AuthRoutes.Registration, hash: string, db: Db)
    requires Invariant(s)
    ensures Invariant(AuthRoutes.Register(s, req, hash, db).state)
  {
    AuthRoutes.RegisterKeepsConsistent(s, req, hash, db);
    RegisterKeepsIdsIssued(s, req, hash, db);
  }

  lemma RegisterKeepsIdsIssued(s: State, req: AuthRoutes.Registration, hash: string, db: Db)
    requires IdsIssued(s)
    ensures IdsIssued(AuthRoutes.Register(s, req, hash, db).state)
  {
    RegisterKeepsRowIds(s, req, hash, db);
    RegisterKeepsKeyIds(s, req, hash, db);
  }

  /** The new account and the default tiers take ids below the advanced counter. */
  lemma RegisterKeepsRowIds(s: State, req: AuthRoutes.Registration, hash: string, db: Db)
    requires IdsIssued(s)
    ensures var s1 := AuthRoutes.Register(s, req, hash, db).state;
            && (forall i :: 0 <= i < |s1.accounts| ==> s1.accounts[i].id < s1.nextId)
            && (forall i :: 0 <= i < |s1.tiers| ==> s1.tiers[i].id < s1.nextId)
  {
    RegisterKeepsAccountIds(s, req, hash, db);
    RegisterKeepsTierIds(s, req, hash, db);
  }

  lemma RegisterKeepsAccountIds(s: State, req: AuthRoutes.Registration, hash: string, db: Db)
    requires IdsIssued(s)
    ensures var s1 := AuthRoutes.Register(s, req, hash, db).state;
            forall i :: 0 <= i < |s1.accounts| ==> s1.accounts[i].id < s1.nextId
  {
    var t := AuthRoutes.Register(s, req, hash, db);
    if t.reply.Ok? {
      var role := AuthRoutes.ParseRole(req.userType).value;
      var account := Account(s.nextId, req.email, hash, role, true, false);
      assert t.state.accounts == s.accounts + [account];
      AppendedAccountStaysBelow(s.accounts, account, s.nextId, t.state.nextId);
    }
  }

  lemma RegisterKeepsTierIds(s: State, req: AuthRoutes.Registration, hash: string, db: Db)
    requires IdsIssued(s)
    ensures var s1 := AuthRoutes.Register(s, req, hash, db).state;
            forall i :: 0 <= i < |s1.tiers| ==> s1.tiers[i].id < s1.nextId
  {
    var t := AuthRoutes.Register(s, req, hash, db);
    if t.reply.Ok? {
      var role := AuthRoutes.ParseRole(req.userType).value;
      if role == Creator {
        var added := AuthRoutes.DefaultTiers(s.nextId, s.nextId + 1);
        assert t.state.tiers == s.tiers + added && t.state.nextId == s.nextId + 4;
        assert forall i :: 0 <= i < |added| ==> added[i].id == s.nextId + 1 + i;
        AppendedTiersStayBelow(s.tiers, added, s.nextId, t.state.nextId);
      } else {
        assert t.state.tiers == s.tiers + [] == s.tiers;
      }
    }
  }

  /** Rows below one counter, followed by rows below a later one, are all below the later one. */
  lemma AppendedTiersStayBelow(tiers: seq<Tier>, added: seq<Tier>, bound: Id, next: Id)
    requires forall i :: 0 <= i < |tiers| ==> tiers[i].id < bound
    requires forall i :: 0 <= i < |added| ==> added[i].id < next
    requires bound <= next
    ensures forall i :: 0 <= i < |tiers + added| ==> (tiers + added)[i].id < next
  {
    forall i | 0 <= i < |tiers + added|
      ensures (tiers + added)[i].id < next
    {
      if i < |tiers| {
        assert (tiers + added)[i] == tiers[i];
      } else {
        assert (tiers + added)[i] == added[i - |tiers|];
      }
    }
  }

  lemma AppendedAccountStaysBelow(accounts: seq<Account>, a: Account, bound: Id, next: Id)
    requires forall i :: 0 <= i < |accounts| ==> accounts[i].id < bound
    requires a.id < next && bound <= next
    ensures forall i :: 0 <= i < |accounts + [a]| ==> (accounts + [a])[i].id < next
  {
    forall i | 0 <= i < |accounts + [a]|
      ensures (accounts + [a])[i].id < next
    {
      if i < |accounts| {
        assert (accounts + [a])[i] == accounts[i];
      }
    }
  }

  /** The new profile and settings rows are keyed by the drawn id; no other table changes. */
  lemma RegisterKeepsKeyIds(s: State, req: AuthRoutes.Registration, hash: string, db: Db)
    requires IdsIssued(s)
    ensures var s1 := AuthRoutes.Register(s, req, hash, db).state;
            && (forall id :: id in s1.profiles ==> id < s1.nextId)
            && (forall id :: id in s1.settings ==> id < s1.nextId)
            && (forall id :: id in s1.posts ==> id < s1.nextId)
            && (forall id :: id in s1.messages ==> id < s1.nextId)
            && (forall id :: id in s1.fanSubscriptions ==> id < s1.nextId && s1.fanSubscriptions[id].tierId < s1.nextId)
  {
    var t := AuthRoutes.Register(s, req, hash, db);
    if t.reply.Ok? {
      var s1 := t.state;
      var id := s.nextId;
      assert s1.profiles == s.profiles[id := s1.profiles[id]];
      assert s1.settings == s.settings[id := s1.settings[id]];
      KeysStayBelow(s.profiles, s1.profiles, id, s1.nextId);
      KeysStayBelow(s.settings, s1.settings, id, s1.nextId);
    }
  }

  /** A map whose keys are below a counter, with one entry added under it, has keys below any later counter. */
  lemma KeysStayBelow<V>(m: map<Id, V>, m1: map<Id, V>, id: Id, next: Id)
    requires forall k :: k in m ==> k < id
    requires id in m1 && m1 == m[id := m1[id]]
    requires id < next
    ensures forall k :: k in m1 ==> k < next
  {
  }

  /** Both purchase routes keep every invariant: they write no new id-keyed row. */
  lemma PurchaseContentKeepsInvariant(s: State, p: Principal, id: Id, amount: Pence, db: Db)
    requires Invariant(s)
    ensures Invariant(Payments.PurchaseContent(s, p, id, amount, db).state)
  {
    Payments.PurchaseContentKeepsConsistent(s, p, id, amount, db);
  }

  lemma PurchaseMessageKeepsInvariant(s: State, p: Principal, id: Id, amount: Pence, db: Db)
    requires Invariant(s)
    ensures Invariant(Payments.PurchaseMessage(s, p, id, amount, db).state)
  {
    Payments.PurchaseMessageKeepsConsistent(s, p, id, amount, db);
  }

  /** A subscription row takes the next id and names a tier that already exists. */
  lemma SubscribeKeepsInvariant(s: State, p: Principal, creator: Id, tierId: Id, db: Db)
    requires Invariant(s)
    ensures Invariant(Subscriptions.Subscribe(s, p, creator, tierId, db).state)
  {
    Subscriptions.SubscribeKeepsConsistent(s, p, creator, tierId, db);
    SubscribeKeepsIdsIssued(s, p, creator, tierId, db);
  }

  lemma SubscribeKeepsIdsIssued(s: State, p: Principal, creator: Id, tierId: Id, db: Db)
    requires IdsIssued(s)
    ensures IdsIssued(Subscriptions.Subscribe(s, p, creator, tierId, db).state)
  {
    var s1 := Subscriptions.Subscribe(s, p, creator, tierId, db).state;
    if s1 != s {
      var tier := Subscriptions.FindTier(s.tiers, tierId, creator);
      assert tier.Some? && tier.value in s.tiers;
      assert s1.fanSubscriptions == s.fanSubscriptions[s.nextId := FanSubscription(p.id, creator, tierId, Active)];
    }
  }

  /** Cancelling leaves every invariant intact. */
  lemma UnsubscribeKeepsInvariant(s: State, p: Principal, creator: Id, db: Db)
    requires Invariant(s)
    ensures Invariant(Subscriptions.Unsubscribe(s, p, creator, db).state)
  {
    Subscriptions.UnsubscribeKeepsSingleActive(s, p, creator, db);
  }

  /** Replacing the posts table by one whose rows are all well priced and issued ids keeps every invariant. */
  lemma NewPostsKeepInvariant(s: State, posts: map<Id, Post>, nextId: Id)
    requires Invariant(s) && nextId >= s.nextId
    requires forall id :: id in posts ==> id < nextId
    requires forall id :: id in posts ==> WellPriced(posts[id].isPaid, posts[id].price)
    ensures Invariant(s.(posts := posts, nextId := nextId))
  {
  }

  /** Replacing the messages table by one whose rows are all well priced and issued ids keeps every invariant. */
  lemma NewMessagesKeepInvariant(s: State, messages: map<Id, Message>, nextId: Id)
    requires Invariant(s) && nextId >= s.nextId
    requires forall id :: id in messages ==> id < nextId
    requires forall id :: id in messages ==> WellPriced(messages[id].isPaid, messages[id].price)
    ensures Invariant(s.(messages := messages, nextId := nextId))
  {
  }

  lemma CreatePostKeepsInvariant(s: State, p: Principal, post: Content.NewPost, db: Db)
    requires Invariant(s)
    ensures Invariant(Content.CreatePost(s, p, post, db).state)
  {
    var t := Content.CreatePost(s, p, post, db);
    if t.reply.Ok? {
      NewPostsKeepInvariant(s, t.state.posts, t.state.nextId);
    }
  }

  lemma GetPostKeepsInvariant(s: State, p: Principal, id: Id, db: Db)
    requires Invariant(s)
    ensures Invariant(Content.GetPost(s, p, id, db).state)
  {
    var t := Content.GetPost(s, p, id, db);
    if t.reply.Ok? {
      NewPostsKeepInvariant(s, t.state.posts, s.nextId);
    }
  }

  lemma ToggleLikeKeepsInvariant(s: State, p: Principal, id: Id, db: Db)
    requires Invariant(s)
    ensures Invariant(Content.ToggleLike(s, p, id, db).state)
  {
    var s1 := Content.ToggleLike(s, p, id, db).state;
    assert forall k :: k in s1.posts ==>
      k in s.posts && s1.posts[k].isPaid == s.posts[k].isPaid && s1.posts[k].price == s.posts[k].price;
  }

  lemma DeletePostKeepsInvariant(s: State, p: Principal, id: Id, db: Db)
    requires Invariant(s)
    ensures Invariant(Content.DeletePost(s, p, id, db).state)
  {
  }

  lemma SendMessageKeepsInvariant(s: State, p: Principal, m: Messages.NewMessage, db: Db)
    requires Invariant(s)
    ensures Invariant(Messages.SendMessage(s, p, m, db).state)
  {
    var t := Messages.SendMessage(s, p, m, db);
    if t.reply.Ok? {
      NewMessagesKeepInvariant(s, t.state.messages, t.state.nextId);
    }
  }

  lemma ThreadKeepsInvariant(s: State, p: Principal, other: Id, db: Db)
    requires Invariant(s)
    ensures Invariant(Messages.Thread(s, p, other, db).state)
  {
    var t := Messages.Thread(s, p, other, db);
    if t.reply.Ok? {
      NewMessagesKeepInvariant(s, t.state.messages, s.nextId);
    }
  }

  lemma MarkReadKeepsInvariant(s: State, p: Principal, id: Id, db: Db)
    requires Invariant(s)
    ensures Invariant(Messages.MarkRead(s, p, id, db).state)
  {
    var t := Messages.MarkRead(s, p, id, db);
    if t.state != s {
      NewMessagesKeepInvariant(s, t.state.messages, s.nextId);
    }
  }

  lemma DeleteMessageKeepsInvariant(s: State, p: Principal, id: Id, db: Db)
    requires Invariant(s)
    ensures Invariant(Messages.DeleteMessage(s, p, id, db).state)
  {
  }

  /** The public routes keep every invariant. */
  lemma PublicKeepsInvariant(s: State, ctx: Context, req: Request)
    requires Invariant(s) && IsPublic(req)
    ensures Invariant(Public(s, ctx, req).state)
  {
    if req.Register? {
      RegisterKeepsInvariant(s, req.registration, ctx.hash, ctx.db);
    }
  }

  lemma UpdateProfileKeepsInvariant(s: State, p: Principal, u: Users.ProfileUpdate, db: Db)
    requires Invariant(s)
    ensures Invariant(Users.UpdateProfile(s, p, u, db).state)
  {
    UpdateProfileKeepsUsernames(s, p, u, db);
    var t := Users.UpdateProfile(s, p, u, db);
    if t.state != s {
      var s1 := t.state;
      assert s1 == s.(profiles := s.profiles[p.id := t.reply.value.value]);
      assert s1.profiles.Keys == s.profiles.Keys;
      assert s1.accounts == s.accounts && s1.posts == s.posts && s1.messages == s.messages;
      assert s1.fanSubscriptions == s.fanSubscriptions && s1.ledger == s.ledger;
      assert s1.contentPurchases == s.contentPurchases && s1.messagePurchases == s.messagePurchases;
      assert PurchasesUnique(s1) && SingleActiveSubscription(s1) && EmailsUnique(s1);
      assert PricesWellFormed(s1) && LedgerBalanced(s1);
    }
  }

  lemma UpdateSettingsKeepsInvariant(s: State, p: Principal, u: Users.SettingsUpdate, db: Db)
    requires Invariant(s)
    ensures Invariant(Users.UpdateSettings(s, p, u, db).state)
  {
  }

  /** The replacement tiers take fresh ids; the kept ones are the caller's other rows. */
  lemma ReplaceTiersKeepsInvariant(s: State, p: Principal, specs: seq<Users.TierSpec>, db: Db)
    requires Invariant(s)
    ensures Invariant(Users.ReplaceTiers(s, p, specs, db).state)
  {
    var t := Users.ReplaceTiers(s, p, specs, db);
    if t.reply.Ok? {
      var s1 := t.state;
      var others := Users.OtherTiers(s.tiers, p.id);
      var inserted := Users.NewTiers(p.id, specs, s.nextId);
      assert s1.tiers == others + inserted;
      forall i | 0 <= i < |s1.tiers|
        ensures s1.tiers[i].id < s1.nextId
      {
        if i < |others| {
          assert s1.tiers[i] in others;
        } else {
          assert s1.tiers[i] == inserted[i - |others|];
        }
      }
    }
  }

  /** The payment routes keep every invariant. */
  lemma PaymentRoutesKeepInvariant(s: State, ctx: Context, p: Principal, req: Request)
    requires Invariant(s) && IsPaymentRoute(req)
    ensures Invariant(PaymentRoutes(s, ctx, p, req).state)
  {
    match req {
      case BuyContent(id, amount) =>
        assert PaymentRoutes(s, ctx, p, req).state == Payments.PurchaseContent(s, p, id, amount, ctx.db).state;
        PurchaseContentKeepsInvariant(s, p, id, amount, ctx.db);
      case BuyMessage(id, amount) =>
        assert PaymentRoutes(s, ctx, p, req).state == Payments.PurchaseMessage(s, p, id, amount, ctx.db).state;
        PurchaseMessageKeepsInvariant(s, p, id, amount, ctx.db);
      case ViewEarnings =>
    }
  }

  /** The content routes keep every invariant. */
  lemma ContentRoutesKeepInvariant(s: State, ctx: Context, p: Principal, req: Request)
    requires Invariant(s) && IsContentRoute(req)
    ensures Invariant(ContentRoutes(s, ctx, p, req).state)
  {
    match req {
      case CreatePost(post) =>
        assert ContentRoutes(s, ctx, p, req).state == Content.CreatePost(s, p, post, ctx.db).state;
        CreatePostKeepsInvariant(s, p, post, ctx.db);
      case ViewPost(id) =>
        assert ContentRoutes(s, ctx, p, req).state == Content.SealedPost(s, p, id, ctx.db).state;
        GetPostKeepsInvariant(s, p, id, ctx.db);
      case ToggleLike(id) =>
        assert ContentRoutes(s, ctx, p, req).state == Content.ToggleLike(s, p, id, ctx.db).state;
        ToggleLikeKeepsInvariant(s, p, id, ctx.db);
      case DeletePost(id) =>
        assert ContentRoutes(s, ctx, p, req).state == Content.DeletePost(s, p, id, ctx.db).state;
        DeletePostKeepsInvariant(s, p, id, ctx.db);
      case ViewFeed =>
    }
  }

  /** The message routes keep every invariant. */
  lemma MessageRoutesKeepInvariant(s: State, ctx: Context, p: Principal, req: Request)
    requires Invariant(s) && IsMessageRoute(req)
    ensures Invariant(MessageRoutes(s, ctx, p, req).state)
  {
    match req {
      case SendMessage(m) =>
        assert MessageRoutes(s, ctx, p, req).state == Messages.SendMessage(s, p, m, ctx.db).state;
        SendMessageKeepsInvariant(s, p, m, ctx.db);
      case ViewThread(other) =>
        assert MessageRoutes(s, ctx, p, req).state == Messages.SealedThread(s, p, other, ctx.db).state;
        ThreadKeepsInvariant(s, p, other, ctx.db);
      case MarkRead(id) =>
        assert MessageRoutes(s, ctx, p, req).state == Messages.MarkRead(s, p, id, ctx.db).state;
        MarkReadKeepsInvariant(s, p, id, ctx.db);
      case DeleteMessage(id) =>
        assert MessageRoutes(s, ctx, p, req).state == Messages.DeleteMessage(s, p, id, ctx.db).state;
        DeleteMessageKeepsInvariant(s, p, id, ctx.db);
    }
  }

  /** The subscription routes keep every invariant. */
  lemma SubscriptionRoutesKeepInvariant(s: State, ctx: Context, p: Principal, req: Request)
    requires Invariant(s) && IsSubscriptionRoute(req)
    ensures Invariant(SubscriptionRoutes(s, ctx, p, req).state)
  {
    match req {
      case Subscribe(creator, tier) =>
        assert SubscriptionRoutes(s, ctx, p, req).state == Subscriptions.Subscribe(s, p, creator, tier, ctx.db).state;
        SubscribeKeepsInvariant(s, p, creator, tier, ctx.db);
      case Unsubscribe(creator) =>
        assert SubscriptionRoutes(s, ctx, p, req).state == Subscriptions.Unsubscribe(s, p, creator, ctx.db).state;
        UnsubscribeKeepsInvariant(s, p, creator, ctx.db);
      case CheckStatus(_) =>
    }
  }

  /** The protected user routes keep every invariant. */
  lemma UserRoutesKeepInvariant(s: State, ctx: Context, p: Principal, req: Request)
    requires Invariant(s)
    requires !IsPublic(req) && !IsPaymentRoute(req) && !IsContentRoute(req) && !IsMessageRoute(req)
    requires !IsSubscriptionRoute(req)
    ensures Invariant(UserRoutes(s, ctx, p, req).state)
  {
    match req {
      case ReplaceTiers(specs) =>
        assert UserRoutes(s, ctx, p, req).state == Users.ReplaceTiers(s, p, specs, ctx.db).state;
        ReplaceTiersKeepsInvariant(s, p, specs, ctx.db);
      case UpdateProfile(u) =>
        assert UserRoutes(s, ctx, p, req).state == Users.UpdateProfile(s, p, u, ctx.db).state;
        UpdateProfileKeepsInvariant(s, p, u, ctx.db);
      case UpdateSettings(u) =>
        assert UserRoutes(s, ctx, p, req).state == Users.UpdateSettings(s, p, u, ctx.db).state;
        UpdateSettingsKeepsInvariant(s, p, u, ctx.db);
    }
  }

  /** Every request, whatever the database does, keeps every invariant of the store. */
  lemma StepKeepsInvariant(s: State, ctx: Context, req: Request)
    requires Invariant(s)
    ensures Invariant(Step(s, ctx, req).state)
  {
    if IsPublic(req) {
      PublicKeepsInvariant(s, ctx, req);
    } else if Middleware.Authenticate(s, ctx.authorization, ctx.decode).Ok? {
      var p := Middleware.Authenticate(s, ctx.authorization, ctx.decode).value;
      if IsPaymentRoute(req) {
        PaymentRoutesKeepInvariant(s, ctx, p, req);
      } else if IsContentRoute(req) {
        ContentRoutesKeepInvariant(s, ctx, p, req);
      } else if IsMessageRoute(req) {
        MessageRoutesKeepInvariant(s, ctx, p, req);
      } else if IsSubscriptionRoute(req) {
        SubscriptionRoutesKeepInvariant(s, ctx, p, req);
      } else {
        UserRoutesKeepInvariant(s, ctx, p, req);
      }
    }
  }

  /** A request without a usable token reaches no handler: 401, and nothing changes. */
  lemma MissingTokenRefused(s: State, ctx: Context, req: Request)
    requires !IsPublic(req) && ctx.authorization.None?
    ensures Step(s, ctx, req) == Transition(Err(Refused(401, Middleware.TokenRequired)), s)
  {
  }
}

=== FILE: auth_routes.dfy ===
/**
  backend/src/routes/auth.js: registration (validation, uniqueness, the atomic creation of
  the account, profile, settings and a creator's default tiers) and the login outcome order.

  Password hashing and comparison belong to bcrypt and are parameters: `hash` is the digest
  the hasher produced for this registration, `matches` is what `bcrypt.compare` answers.
 */
module AuthRoutes {
  import opened Store
  import opened Text
  import Middleware
  import Users

  const EmailRegistered := "Email already registered"
  const UsernameInUse := "Username already taken"
  const RegistrationFailed := "Registration failed"
  const InvalidCredentials := "Invalid credentials"

  /** The body of POST /register. */
  datatype Registration = Registration(email: string, password: string, userType: string,
                                       displayName: string, username: string)

  /** `isIn(['creator', 'fan'])`. */
  function ParseRole(name: string): (r: Option<Role>)
    ensures r == Some(Creator) <==> name == "creator"
    ensures r == Some(Fan) <==> name == "fan"
    ensures r.None? <==> name != "creator" && name != "fan"
  {
    if name == "creator" then Some(Creator) else if name == "fan" then Some(Fan) else None
  }

  /** The validator chain of POST /register (the email format checks are not modelled). */
  predicate ValidRegistration(req: Registration) {
    && |req.password| >= 8
    && ParseRole(req.userType).Some?
    && 2 <= |Trim(req.displayName)| <= 100
    && 3 <= |Trim(req.username)| <= 50 && IsWord(Trim(req.username))
  }

  /** The descriptions the registration block gives the default tiers. */
  const BasicDescription := "Access to all my content"
  const PremiumDescription := "Everything in Basic + exclusive content"
  const VipDescription := "Everything + 1-on-1 messaging"

  /** The three tiers every new creator starts with, ids from `firstId`. */
  function DefaultTiers(creator: Id, firstId: Id): (r: seq<Tier>)
    ensures |r| == 3
    ensures forall i :: 0 <= i < 3 ==> r[i].creatorId == creator && r[i].level == i + 1 && r[i].active
    ensures forall i :: 0 <= i < 3 ==> r[i].id == firstId + i && r[i].price >= MinimumAmount
    ensures r[0].name == "Basic" && r[1].name == "Premium" && r[2].name == "VIP"
    ensures r[0].price == 999 && r[1].price == 1999 && r[2].price == 4999
  {
    [Tier(firstId, creator, "Basic", 1, 999, BasicDescription, true),
     Tier(firstId + 1, creator, "Premium", 2, 1999, PremiumDescription, true),
     Tier(firstId + 2, creator, "VIP", 3, 4999, VipDescription, true)]
  }

  /** The write statements of the registration block: user, profile, settings, and three tiers for a creator. */
  function RegistrationStatements(role: Role): nat {
    if role == Creator then 6 else 3
  }

  /** The new user's settings row: every column at its schema default. */
  const DefaultSettings := Settings(None, None, None, None, None)

  /**
    POST /register: the validators; a registered email is refused before the username is
    looked at; then the user, profile, settings and (for a creator) default tiers are
    written in one transaction.
   */
  function Register(s: State, req: Registration, hash: string, db: Db): (t: Transition<Principal>)
    ensures t.reply.Err? ==> t.state == s
    ensures !ValidRegistration(req) ==> t.reply == Err(Invalid)
    ensures ValidRegistration(req) && EmailTaken(s, req.email) ==> t.reply == Err(Refused(400, EmailRegistered))
    ensures ValidRegistration(req) && !EmailTaken(s, req.email) && UsernameTaken(s, Trim(req.username))
            ==> t.reply == Err(Refused(400, UsernameInUse))
    ensures t.reply.Ok? <==>
            && ValidRegistration(req) && !EmailTaken(s, req.email) && !UsernameTaken(s, Trim(req.username))
            && Commits(db, RegistrationStatements(ParseRole(req.userType).value))
    ensures t.reply.Ok? ==>
            var id := s.nextId;
            var role := ParseRole(req.userType).value;
            && t.reply.value == Principal(id, role)
            && t.state.accounts == s.accounts + [Account(id, req.email, hash, role, true, false)]
            && t.state.profiles == s.profiles[id := Profile(Trim(req.displayName), Trim(req.username), None, None, None)]
            && t.state.settings == s.settings[id := DefaultSettings]
            && t.state.tiers == s.tiers + (if role == Creator then DefaultTiers(id, id + 1) else [])
            && t.state.nextId == s.nextId + (if role == Creator then 4 else 1)
            && t.state == s.(accounts := t.state.accounts, profiles := t.state.profiles,
                             settings := t.state.settings, tiers := t.state.tiers, nextId := t.state.nextId)
  {
    if !ValidRegistration(req) then Transition(Err(Invalid), s)
    else if exists a :: a in s.accounts && a.email == req.email then Transition(Err(Refused(400, EmailRegistered)), s)
    else if exists id :: id in s.profiles && s.profiles[id].username == Trim(req.username) then
      Transition(Err(Refused(400, UsernameInUse)), s)
    else
      var role := ParseRole(req.userType).value;
      if !Commits(db, RegistrationStatements(role)) then Transition(Err(Fault(RegistrationFailed)), s)
      else
        var id := s.nextId;
        Transition(Ok(Principal(id, role)),
                   s.(accounts := s.accounts + [Account(id, req.email, hash, role, true, false)],
                      profiles := s.profiles[id := Profile(Trim(req.displayName), Trim(req.username), None, None, None)],
                      settings := s.settings[id := DefaultSettings],
                      tiers := s.tiers + (if role == Creator then DefaultTiers(id, id + 1) else []),
                      nextId := s.nextId + (if role == Creator then 4 else 1)))
  }

  /** A new creator owns exactly the three default tiers; a new fan owns none. */
  lemma RegisterDefaultTiers(s: State, req: Registration, hash: string, db: Db)
    requires Register(s, req, hash, db).reply.Ok?
    requires forall i :: 0 <= i < |s.tiers| ==> s.tiers[i].creatorId != s.nextId
    ensures var t := Register(s, req, hash, db);
            Users.CreatorTiers(t.state.tiers, s.nextId)
            == (if t.reply.value.role == Creator then DefaultTiers(s.nextId, s.nextId + 1) else [])
  {
    var t := Register(s, req, hash, db);
    var extra := if t.reply.value.role == Creator then DefaultTiers(s.nextId, s.nextId + 1) else [];
    Users.CreatorTiersAppend(s.tiers, extra, s.nextId);
    Users.CreatorTiersNoneMatch(s.tiers, s.nextId);
    Users.CreatorTiersAllMatch(extra, s.nextId);
  }

  /** A registration keeps emails and usernames unique and every other invariant intact. */
  lemma RegisterKeepsConsistent(s: State, req: Registration, hash: string, db: Db)
    requires Consistent(s) && s.nextId !in s.profiles
    ensures Consistent(Register(s, req, hash, db).state)
  {
    RegisterKeepsEmailsUnique(s, req, hash, db);
    RegisterKeepsUsernamesUnique(s, req, hash, db);
    var t := Register(s, req, hash, db);
    if t.reply.Ok? {
      SameRowsKeepConsistent(s, t.state);
    }
  }

  lemma RegisterKeepsEmailsUnique(s: State, req: Registration, hash: string, db: Db)
    requires EmailsUnique(s)
    ensures EmailsUnique(Register(s, req, hash, db).state)
  {
    var t := Register(s, req, hash, db);
    if t.reply.Ok? {
      var s1 := t.state;
      var account := Account(s.nextId, req.email, hash, ParseRole(req.userType).value, true, false);
      assert s1.accounts == s.accounts + [account];
      forall i, j | 0 <= i < j < |s1.accounts|
        ensures s1.accounts[i].email != s1.accounts[j].email
      {
        assert s1.accounts[i] == s.accounts[i];
        if j == |s.accounts| {
          assert s.accounts[i] in s.accounts;
        } else {
          assert s1.accounts[j] == s.accounts[j];
        }
      }
    }
  }

  lemma RegisterKeepsUsernamesUnique(s: State, req: Registration, hash: string, db: Db)
    requires UsernamesUnique(s) && s.nextId !in s.profiles
    ensures UsernamesUnique(Register(s, req, hash, db).state)
  {
    var t := Register(s, req, hash, db);
    if t.reply.Ok? {
      var s1 := t.state;
      var p := Profile(Trim(req.displayName), Trim(req.username), None, None, None);
      assert s1.profiles == s.profiles[s.nextId := p];
      assert !UsernameTaken(s, p.username);
      NewProfileKeepsUsernamesUnique(s, s1, s.nextId, p);
    }
  }

  /**
    POST /login: an empty password fails validation; an unknown email and a wrong password
    both give 401 "Invalid credentials"; a deactivated account gives 403 before the password
    is compared.
   */
  function Login(s: State, email: string, password: string, matches: (string, string) -> bool): (r: Result<Principal>)
    ensures password == "" ==> r == Err(Invalid)
    ensures password != "" && AccountByEmail(s, email).None? ==> r == Err(Refused(401, InvalidCredentials))
    ensures password != "" && AccountByEmail(s, email).Some? && !AccountByEmail(s, email).value.active
            ==> r == Err(Refused(403, Middleware.Deactivated))
    ensures password != "" && AccountByEmail(s, email).Some? && AccountByEmail(s, email).value.active
            && !matches(password, AccountByEmail(s, email).value.passwordHash)
            ==> r == Err(Refused(401, InvalidCredentials))
    ensures password != "" && AccountByEmail(s, email).Some? && AccountByEmail(s, email).value.active
            && matches(password, AccountByEmail(s, email).value.passwordHash)
            ==> r == Ok(Principal(AccountByEmail(s, email).value.id, AccountByEmail(s, email).value.role))
    ensures r.Ok? ==> exists a :: a in s.accounts && a.email == email && a.active
                                  && matches(password, a.passwordHash) && r.value == Principal(a.id, a.role)
  {
    if password == "" then Err(Invalid)
    else
      match AccountByEmail(s, email)
      case None => Err(Refused(401, InvalidCredentials))
      case Some(a) =>
        if !a.active then Err(Refused(403, Middleware.Deactivated))
        else if !matches(password, a.passwordHash) then Err(Refused(401, InvalidCredentials))
        else Ok(Principal(a.id, a.role))
  }

  /** Right after registering, logging in with the same password (as the hasher accepts it) succeeds. */
  lemma RegisterThenLogin(s: State, req: Registration, hash: string, db: Db, matches: (string, string) -> bool)
    requires Register(s, req, hash, db).reply.Ok?
    requires matches(req.password, hash)
    ensures Login(Register(s, req, hash, db).state, req.email, req.password, matches)
            == Ok(Register(s, req, hash, db).reply.value)
  {
    var s1 := Register(s, req, hash, db).state;
    var account := Account(s.nextId, req.email, hash, ParseRole(req.userType).value, true, false);
    assert s1.accounts == s.accounts + [account];
    forall i | 0 <= i < |s.accounts|
      ensures s.accounts[i].email != req.email
    {
      assert s.accounts[i] in s.accounts;
    }
    FirstWhereAppended(s.accounts, account, (a: Account) => a.email == req.email);
    assert AccountByEmail(s1, req.email) == Some(account);
  }
}

=== FILE: content.dfy ===
/**
  backend/src/routes/content.js: creating a post, the feed and single-post access
  decisions, the view-count side effect, the like toggle and owner-only deletion.
 */
module Content {
  import opened Store
  import opened Text
  import Middleware
  import Payments

  const PriceRequired := "Price required for paid content"
  const ContentNotFound := "Content not found"
  const NotFoundOrUnauthorized := "Content not found or unauthorized"
  const LikeFailed := "Failed to like content"
  const CreateFailed := "Failed to create content"
  const FetchFailed := "Failed to get content"
  const DeleteFailed := "Failed to delete content"

  /** The body of POST / as the validators see it; absent optional fields are `None`. */
  datatype NewPost = NewPost(contentType: string, caption: Option<string>, isPaid: bool,
                             price: Option<Pence>, mediaUrls: Option<seq<string>>)

  /** `isIn(['image', 'video', 'text'])`. */
  function ParseContentType(name: string): (kind: Option<ContentType>)
    ensures kind.Some? <==> (name == "image" || name == "video" || name == "text")
  {
    if name == "image" then Some(Image)
    else if name == "video" then Some(Video)
    else if name == "text" then Some(Text)
    else None
  }

  /** The express-validator chain of POST /. */
  predicate ValidNewPost(req: NewPost) {
    && ParseContentType(req.contentType).Some?
    && (req.caption.Some? ==> |Trim(req.caption.value)| <= 2000)
    && (req.price.Some? ==> req.price.value >= MinimumAmount)
  }

  /** The row POST / inserts: the caption trimmed or '', the price only when paid, media or []. */
  function StoredPost(creator: Id, req: NewPost): Post
    requires ValidNewPost(req)
  {
    Post(creator, ParseContentType(req.contentType).value,
         if req.caption.Some? then Trim(req.caption.value) else "",
         req.isPaid,
         if req.isPaid then req.price else None,
         if req.mediaUrls.Some? then req.mediaUrls.value else [],
         0, 0)
  }

  /**
    POST /: creator-only (checked before the body), the validators, then a paid post
    without a price is refused; the one INSERT stores a row priced iff paid.
   */
  function CreatePost(s: State, caller: Principal, req: NewPost, db: Db): (t: Transition<(Id, Post)>)
    ensures t.reply.Err? ==> t.state == s
    ensures caller.role != Creator ==> t.reply == Err(Refused(403, Middleware.CreatorRequired))
    ensures caller.role == Creator && !ValidNewPost(req) ==> t.reply == Err(Invalid)
    ensures caller.role == Creator && ValidNewPost(req) && req.isPaid && req.price.None?
            ==> t.reply == Err(Refused(400, PriceRequired))
    ensures caller.role == Creator && ValidNewPost(req) && !(req.isPaid && req.price.None?) && !Commits(db, 1)
            ==> t.reply == Err(Fault(CreateFailed))
    ensures t.reply.Ok? <==>
            caller.role == Creator && ValidNewPost(req) && !(req.isPaid && req.price.None?) && Commits(db, 1)
    ensures t.reply.Ok? ==>
            var post := t.reply.value.1;
            && t.reply.value.0 == s.nextId
            && t.state == s.(posts := s.posts[s.nextId := post], nextId := s.nextId + 1)
            && post.creatorId == caller.id && post.isPaid == req.isPaid
            && post.price == (if req.isPaid then req.price else None)
            && WellPriced(post.isPaid, post.price)
            && post.caption == (if req.caption.Some? then Trim(req.caption.value) else "")
            && post.mediaUrls == (if req.mediaUrls.Some? then req.mediaUrls.value else [])
            && post.viewCount == 0 && post.likeCount == 0
  {
    if caller.role != Creator then Transition(Err(Refused(403, Middleware.CreatorRequired)), s)
    else if !ValidNewPost(req) then Transition(Err(Invalid), s)
    else if req.isPaid && req.price.None? then Transition(Err(Refused(400, PriceRequired)), s)
    else if !Commits(db, 1) then Transition(Err(Fault(CreateFailed)), s)
    else
      var post := StoredPost(caller.id, req);
      Transition(Ok((s.nextId, post)), s.(posts := s.posts[s.nextId := post], nextId := s.nextId + 1))
  }

  // ---------------------------------------------------------------------------
  // Access decisions
  // ---------------------------------------------------------------------------

  /** The query joins `profiles` on the creator: a post whose creator has none is not found. */
  predicate Listed(s: State, contentId: Id) {
    contentId in s.posts && s.posts[contentId].creatorId in s.profiles
  }

  /** `hasAccess` of GET /:contentId: free, bought by the viewer, or the viewer's own post. */
  predicate HasAccess(s: State, viewer: Id, contentId: Id)
    requires contentId in s.posts
  {
    var p := s.posts[contentId];
    !p.isPaid || HasBoughtContent(s, viewer, contentId) || p.creatorId == viewer
  }

  /** A feed entry: the row itself (media included) plus the per-viewer flags. */
  datatype FeedPost = FeedPost(post: Post, isLiked: bool, isPurchased: bool, isLocked: bool)

  /**
    GET /feed without ordering or pagination: every listed post, passed through unchanged
    (its media included), with `isLocked` = paid and not bought. The owner is not exempt.
   */
  function Feed(s: State, viewer: Principal): (feed: map<Id, FeedPost>)
    ensures forall id :: id in feed <==> Listed(s, id)
    ensures forall id :: id in feed ==> id in s.posts && feed[id].post == s.posts[id]
    ensures forall id :: id in feed ==>
              id in s.posts && feed[id].isLocked == (s.posts[id].isPaid && !HasBoughtContent(s, viewer.id, id))
    ensures forall id :: id in feed ==> feed[id].isPurchased == HasBoughtContent(s, viewer.id, id)
    ensures forall id :: id in feed ==> feed[id].isLiked == (Like(viewer.id, id) in s.likes)
  {
    map id | id in s.posts && s.posts[id].creatorId in s.profiles ::
      FeedPost(s.posts[id], Like(viewer.id, id) in s.likes, HasBoughtContent(s, viewer.id, id),
               s.posts[id].isPaid && !HasBoughtContent(s, viewer.id, id))
  }

  /**
    GET /:contentId's answer: the whole row (its `media_urls` column included), the flags,
    and the `mediaUrls` key, which holds the media only when the viewer has access.
   */
  datatype PostView = PostView(post: Post, isLiked: bool, isPurchased: bool, isLocked: bool,
                               mediaUrls: seq<string>)

  /**
    GET /:contentId: `isLocked` is the negation of access, the `mediaUrls` key is emptied
    without access (the row itself is sent whole), and each granted fetch adds exactly one
    view by one UPDATE (the answer shows the row as read before that update).
   */
  function GetPost(s: State, viewer: Principal, contentId: Id, db: Db): (t: Transition<PostView>)
    ensures !Listed(s, contentId) ==> t.reply == Err(Refused(404, ContentNotFound))
    ensures t.reply.Err? ==> t.state == s
    ensures Listed(s, contentId) && HasAccess(s, viewer.id, contentId) && !Commits(db, 1)
            ==> t.reply == Err(Fault(FetchFailed))
    ensures t.reply.Ok? <==> Listed(s, contentId) && (HasAccess(s, viewer.id, contentId) ==> Commits(db, 1))
    ensures t.reply.Ok? ==>
            var v := t.reply.value;
            && v.post == s.posts[contentId]
            && v.isPurchased == HasBoughtContent(s, viewer.id, contentId)
            && v.isLiked == (Like(viewer.id, contentId) in s.likes)
            && v.isLocked == !HasAccess(s, viewer.id, contentId)
            && v.mediaUrls == (if HasAccess(s, viewer.id, contentId) then s.posts[contentId].mediaUrls else [])
    ensures t.reply.Ok? ==>
            && t.state.posts.Keys == s.posts.Keys
            && t.state.posts[contentId].viewCount
               == s.posts[contentId].viewCount + (if HasAccess(s, viewer.id, contentId) then 1 else 0)
            && t.state.posts[contentId] == s.posts[contentId].(viewCount := t.state.posts[contentId].viewCount)
            && (forall id :: id in s.posts && id != contentId ==> t.state.posts[id] == s.posts[id])
            && t.state == s.(posts := t.state.posts)
  {
    if !(contentId in s.posts && s.posts[contentId].creatorId in s.profiles) then
      Transition(Err(Refused(404, ContentNotFound)), s)
    else
      var post := s.posts[contentId];
      var purchased := exists p :: p in s.contentPurchases && p.fanId == viewer.id && p.contentId == contentId;
      var access := !post.isPaid || purchased || post.creatorId == viewer.id;
      if access && !Commits(db, 1) then Transition(Err(Fault(FetchFailed)), s)
      else
        var after := if access then s.(posts := s.posts[contentId := post.(viewCount := post.viewCount + 1)]) else s;
        Transition(Ok(PostView(post, Like(viewer.id, contentId) in s.likes, purchased,
                               post.isPaid && !purchased && post.creatorId != viewer.id,
                               if access then post.mediaUrls else [])),
                   after)
  }

  /**
    The feed and the single-post view disagree only about the owner of a paid post they
    have not bought: the feed calls it locked, the single view does not. The feed has no
    `mediaUrls` key to empty; the single view empties it for a locked post.
   */
  lemma FeedVersusPostView(s: State, viewer: Principal, contentId: Id)
    requires contentId in Feed(s, viewer)
    ensures var f := Feed(s, viewer)[contentId];
            var v := GetPost(s, viewer, contentId, Healthy).reply.value;
            && f.isLocked == (v.isLocked || (s.posts[contentId].creatorId == viewer.id
                                             && s.posts[contentId].isPaid
                                             && !HasBoughtContent(s, viewer.id, contentId)))
            && f.post.mediaUrls == s.posts[contentId].mediaUrls
            && (v.isLocked ==> v.mediaUrls == [])
  {
  }

  /**
    Access gating around a purchase: after a fan buys a paid post, that fan's fetch is
    unlocked with the media under `mediaUrls`, while another viewer who neither bought nor
    owns it is still locked with that key empty.
   */
  lemma PurchaseUnlocksPost(s: State, fan: Principal, other: Principal, contentId: Id, amount: Pence, db: Db)
    requires Listed(s, contentId)
    requires Payments.PurchaseContent(s, fan, contentId, amount, db).reply.Ok?
    requires other.id != fan.id && other.id != s.posts[contentId].creatorId
    requires !HasBoughtContent(s, other.id, contentId)
    ensures var s1 := Payments.PurchaseContent(s, fan, contentId, amount, db).state;
            var mine := GetPost(s1, fan, contentId, Healthy).reply;
            var theirs := GetPost(s1, other, contentId, Healthy).reply;
            && mine.Ok? && !mine.value.isLocked && mine.value.mediaUrls == s.posts[contentId].mediaUrls
            && theirs.Ok? && theirs.value.isLocked && theirs.value.mediaUrls == []
  {
    var s1 := Payments.PurchaseContent(s, fan, contentId, amount, db).state;
    assert ContentPurchaseRow(fan.id, contentId, amount) in s1.contentPurchases;
    assert HasBoughtContent(s1, fan.id, contentId);
    assert !HasBoughtContent(s1, other.id, contentId);
  }

  /** The owner of a post always has access to it, paid or not, bought or not. */
  lemma OwnerAlwaysHasAccess(s: State, owner: Principal, contentId: Id)
    requires Listed(s, contentId) && s.posts[contentId].creatorId == owner.id
    ensures var v := GetPost(s, owner, contentId, Healthy).reply.value;
            !v.isLocked && v.mediaUrls == s.posts[contentId].mediaUrls
  {
  }

  /**
    As written, the answer spreads the whole row, so its `media_urls` column reaches a viewer
    whose `mediaUrls` key was emptied: a locked post with media still delivers them.
   */
  lemma LockedPostLeaksMedia(s: State, viewer: Principal, contentId: Id, db: Db)
    requires GetPost(s, viewer, contentId, db).reply.Ok?
    requires !HasAccess(s, viewer.id, contentId) && s.posts[contentId].mediaUrls != []
    ensures var v := GetPost(s, viewer, contentId, db).reply.value;
            && v.isLocked && v.mediaUrls == []
            && v.post.mediaUrls == s.posts[contentId].mediaUrls && v.post.mediaUrls != []
  {
  }

  /** The view with its row's media replaced by what the `mediaUrls` key holds. */
  function SealPost(v: PostView): PostView {
    v.(post := v.post.(mediaUrls := v.mediaUrls))
  }

  /**
    GET /:contentId as evidently intended: the same decision and the same side effect, but
    the row sent carries only the media the viewer may see.
   */
  function SealedPost(s: State, viewer: Principal, contentId: Id, db: Db): (t: Transition<PostView>)
    ensures t.state == GetPost(s, viewer, contentId, db).state
    ensures t.reply.Err? <==> GetPost(s, viewer, contentId, db).reply.Err?
    ensures t.reply.Err? ==> t.reply == GetPost(s, viewer, contentId, db).reply
    ensures t.reply.Ok? ==>
            var v := t.reply.value;
            var w := GetPost(s, viewer, contentId, db).reply.value;
            && v.isLocked == w.isLocked && v.isLiked == w.isLiked && v.isPurchased == w.isPurchased
            && v.mediaUrls == w.mediaUrls
            && v.post.(mediaUrls := w.post.mediaUrls) == w.post
  {
    var t := GetPost(s, viewer, contentId, db);
    match t.reply
    case Err(_) => t
    case Ok(v) => Transition(Ok(SealPost(v)), t.state)
  }

  /**
    In the sealed view a viewer without access receives no media under either key, and a
    viewer with access receives all of them under both.
   */
  lemma SealedPostHidesMedia(s: State, viewer: Principal, contentId: Id, db: Db)
    requires SealedPost(s, viewer, contentId, db).reply.Ok?
    ensures var v := SealedPost(s, viewer, contentId, db).reply.value;
            if HasAccess(s, viewer.id, contentId)
            then !v.isLocked && v.post.mediaUrls == s.posts[contentId].mediaUrls
                 && v.mediaUrls == s.posts[contentId].mediaUrls
            else v.isLocked && v.post.mediaUrls == [] && v.mediaUrls == []
  {
  }

  // ---------------------------------------------------------------------------
  // Likes
  // ---------------------------------------------------------------------------

  /** `UPDATE content_posts SET like_count = like_count + delta WHERE id = ...`. */
  function AdjustLikeCount(posts: map<Id, Post>, contentId: Id, delta: int): map<Id, Post> {
    if contentId in posts then posts[contentId := posts[contentId].(likeCount := posts[contentId].likeCount + delta)]
    else posts
  }

  /**
    POST /:contentId/like: two autocommitted statements, the like row first and the
    counter second. The route never checks that the content exists. A failure of the
    second statement keeps the first.
   */
  function ToggleLike(s: State, viewer: Principal, contentId: Id, db: Db): (t: Transition<bool>)
    ensures var like := Like(viewer.id, contentId);
            && (like in s.likes && Commits(db, 2) ==>
                  t == Transition(Ok(false), s.(likes := s.likes - {like},
                                                 posts := AdjustLikeCount(s.posts, contentId, -1))))
            && (like !in s.likes && Commits(db, 2) ==>
                  t == Transition(Ok(true), s.(likes := s.likes + {like},
                                                posts := AdjustLikeCount(s.posts, contentId, 1))))
            && (db == FailsAt(0) ==> t == Transition(Err(Fault(LikeFailed)), s))
            && (db == FailsAt(1) ==>
                  t == Transition(Err(Fault(LikeFailed)),
                                  s.(likes := if like in s.likes then s.likes - {like} else s.likes + {like})))
  {
    var like := Like(viewer.id, contentId);
    var liked := like !in s.likes;
    var s1 := s.(likes := if liked then s.likes + {like} else s.likes - {like});
    var s2 := s1.(posts := AdjustLikeCount(s.posts, contentId, if liked then 1 else -1));
    if !Commits(db, 1) then Transition(Err(Fault(LikeFailed)), s)
    else if !Commits(db, 2) then Transition(Err(Fault(LikeFailed)), s1)
    else Transition(Ok(liked), s2)
  }

  /** Toggling twice restores the like rows and the counter, and answers liked then unliked (or the reverse). */
  lemma ToggleLikeTwiceRestores(s: State, viewer: Principal, contentId: Id)
    ensures var t1 := ToggleLike(s, viewer, contentId, Healthy);
            var t2 := ToggleLike(t1.state, viewer, contentId, Healthy);
            && t1.reply.Ok? && t2.reply.Ok?
            && t2.reply.value == !t1.reply.value
            && t1.reply.value == (Like(viewer.id, contentId) !in s.likes)
            && t2.state == s
  {
    var like := Like(viewer.id, contentId);
    var t1 := ToggleLike(s, viewer, contentId, Healthy);
    var t2 := ToggleLike(t1.state, viewer, contentId, Healthy);
    if like in s.likes {
      assert s.likes - {like} + {like} == s.likes;
    } else {
      assert s.likes + {like} - {like} == s.likes;
    }
    if contentId in s.posts {
      assert t2.state.posts == s.posts;
    }
  }

  /** The users who like a post, according to the like rows. */
  function Likers(likes: set<Like>, contentId: Id): set<Id> {
    set l | l in likes && l.contentId == contentId :: l.userId
  }

  /** Every post's `like_count` equals its number of like rows. */
  predicate LikeCountsAgree(s: State) {
    forall id :: id in s.posts ==> s.posts[id].likeCount == |Likers(s.likes, id)|
  }

  /** A completed toggle keeps every `like_count` equal to its number of like rows. */
  lemma ToggleLikeKeepsCounts(s: State, viewer: Principal, contentId: Id)
    requires LikeCountsAgree(s)
    ensures LikeCountsAgree(ToggleLike(s, viewer, contentId, Healthy).state)
  {
    var like := Like(viewer.id, contentId);
    var s2 := ToggleLike(s, viewer, contentId, Healthy).state;
    forall id | id in s2.posts
      ensures s2.posts[id].likeCount == |Likers(s2.likes, id)|
    {
      if id != contentId {
        assert Likers(s2.likes, id) == Likers(s.likes, id);
      } else if like in s.likes {
        assert viewer.id in Likers(s.likes, id);
        assert Likers(s2.likes, id) == Likers(s.likes, id) - {viewer.id};
      } else {
        assert viewer.id !in Likers(s.likes, id);
        assert Likers(s2.likes, id) == Likers(s.likes, id) + {viewer.id};
      }
    }
  }

  /**
    Without a transaction, a failure between the two statements leaves the counter out of
    step with the like rows of an existing post.
   */
  lemma ToggleLikeFaultDriftsCount(s: State, viewer: Principal, contentId: Id)
    requires LikeCountsAgree(s) && contentId in s.posts
    ensures !LikeCountsAgree(ToggleLike(s, viewer, contentId, FailsAt(1)).state)
  {
    var like := Like(viewer.id, contentId);
    var s1 := ToggleLike(s, viewer, contentId, FailsAt(1)).state;
    if like in s.likes {
      assert viewer.id in Likers(s.likes, contentId);
      assert Likers(s1.likes, contentId) == Likers(s.likes, contentId) - {viewer.id};
    } else {
      assert viewer.id !in Likers(s.likes, contentId);
      assert Likers(s1.likes, contentId) == Likers(s.likes, contentId) + {viewer.id};
    }
  }

  // ---------------------------------------------------------------------------
  // Deletion
  // ---------------------------------------------------------------------------

  /**
    DELETE /:contentId: creator-only; one DELETE restricted to the caller's own posts, and
    404 when it removed nothing.
   */
  function DeletePost(s: State, caller: Principal, contentId: Id, db: Db): (t: Transition<()>)
    ensures t.reply.Err? ==> t.state == s
    ensures caller.role != Creator ==> t.reply == Err(Refused(403, Middleware.CreatorRequired))
    ensures caller.role == Creator && !Commits(db, 1) ==> t.reply == Err(Fault(DeleteFailed))
    ensures t.reply.Ok? <==>
            caller.role == Creator && Commits(db, 1) && contentId in s.posts && s.posts[contentId].creatorId == caller.id
    ensures caller.role == Creator && Commits(db, 1) && t.reply.Err?
            ==> t.reply.error == Refused(404, NotFoundOrUnauthorized)
    ensures t.reply.Ok? ==> t.state == s.(posts := s.posts - {contentId}) && contentId !in t.state.posts
  {
    if caller.role != Creator then Transition(Err(Refused(403, Middleware.CreatorRequired)), s)
    else if !Commits(db, 1) then Transition(Err(Fault(DeleteFailed)), s)
    else if contentId in s.posts && s.posts[contentId].creatorId == caller.id then
      Transition(Ok(()), s.(posts := s.posts - {contentId}))
    else Transition(Err(Refused(404, NotFoundOrUnauthorized)), s)
  }
}

=== FILE: cors.dfy ===
/**
  The CORS `origin` callback of backend/src/server.js: the allow-list of exact origins, the
  optional `FRONTEND_URL`, and the `/\.vercel\.app$/` pattern.
 */
module Cors {
  import opened Store
  import opened Text

  /** An element of `allowedOrigins`. */
  datatype Entry =
    | Exact(origin: string)       // a string element, compared with ===
    | Suffix(suffix: string)      // a RegExp anchored with $ at the end
    | Unset                       // `process.env.FRONTEND_URL` when it is not set

  const VercelSuffix := ".vercel.app"

  /** `allowedOrigins`, given the value of `FRONTEND_URL`. */
  function AllowedOrigins(frontendUrl: Option<string>): (entries: seq<Entry>)
    ensures |entries| == 4
    ensures entries[0] == Exact("http://localhost:3000") && entries[1] == Exact("http://localhost:5173")
    ensures entries[3] == Suffix(VercelSuffix)
    ensures entries[2] == (if frontendUrl.Some? then Exact(frontendUrl.value) else Unset)
  {
    [Exact("http://localhost:3000"), Exact("http://localhost:5173"),
     if frontendUrl.Some? then Exact(frontendUrl.value) else Unset,
     Suffix(VercelSuffix)]
  }

  /** The body of the `some` callback for one element. */
  predicate Admits(e: Entry, origin: string) {
    match e
    case Exact(o) => o == origin
    case Suffix(suffix) => EndsWith(origin, suffix)
    case Unset => false
  }

  /** `allowedOrigins.some(...)`. */
  function AnyAdmits(entries: seq<Entry>, origin: string): (allowed: bool)
    ensures allowed <==> exists i :: 0 <= i < |entries| && Admits(entries[i], origin)
    decreases |entries|
  {
    if |entries| == 0 then false
    else Admits(entries[0], origin) || AnyAdmits(entries[1..], origin)
  }

  /** The callback's decision: a missing or empty origin passes, otherwise the allow-list decides. */
  function AllowOrigin(origin: Option<string>, frontendUrl: Option<string>): (allowed: bool)
    ensures origin.None? || origin == Some("") ==> allowed
    ensures origin.Some? && origin.value != "" ==>
              (allowed <==> exists i :: 0 <= i < 4 && Admits(AllowedOrigins(frontendUrl)[i], origin.value))
  {
    if origin.None? || origin.value == "" then true
    else AnyAdmits(AllowedOrigins(frontendUrl), origin.value)
  }

  /**
    The allow-list in closed form: a non-empty origin passes iff it is one of the two local
    development origins, equals a set `FRONTEND_URL`, or ends in ".vercel.app".
   */
  lemma AllowOriginClosedForm(origin: string, frontendUrl: Option<string>)
    requires origin != ""
    ensures AllowOrigin(Some(origin), frontendUrl) <==>
            || origin == "http://localhost:3000"
            || origin == "http://localhost:5173"
            || frontendUrl == Some(origin)
            || EndsWith(origin, VercelSuffix)
  {
    var entries := AllowedOrigins(frontendUrl);
    if frontendUrl == Some(origin) {
      assert Admits(entries[2], origin);
    }
    if EndsWith(origin, VercelSuffix) {
      assert Admits(entries[3], origin);
    }
    if origin == "http://localhost:3000" {
      assert Admits(entries[0], origin);
    }
    if origin == "http://localhost:5173" {
      assert Admits(entries[1], origin);
    }
  }

  /** Any preview deployment on vercel.app passes, whatever `FRONTEND_URL` is. */
  lemma VercelPreviewAllowed(name: string, frontendUrl: Option<string>)
    ensures AllowOrigin(Some("https://" + name + VercelSuffix), frontendUrl)
  {
    var origin := "https://" + name + VercelSuffix;
    assert origin[|origin| - |VercelSuffix|..] == VercelSuffix;
    AllowOriginClosedForm(origin, frontendUrl);
  }

  /** Without `FRONTEND_URL`, the deployed frontend's origin is blocked unless it is on vercel.app. */
  lemma UnsetFrontendBlocks(origin: string)
    requires origin != "" && origin != "http://localhost:3000" && origin != "http://localhost:5173"
    requires !EndsWith(origin, VercelSuffix)
    ensures !AllowOrigin(Some(origin), None)
  {
    AllowOriginClosedForm(origin, None);
  }
}

=== FILE: explore.dfy ===
/**
  The `filteredCreators` predicate of src/pages/Explore.tsx: a category selection combined
  with a case-insensitive substring search over name, username and bio, and the "Clear
  filters" reset.
 */
module Explore {
  import opened Text

  datatype Category = All | Fitness | Lifestyle | Art | Music | Cooking | Gaming | Education

  /** The fields of a creator card the filter reads. */
  datatype Creator = Creator(id: string, name: string, username: string, category: Category, bio: string)

  predicate MatchesCategory(selected: Category, c: Creator) {
    selected == All || c.category == selected
  }

  predicate MatchesSearch(query: string, c: Creator) {
    var q := Lower(query);
    Contains(Lower(c.name), q) || Contains(Lower(c.username), q) || Contains(Lower(c.bio), q)
  }

  predicate Shown(query: string, selected: Category, c: Creator) {
    MatchesCategory(selected, c) && MatchesSearch(query, c)
  }

  /** `a` is `b` with some elements dropped, the rest in their original order. */
  predicate SubsequenceOf<T(==)>(a: seq<T>, b: seq<T>)
    decreases |b|
  {
    if |a| == 0 then true
    else if |b| == 0 then false
    else (a[0] == b[0] && SubsequenceOf(a[1..], b[1..])) || SubsequenceOf(a, b[1..])
  }

  /** `creators.filter(...)`. */
  function Filter(creators: seq<Creator>, query: string, selected: Category): (shown: seq<Creator>)
    ensures |shown| <= |creators|
    ensures forall c :: c in shown <==> c in creators && Shown(query, selected, c)
    decreases |creators|
  {
    if |creators| == 0 then []
    else
      var rest := Filter(creators[1..], query, selected);
      if Shown(query, selected, creators[0]) then [creators[0]] + rest else rest
  }

  /** The filter keeps the creators' relative order. */
  lemma {:induction false} FilterIsSubsequence(creators: seq<Creator>, query: string, selected: Category)
    ensures SubsequenceOf(Filter(creators, query, selected), creators)
    decreases |creators|
  {
    if |creators| > 0 {
      var rest := Filter(creators[1..], query, selected);
      FilterIsSubsequence(creators[1..], query, selected);
      if Shown(query, selected, creators[0]) {
        assert ([creators[0]] + rest)[1..] == rest;
      } else {
        SubsequenceOfDropHead(rest, creators);
      }
    }
  }

  /** A subsequence of the tail is a subsequence of the whole. */
  lemma {:induction false} SubsequenceOfDropHead<T>(a: seq<T>, b: seq<T>)
    requires |b| > 0 && SubsequenceOf(a, b[1..])
    ensures SubsequenceOf(a, b)
  {
  }

  /** The empty query matches every creator, since every string includes the empty string. */
  lemma EmptyQueryMatchesAll(c: Creator)
    ensures MatchesSearch("", c)
  {
    assert Lower("") == "";
    ContainsEmpty(Lower(c.name));
  }

  /** After "Clear filters" (empty query, category 'all') every creator is shown, in order. */
  lemma {:induction false} ClearFiltersShowsAll(creators: seq<Creator>)
    ensures Filter(creators, "", All) == creators
    decreases |creators|
  {
    if |creators| > 0 {
      EmptyQueryMatchesAll(creators[0]);
      ClearFiltersShowsAll(creators[1..]);
    }
  }

  /** The search ignores ASCII case: a query and its lower-cased form select the same creators. */
  lemma SearchIgnoresCase(query: string, c: Creator)
    ensures MatchesSearch(query, c) == MatchesSearch(Lower(query), c)
  {
    assert Lower(Lower(query)) == Lower(query);
  }

  /** A name containing the query (ignoring case) is found, at a position the search can name. */
  lemma NameMatchFound(query: string, c: Creator, i: int)
    requires OccursAt(Lower(c.name), Lower(query), i)
    ensures MatchesSearch(query, c)
  {
    ContainsIffOccurs(Lower(c.name), Lower(query));
  }
}

=== FILE: messages.dfy ===
/**
  backend/src/routes/messages.js: sending, the thread view with its lock flag, its emptied
  `mediaUrls` key and its read-marking side effect, marking one message read, and sender-only
  deletion.
 */
module Messages {
  import opened Store
  import opened Text
  import Payments

  const PriceRequired := "Price required for paid messages"
  const RecipientNotFound := "Recipient not found"
  const ThreadFailed := "Failed to get messages"
  const MarkReadFailed := "Failed to mark message as read"
  const NotFoundOrUnauthorized := "Message not found or unauthorized"
  const SendFailed := "Failed to send message"
  const DeleteFailed := "Failed to delete message"

  /** The body of POST / as the validators see it (the recipient's UUID format is not modelled). */
  datatype NewMessage = NewMessage(recipientId: Id, body: Option<string>, isPaid: bool,
                                   price: Option<Pence>, mediaUrls: Option<seq<string>>)

  predicate ValidNewMessage(req: NewMessage) {
    && (req.body.Some? ==> |Trim(req.body.value)| <= 2000)
    && (req.price.Some? ==> req.price.value >= MinimumAmount)
  }

  predicate IsActiveAccount(s: State, id: Id) {
    exists a :: a in s.accounts && a.id == id && a.active
  }

  /**
    POST /: the validators, a paid message without a price, then an active recipient; the
    one INSERT stores a row priced iff paid, unlocked iff free, and unread.
   */
  function SendMessage(s: State, caller: Principal, req: NewMessage, db: Db): (t: Transition<(Id, Message)>)
    ensures t.reply.Err? ==> t.state == s
    ensures !ValidNewMessage(req) ==> t.reply == Err(Invalid)
    ensures ValidNewMessage(req) && req.isPaid && req.price.None? ==> t.reply == Err(Refused(400, PriceRequired))
    ensures ValidNewMessage(req) && !(req.isPaid && req.price.None?) && !IsActiveAccount(s, req.recipientId)
            ==> t.reply == Err(Refused(404, RecipientNotFound))
    ensures ValidNewMessage(req) && !(req.isPaid && req.price.None?) && IsActiveAccount(s, req.recipientId) && !Commits(db, 1)
            ==> t.reply == Err(Fault(SendFailed))
    ensures t.reply.Ok? <==>
            ValidNewMessage(req) && !(req.isPaid && req.price.None?) && IsActiveAccount(s, req.recipientId)
            && Commits(db, 1)
    ensures t.reply.Ok? ==>
            var m := t.reply.value.1;
            && t.reply.value.0 == s.nextId
            && t.state == s.(messages := s.messages[s.nextId := m], nextId := s.nextId + 1)
            && m.senderId == caller.id && m.recipientId == req.recipientId
            && m.isPaid == req.isPaid && WellPriced(m.isPaid, m.price)
            && m.price == (if req.isPaid then req.price else None)
            && m.isUnlocked == !req.isPaid && !m.isRead
            && m.body == (if req.body.Some? then Trim(req.body.value) else "")
            && m.mediaUrls == (if req.mediaUrls.Some? then req.mediaUrls.value else [])
  {
    if !ValidNewMessage(req) then Transition(Err(Invalid), s)
    else if req.isPaid && req.price.None? then Transition(Err(Refused(400, PriceRequired)), s)
    else if !exists a :: a in s.accounts && a.id == req.recipientId && a.active then
      Transition(Err(Refused(404, RecipientNotFound)), s)
    else if !Commits(db, 1) then Transition(Err(Fault(SendFailed)), s)
    else
      var m := Message(caller.id, req.recipientId,
                       if req.body.Some? then Trim(req.body.value) else "",
                       req.isPaid, if req.isPaid then req.price else None,
                       if req.mediaUrls.Some? then req.mediaUrls.value else [],
                       !req.isPaid, false);
      Transition(Ok((s.nextId, m)), s.(messages := s.messages[s.nextId := m], nextId := s.nextId + 1))
  }

  // ---------------------------------------------------------------------------
  // The thread view
  // ---------------------------------------------------------------------------

  /** A message of the conversation between `viewer` and `other` whose sender has a profile. */
  predicate InThread(s: State, viewer: Id, other: Id, id: Id) {
    && id in s.messages
    && s.messages[id].senderId in s.profiles
    && ((s.messages[id].senderId == viewer && s.messages[id].recipientId == other)
        || (s.messages[id].senderId == other && s.messages[id].recipientId == viewer))
  }

  /** The lock flag of a thread entry: paid, never unlocked, not bought by the viewer, not the viewer's own. */
  predicate LockedFor(s: State, viewer: Id, id: Id)
    requires id in s.messages
  {
    var m := s.messages[id];
    m.isPaid && !m.isUnlocked && !HasBoughtMessage(s, viewer, id) && m.senderId != viewer
  }

  /** Whether the media of a thread entry are withheld: paid, not bought by the viewer, not the viewer's own. */
  predicate MediaWithheld(s: State, viewer: Id, id: Id)
    requires id in s.messages
  {
    var m := s.messages[id];
    m.isPaid && !HasBoughtMessage(s, viewer, id) && m.senderId != viewer
  }

  datatype MessageView = MessageView(message: Message, isPurchased: bool, isLocked: bool,
                                     mediaUrls: seq<string>)

  /** `UPDATE messages SET is_read = true WHERE recipient_id = viewer AND sender_id = other`. */
  function MarkThreadRead(messages: map<Id, Message>, viewer: Id, other: Id): (r: map<Id, Message>)
    ensures r.Keys == messages.Keys
    ensures forall id :: id in messages ==> r[id] == messages[id].(isRead := r[id].isRead)
    ensures forall id :: id in messages ==>
              r[id].isRead == (messages[id].isRead || (messages[id].recipientId == viewer && messages[id].senderId == other))
  {
    map id | id in messages ::
      if messages[id].recipientId == viewer && messages[id].senderId == other
      then messages[id].(isRead := true) else messages[id]
  }

  /** The entries of the thread as the viewer is shown them, read before any write. */
  function ThreadViews(s: State, viewer: Principal, other: Id): (views: map<Id, MessageView>)
    ensures forall id :: id in views <==> InThread(s, viewer.id, other, id)
    ensures forall id :: id in views ==>
              && id in s.messages
              && views[id].message == s.messages[id]
              && views[id].isPurchased == HasBoughtMessage(s, viewer.id, id)
              && views[id].isLocked == LockedFor(s, viewer.id, id)
              && views[id].mediaUrls == (if MediaWithheld(s, viewer.id, id) then [] else s.messages[id].mediaUrls)
  {
    map id | id in s.messages && InThread(s, viewer.id, other, id) ::
      MessageView(s.messages[id], HasBoughtMessage(s, viewer.id, id), LockedFor(s, viewer.id, id),
                  if MediaWithheld(s, viewer.id, id) then [] else s.messages[id].mediaUrls)
  }

  /**
    GET /thread/:userId without ordering or pagination. The answer is read before the one
    write statement, which marks read exactly the messages `other` sent to the viewer.
   */
  function Thread(s: State, viewer: Principal, other: Id, db: Db): (t: Transition<map<Id, MessageView>>)
    ensures !Commits(db, 1) ==> t == Transition(Err(Fault(ThreadFailed)), s)
    ensures t.reply.Ok? <==> Commits(db, 1)
    ensures t.reply.Ok? ==>
            var views := t.reply.value;
            && (forall id :: id in views <==> InThread(s, viewer.id, other, id))
            && (forall id :: id in views ==> id in s.messages && views[id].message == s.messages[id])
            && (forall id :: id in views ==>
                  id in s.messages && views[id].isPurchased == HasBoughtMessage(s, viewer.id, id))
            && (forall id :: id in views ==>
                  id in s.messages && views[id].isLocked == LockedFor(s, viewer.id, id))
            && (forall id :: id in views ==>
                  id in s.messages
                  && views[id].mediaUrls == (if MediaWithheld(s, viewer.id, id) then [] else s.messages[id].mediaUrls))
    ensures t.reply.Ok? ==>
            && t.state == s.(messages := t.state.messages)
            && t.state.messages.Keys == s.messages.Keys
            && (forall id :: id in s.messages ==>
                  t.state.messages[id] == s.messages[id].(isRead := t.state.messages[id].isRead))
            && (forall id :: id in s.messages ==>
                  t.state.messages[id].isRead
                  == (s.messages[id].isRead
                      || (s.messages[id].recipientId == viewer.id && s.messages[id].senderId == other)))
  {
    if !Commits(db, 1) then Transition(Err(Fault(ThreadFailed)), s)
    else Transition(Ok(ThreadViews(s, viewer, other)), s.(messages := MarkThreadRead(s.messages, viewer.id, other)))
  }

  /**
    As written, each entry spreads the whole row, so its `media_urls` column reaches a viewer
    whose `mediaUrls` key was emptied: a withheld message with media still delivers them.
   */
  lemma ThreadLeaksWithheldMedia(s: State, viewer: Principal, other: Id, db: Db, id: Id)
    requires Thread(s, viewer, other, db).reply.Ok? && id in Thread(s, viewer, other, db).reply.value
    requires MediaWithheld(s, viewer.id, id) && s.messages[id].mediaUrls != []
    ensures var e := Thread(s, viewer, other, db).reply.value[id];
            e.mediaUrls == [] && e.message.mediaUrls == s.messages[id].mediaUrls && e.message.mediaUrls != []
  {
  }

  /** The entry with its row's media replaced by what the `mediaUrls` key holds. */
  function SealEntry(e: MessageView): MessageView {
    e.(message := e.message.(mediaUrls := e.mediaUrls))
  }

  /**
    GET /thread/:userId as evidently intended: the same entries and the same read-marking,
    but each row sent carries only the media the viewer may see.
   */
  function SealedThread(s: State, viewer: Principal, other: Id, db: Db): (t: Transition<map<Id, MessageView>>)
    ensures t.state == Thread(s, viewer, other, db).state
    ensures t.reply.Err? <==> Thread(s, viewer, other, db).reply.Err?
    ensures t.reply.Err? ==> t.reply == Thread(s, viewer, other, db).reply
    ensures t.reply.Ok? ==>
            var views := t.reply.value;
            var raw := Thread(s, viewer, other, db).reply.value;
            && views.Keys == raw.Keys
            && (forall id :: id in views ==>
                  && views[id].isLocked == raw[id].isLocked && views[id].isPurchased == raw[id].isPurchased
                  && views[id].mediaUrls == raw[id].mediaUrls
                  && views[id].message.(mediaUrls := raw[id].message.mediaUrls) == raw[id].message)
  {
    var t := Thread(s, viewer, other, db);
    match t.reply
    case Err(_) => t
    case Ok(raw) => Transition(Ok(map id | id in raw :: SealEntry(raw[id])), t.state)
  }

  /**
    In the sealed thread an entry whose media are withheld carries none under either key,
    and any other entry carries all of them under both.
   */
  lemma SealedThreadHidesMedia(s: State, viewer: Principal, other: Id, db: Db, id: Id)
    requires SealedThread(s, viewer, other, db).reply.Ok? && id in SealedThread(s, viewer, other, db).reply.value
    ensures id in s.messages
    ensures var e := SealedThread(s, viewer, other, db).reply.value[id];
            if MediaWithheld(s, viewer.id, id)
            then e.message.mediaUrls == [] && e.mediaUrls == []
            else e.message.mediaUrls == s.messages[id].mediaUrls && e.mediaUrls == s.messages[id].mediaUrls
  {
  }

  /** Every locked entry also has its media withheld. */
  lemma LockedImpliesWithheld(s: State, viewer: Id, id: Id)
    requires id in s.messages && LockedFor(s, viewer, id)
    ensures MediaWithheld(s, viewer, id)
  {
  }

  /**
    The lock flag and the media disagree after a third party buys a message: the purchase
    sets the shared `is_unlocked` flag, so the recipient, who has not bought it, sees the
    message as unlocked yet with its `mediaUrls` key empty.
   */
  lemma ThirdPartyPurchaseUnlocksWithoutMedia(s: State, buyer: Principal, messageId: Id, amount: Pence, db: Db)
    requires Payments.PurchaseMessage(s, buyer, messageId, amount, db).reply.Ok?
    requires s.messages[messageId].senderId in s.profiles
    requires buyer.id != s.messages[messageId].recipientId
    requires s.messages[messageId].senderId != s.messages[messageId].recipientId
    requires !HasBoughtMessage(s, s.messages[messageId].recipientId, messageId)
    ensures var m := s.messages[messageId];
            var s1 := Payments.PurchaseMessage(s, buyer, messageId, amount, db).state;
            var t := Thread(s1, Principal(m.recipientId, Fan), m.senderId, Healthy);
            && t.reply.Ok? && messageId in t.reply.value
            && !t.reply.value[messageId].isLocked
            && t.reply.value[messageId].mediaUrls == []
  {
    var m := s.messages[messageId];
    var s1 := Payments.PurchaseMessage(s, buyer, messageId, amount, db).state;
    assert s1.messagePurchases == s.messagePurchases + [MessagePurchaseRow(buyer.id, messageId, amount)];
    assert !HasBoughtMessage(s1, m.recipientId, messageId);
    assert InThread(s1, m.recipientId, m.senderId, messageId);
  }

  /** After the recipient buys a message, their thread shows it unlocked and with its media. */
  lemma RecipientPurchaseUnlocksMessage(s: State, messageId: Id, amount: Pence, db: Db)
    requires messageId in s.messages && s.messages[messageId].senderId in s.profiles
    requires Payments.PurchaseMessage(s, Principal(s.messages[messageId].recipientId, Fan), messageId, amount, db).reply.Ok?
    ensures var m := s.messages[messageId];
            var s1 := Payments.PurchaseMessage(s, Principal(m.recipientId, Fan), messageId, amount, db).state;
            var t := Thread(s1, Principal(m.recipientId, Fan), m.senderId, Healthy);
            && t.reply.Ok? && messageId in t.reply.value
            && !t.reply.value[messageId].isLocked
            && t.reply.value[messageId].mediaUrls == m.mediaUrls
  {
    var m := s.messages[messageId];
    var s1 := Payments.PurchaseMessage(s, Principal(m.recipientId, Fan), messageId, amount, db).state;
    assert MessagePurchaseRow(m.recipientId, messageId, amount) in s1.messagePurchases;
    assert HasBoughtMessage(s1, m.recipientId, messageId);
    assert InThread(s1, m.recipientId, m.senderId, messageId);
  }

  // ---------------------------------------------------------------------------
  // Read flag and deletion
  // ---------------------------------------------------------------------------

  /**
    PUT /:messageId/read: always answers success; the flag changes only on a message whose
    recipient is the caller.
   */
  function MarkRead(s: State, caller: Principal, messageId: Id, db: Db): (t: Transition<()>)
    ensures t.reply.Ok? <==> Commits(db, 1)
    ensures t.reply.Err? ==> t == Transition(Err(Fault(MarkReadFailed)), s)
    ensures t.reply.Ok? && messageId in s.messages && s.messages[messageId].recipientId == caller.id
            ==> t.state == s.(messages := s.messages[messageId := s.messages[messageId].(isRead := true)])
    ensures !(messageId in s.messages && s.messages[messageId].recipientId == caller.id) ==> t.state == s
  {
    if !Commits(db, 1) then Transition(Err(Fault(MarkReadFailed)), s)
    else if messageId in s.messages && s.messages[messageId].recipientId == caller.id then
      Transition(Ok(()), s.(messages := s.messages[messageId := s.messages[messageId].(isRead := true)]))
    else Transition(Ok(()), s)
  }

  /** Marking a message read twice is marking it once. */
  lemma MarkReadIdempotent(s: State, caller: Principal, messageId: Id)
    ensures var s1 := MarkRead(s, caller, messageId, Healthy).state;
            MarkRead(s1, caller, messageId, Healthy).state == s1
  {
    var s1 := MarkRead(s, caller, messageId, Healthy).state;
    if messageId in s.messages && s.messages[messageId].recipientId == caller.id {
      assert s1.messages[messageId := s1.messages[messageId].(isRead := true)] == s1.messages;
    }
  }

  /** DELETE /:messageId: one DELETE restricted to the caller's own sent messages. */
  function DeleteMessage(s: State, caller: Principal, messageId: Id, db: Db): (t: Transition<()>)
    ensures t.reply.Err? ==> t.state == s
    ensures !Commits(db, 1) ==> t.reply == Err(Fault(DeleteFailed))
    ensures Commits(db, 1) && t.reply.Err? ==> t.reply == Err(Refused(404, NotFoundOrUnauthorized))
    ensures t.reply.Ok? <==> Commits(db, 1) && messageId in s.messages && s.messages[messageId].senderId == caller.id
    ensures t.reply.Ok? ==> t.state == s.(messages := s.messages - {messageId})
  {
    if !Commits(db, 1) then Transition(Err(Fault(DeleteFailed)), s)
    else if messageId in s.messages && s.messages[messageId].senderId == caller.id then
      Transition(Ok(()), s.(messages := s.messages - {messageId}))
    else Transition(Err(Refused(404, NotFoundOrUnauthorized)), s)
  }

  /** A deleted message leaves both participants' threads. */
  lemma DeletedMessageLeavesThread(s: State, caller: Principal, messageId: Id, db: Db, viewer: Principal, other: Id)
    requires DeleteMessage(s, caller, messageId, db).reply.Ok?
    ensures var t := Thread(DeleteMessage(s, caller, messageId, db).state, viewer, other, Healthy);
            t.reply.Ok? && messageId !in t.reply.value
  {
  }
}

=== FILE: middleware.dfy ===
/**
  The route guards of backend/src/middleware/auth.js: `authenticateToken` and the role and
  platform-subscription gates.

  Signature checking and expiry belong to the token library and are a parameter here: a
  `decode` function from the token text to the outcome `jwt.verify` would report.
 */
module Middleware {
  import opened Store

  /** What `jwt.verify` makes of a token. */
  datatype Decoded =
    | Verified(userId: Id)
    | InvalidToken     // JsonWebTokenError
    | ExpiredToken     // TokenExpiredError
    | VerifyError      // any other exception (for example NotBeforeError)

  const TokenRequired := "Access token required"
  const UserNotFound := "User not found"
  const Deactivated := "Account is deactivated"
  const BadToken := "Invalid token"
  const TokenExpired := "Token expired"
  const AuthenticationError := "Authentication error"
  const CreatorRequired := "Creator access required"
  const FanRequired := "Fan access required"
  const PlatformPlanRequired := "Active creator subscription required (£10/month)"

  /** The index of the first space of `s`, or `|s|` when there is none. */
  function IndexOfSpace(s: string): (i: nat)
    ensures i <= |s|
    ensures forall j :: 0 <= j < i ==> s[j] != ' '
    ensures i < |s| ==> s[i] == ' '
    decreases |s|
  {
    if |s| == 0 || s[0] == ' ' then 0 else 1 + IndexOfSpace(s[1..])
  }

  /**
    `authHeader && authHeader.split(' ')[1]`: the second space-separated field of the
    `Authorization` header, when there is a header and that field is non-empty.
   */
  function BearerToken(header: Option<string>): (token: Option<string>)
    ensures token.Some? ==> token.value != "" && forall k :: 0 <= k < |token.value| ==> token.value[k] != ' '
  {
    if header.None? then None
    else
      var h := header.value;
      var i := IndexOfSpace(h);
      if i == |h| then None
      else
        var rest := h[i + 1..];
        var field := rest[..IndexOfSpace(rest)];
        if field == "" then None else Some(field)
  }

  predicate NoSpace(s: string) {
    forall k :: 0 <= k < |s| ==> s[k] != ' '
  }

  /** The first space of `a + " " + b` is the one after `a` when `a` has none. */
  lemma IndexOfSpaceAfter(a: string, b: string)
    requires NoSpace(a)
    ensures IndexOfSpace(a + " " + b) == |a|
  {
    var s := a + " " + b;
    assert s[|a|] == ' ';
    assert forall k :: 0 <= k < |a| ==> s[k] == a[k];
  }

  /**
    A header of the form `<scheme> <token>[ <anything>]` yields exactly `<token>`; in
    particular `Bearer <token>` does.
   */
  lemma {:induction false} BearerTokenOfHeader(scheme: string, token: string, trailer: string)
    requires NoSpace(scheme) && NoSpace(token) && token != ""
    requires trailer == "" || trailer[0] == ' '
    ensures BearerToken(Some(scheme + " " + token + trailer)) == Some(token)
  {
    var h := scheme + " " + token + trailer;
    assert h == scheme + " " + (token + trailer);
    IndexOfSpaceAfter(scheme, token + trailer);
    var rest := h[|scheme| + 1..];
    assert rest == token + trailer;
    assert forall k :: 0 <= k < |token| ==> rest[k] == token[k];
    assert |trailer| > 0 ==> rest[|token|] == ' ';
    assert IndexOfSpace(rest) == |token|;
    assert rest[..|token|] == token;
  }

  /** A header without a space, such as a bare `Bearer`, carries no token. */
  lemma HeaderWithoutSpaceHasNoToken(h: string)
    requires NoSpace(h)
    ensures BearerToken(Some(h)).None?
  {
  }

  /** `authenticateToken`: the principal attached to the request, or the response it sends. */
  function Authenticate(s: State, header: Option<string>, decode: string -> Decoded): (r: Result<Principal>)
    ensures BearerToken(header).None? ==> r == Err(Refused(401, TokenRequired))
    ensures BearerToken(header).Some? && decode(BearerToken(header).value) == InvalidToken
            ==> r == Err(Refused(403, BadToken))
    ensures BearerToken(header).Some? && decode(BearerToken(header).value) == ExpiredToken
            ==> r == Err(Refused(403, TokenExpired))
    ensures BearerToken(header).Some? && decode(BearerToken(header).value) == VerifyError
            ==> r == Err(Fault(AuthenticationError))
    ensures BearerToken(header).Some? && decode(BearerToken(header).value).Verified?
            ==> var id := decode(BearerToken(header).value).userId;
                && (AccountById(s, id).None? ==> r == Err(Refused(401, UserNotFound)))
                && (AccountById(s, id).Some? && !AccountById(s, id).value.active
                    ==> r == Err(Refused(403, Deactivated)))
                && (AccountById(s, id).Some? && AccountById(s, id).value.active
                    ==> r == Ok(Principal(id, AccountById(s, id).value.role)))
    ensures r.Ok? ==> exists a :: a in s.accounts && a.id == r.value.id && a.active && a.role == r.value.role
  {
    match BearerToken(header)
    case None => Err(Refused(401, TokenRequired))
    case Some(token) =>
      match decode(token)
      case InvalidToken => Err(Refused(403, BadToken))
      case ExpiredToken => Err(Refused(403, TokenExpired))
      case VerifyError => Err(Fault(AuthenticationError))
      case Verified(id) =>
        match AccountById(s, id)
        case None => Err(Refused(401, UserNotFound))
        case Some(a) =>
          if !a.active then Err(Refused(403, Deactivated)) else Ok(Principal(a.id, a.role))
  }

  /** `requireCreator`. */
  function RequireCreator(p: Principal): (r: Result<()>)
    ensures r.Ok? <==> p.role == Creator
    ensures r.Err? ==> r.error == Refused(403, CreatorRequired)
  {
    if p.role != Creator then Err(Refused(403, CreatorRequired)) else Ok(())
  }

  /** `requireFan`. */
  function RequireFan(p: Principal): (r: Result<()>)
    ensures r.Ok? <==> p.role == Fan
    ensures r.Err? ==> r.error == Refused(403, FanRequired)
  {
    if p.role != Fan then Err(Refused(403, FanRequired)) else Ok(())
  }

  /** Exactly one of the two role gates lets a principal through. */
  lemma RoleGatesPartition(p: Principal)
    ensures RequireCreator(p).Ok? != RequireFan(p).Ok?
  {
  }

  predicate HasPlatformPlan(s: State, creator: Id) {
    exists c :: c in s.creatorSubscriptions && c.creatorId == creator && c.status == PlatformActive
  }

  /**
    `requireActiveSubscription`: non-creators always pass; a creator passes only with an
    active `creator_subscriptions` row (a past-due or canceled plan does not count).
   */
  function RequireActiveSubscription(s: State, p: Principal): (r: Result<()>)
    ensures p.role != Creator ==> r.Ok?
    ensures p.role == Creator ==> (r.Ok? <==> HasPlatformPlan(s, p.id))
    ensures r.Err? ==> r.error == Refused(403, PlatformPlanRequired)
  {
    if p.role != Creator then Ok(())
    else if exists c :: c in s.creatorSubscriptions && c.creatorId == p.id && c.status == PlatformActive then Ok(())
    else Err(Refused(403, PlatformPlanRequired))
  }
}

=== FILE: password_strength.dfy ===
/**
  src/components/PasswordStrength.tsx: the five requirements, the strength value, and the
  label and colour buckets of the meter.
 */
module PasswordStrength {
  import opened Store

  /** `[!@#$%^&*(),.?":{}|<>]`. */
  predicate IsSpecial(c: char) {
    c in "!@#$%^&*(),.?\":{}|<>"
  }

  predicate HasCharWhere(p: string, f: char -> bool) {
    exists i :: 0 <= i < |p| && f(p[i])
  }

  predicate IsUpper(c: char) { 'A' <= c <= 'Z' }
  predicate IsLower(c: char) { 'a' <= c <= 'z' }
  predicate IsDigit(c: char) { '0' <= c <= '9' }

  /** The five tests in the order the checklist lists them. */
  function Checks(p: string): seq<bool> {
    [|p| >= 8, HasCharWhere(p, IsUpper), HasCharWhere(p, IsLower), HasCharWhere(p, IsDigit),
     HasCharWhere(p, IsSpecial)]
  }

  /** The number of `true` entries. */
  function CountTrue(bs: seq<bool>): (n: nat)
    ensures n <= |bs|
    ensures n == 0 <==> forall i :: 0 <= i < |bs| ==> !bs[i]
    ensures n == |bs| <==> forall i :: 0 <= i < |bs| ==> bs[i]
    decreases |bs|
  {
    if |bs| == 0 then 0 else (if bs[0] then 1 else 0) + CountTrue(bs[1..])
  }

  /** `passedRequirements`. */
  function Passed(p: string): (n: nat)
    ensures n <= 5
  {
    CountTrue(Checks(p))
  }

  /** `strength`: 0 when nothing passes, otherwise passed / 5 * 100, which is passed * 20. */
  function Strength(p: string): (strength: nat)
    ensures strength <= 100 && strength % 20 == 0
    ensures strength == 0 <==> Passed(p) == 0
    ensures strength == 100 <==> Passed(p) == 5
    ensures strength == Passed(p) * 20
  {
    if Passed(p) == 0 then 0 else Passed(p) * 100 / 5
  }

  /** `getStrengthText()`. */
  function Label(strength: nat): string {
    if strength == 0 then "" else if strength < 40 then "Weak"
    else if strength < 60 then "Fair" else if strength < 80 then "Good" else "Strong"
  }

  /** `getStrengthColor()`: the bar colour. */
  function BarColour(strength: nat): string {
    if strength == 0 then "bg-gray-200" else if strength < 40 then "bg-red-500"
    else if strength < 60 then "bg-orange-500" else if strength < 80 then "bg-yellow-500" else "bg-green-500"
  }

  /** The label's text colour, which has no separate bucket for 0. */
  function TextColour(strength: nat): string {
    if strength < 40 then "text-red-600" else if strength < 60 then "text-orange-600"
    else if strength < 80 then "text-yellow-600" else "text-green-600"
  }

  /** What the meter shows. */
  datatype Meter = Meter(strength: nat, caption: string, barColour: string, textColour: string, checks: seq<bool>)

  /** The component: nothing at all for an empty password. */
  function Render(p: string): (m: Option<Meter>)
    ensures m.None? <==> p == ""
    ensures m.Some? ==> m.value.strength == Passed(p) * 20 && m.value.checks == Checks(p)
  {
    if p == "" then None
    else Some(Meter(Strength(p), Label(Strength(p)), BarColour(Strength(p)), TextColour(Strength(p)), Checks(p)))
  }

  /** The buckets by number of requirements met: none, 1 Weak, 2 Fair, 3 Good, 4 or 5 Strong. */
  lemma LabelByPassCount(p: string)
    ensures Label(Strength(p)) == (match Passed(p)
                                   case 0 => "" case 1 => "Weak" case 2 => "Fair" case 3 => "Good"
                                   case _ => "Strong")
    ensures BarColour(Strength(p)) == (match Passed(p)
                                       case 0 => "bg-gray-200" case 1 => "bg-red-500" case 2 => "bg-orange-500"
                                       case 3 => "bg-yellow-500" case _ => "bg-green-500")
  {
  }

  /** Counting is monotone: turning any entries from false to true never lowers the count. */
  lemma {:induction false} CountTrueMonotone(a: seq<bool>, b: seq<bool>)
    requires |a| == |b|
    requires forall i :: 0 <= i < |a| ==> a[i] ==> b[i]
    ensures CountTrue(a) <= CountTrue(b)
    decreases |a|
  {
    if |a| > 0 {
      CountTrueMonotone(a[1..], b[1..]);
    }
  }

  /** Typing more characters never lowers the strength. */
  lemma StrengthGrowsWithInput(p: string, more: string)
    ensures Strength(p) <= Strength(p + more)
  {
    var q := p + more;
    assert forall i :: 0 <= i < |p| ==> q[i] == p[i];
    var a := Checks(p);
    var b := Checks(q);
    forall i | 0 <= i < 5
      ensures a[i] ==> b[i]
    {
      if i == 1 && a[1] {
        var k :| 0 <= k < |p| && IsUpper(p[k]);
        assert IsUpper(q[k]);
      } else if i == 2 && a[2] {
        var k :| 0 <= k < |p| && IsLower(p[k]);
        assert IsLower(q[k]);
      } else if i == 3 && a[3] {
        var k :| 0 <= k < |p| && IsDigit(p[k]);
        assert IsDigit(q[k]);
      } else if i == 4 && a[4] {
        var k :| 0 <= k < |p| && IsSpecial(p[k]);
        assert IsSpecial(q[k]);
      }
    }
    CountTrueMonotone(a, b);
  }

  /**
    The two ends of the meter: full strength exactly when all five requirements hold, and
    nothing shown as met exactly when none of them does.
   */
  lemma StrengthExtremes(p: string)
    ensures Strength(p) == 100 <==>
            && |p| >= 8 && HasCharWhere(p, IsUpper) && HasCharWhere(p, IsLower)
            && HasCharWhere(p, IsDigit) && HasCharWhere(p, IsSpecial)
    ensures Strength(p) == 0 <==>
            && |p| < 8 && !HasCharWhere(p, IsUpper) && !HasCharWhere(p, IsLower)
            && !HasCharWhere(p, IsDigit) && !HasCharWhere(p, IsSpecial)
  {
    var c := Checks(p);
    assert c[0] == (|p| >= 8) && c[1] == HasCharWhere(p, IsUpper) && c[2] == HasCharWhere(p, IsLower);
    assert c[3] == HasCharWhere(p, IsDigit) && c[4] == HasCharWhere(p, IsSpecial);
  }
}

=== FILE: payments.dfy ===
/**
  backend/src/routes/payments.js: pay-per-view unlocks of content and messages, each
  written as one database transaction (a purchase row plus a fan-side and a seller-side
  ledger row), and the creator's earnings, always summed from the ledger.
 */
module Payments {
  import opened Store
  import Middleware

  const AlreadyPurchasedContent := "Content already purchased"
  const ContentNotFound := "Content not found"
  const ContentIsFree := "This content is free"
  const InvalidAmount := "Invalid amount"
  const ContentPurchaseFailed := "Failed to purchase content"
  const AlreadyPurchasedMessage := "Message already purchased"
  const MessageNotFound := "Message not found"
  const MessageIsFree := "This message is free"
  const MessagePurchaseFailed := "Failed to purchase message"

  /** The write block of a content purchase: three INSERT statements. */
  const ContentPurchaseStatements := 3

  /** The write block of a message purchase: an INSERT, an UPDATE and two INSERTs. */
  const MessagePurchaseStatements := 4

  /** The committed effect of a content purchase: one purchase row, two ledger rows. */
  function RecordContentPurchase(s: State, fan: Id, contentId: Id, seller: Id, amount: Pence): State {
    s.(contentPurchases := s.contentPurchases + [ContentPurchaseRow(fan, contentId, amount)],
       ledger := s.ledger + [Txn(fan, ContentPurchase, amount, Completed, "Purchased PPV content"),
                             Txn(seller, ContentSale, amount, Completed, "Content sale earnings")])
  }

  /** The committed effect of a message purchase, including the unlock of the message. */
  function RecordMessagePurchase(s: State, fan: Id, messageId: Id, amount: Pence): State
    requires messageId in s.messages
  {
    var m := s.messages[messageId];
    s.(messagePurchases := s.messagePurchases + [MessagePurchaseRow(fan, messageId, amount)],
       messages := s.messages[messageId := m.(isUnlocked := true)],
       ledger := s.ledger + [Txn(fan, MessagePurchase, amount, Completed, "Purchased paid message"),
                             Txn(m.senderId, MessageSale, amount, Completed, "Paid message earnings")])
  }

  /**
    POST /purchase-content. The duplicate check comes before the content is looked up,
    the amount must equal the price exactly, and the write block is all-or-nothing.
   */
  function PurchaseContent(s: State, caller: Principal, contentId: Id, amount: Pence, db: Db): (t: Transition<bool>)
    ensures t.reply.Err? ==> t.state == s
    ensures amount < MinimumAmount ==> t.reply == Err(Invalid)
    ensures amount >= MinimumAmount && HasBoughtContent(s, caller.id, contentId)
            ==> t.reply == Err(Refused(400, AlreadyPurchasedContent))
    ensures amount >= MinimumAmount && !HasBoughtContent(s, caller.id, contentId) && contentId !in s.posts
            ==> t.reply == Err(Refused(404, ContentNotFound))
    ensures amount >= MinimumAmount && !HasBoughtContent(s, caller.id, contentId) && contentId in s.posts
            && !s.posts[contentId].isPaid
            ==> t.reply == Err(Refused(400, ContentIsFree))
    ensures amount >= MinimumAmount && !HasBoughtContent(s, caller.id, contentId) && contentId in s.posts
            && s.posts[contentId].isPaid && s.posts[contentId].price != Some(amount)
            ==> t.reply == Err(Refused(400, InvalidAmount))
    ensures t.reply.Ok? <==>
            && amount >= MinimumAmount
            && !HasBoughtContent(s, caller.id, contentId)
            && contentId in s.posts && s.posts[contentId].isPaid
            && s.posts[contentId].price == Some(amount)
            && Commits(db, ContentPurchaseStatements)
    ensures t.reply.Ok? ==> t.reply.value
    ensures t.reply.Ok? ==>
            t.state == RecordContentPurchase(s, caller.id, contentId, s.posts[contentId].creatorId, amount)
  {
    if amount < MinimumAmount then Transition(Err(Invalid), s)
    else if exists p :: p in s.contentPurchases && p.fanId == caller.id && p.contentId == contentId then
      Transition(Err(Refused(400, AlreadyPurchasedContent)), s)
    else if contentId !in s.posts then Transition(Err(Refused(404, ContentNotFound)), s)
    else
      var post := s.posts[contentId];
      if !post.isPaid then Transition(Err(Refused(400, ContentIsFree)), s)
      else if post.price != Some(amount) then Transition(Err(Refused(400, InvalidAmount)), s)
      else if !Commits(db, ContentPurchaseStatements) then
        // ROLLBACK: none of the block's rows survive
        Transition(Err(Fault(ContentPurchaseFailed)), s)
      else Transition(Ok(true), RecordContentPurchase(s, caller.id, contentId, post.creatorId, amount))
  }

  /**
    POST /purchase-message: the same checks against the message (any authenticated user may
    buy any message by id), plus `is_unlocked := true` inside the block; the seller is the
    message's sender.
   */
  function PurchaseMessage(s: State, caller: Principal, messageId: Id, amount: Pence, db: Db): (t: Transition<bool>)
    ensures t.reply.Err? ==> t.state == s
    ensures amount < MinimumAmount ==> t.reply == Err(Invalid)
    ensures amount >= MinimumAmount && HasBoughtMessage(s, caller.id, messageId)
            ==> t.reply == Err(Refused(400, AlreadyPurchasedMessage))
    ensures amount >= MinimumAmount && !HasBoughtMessage(s, caller.id, messageId) && messageId !in s.messages
            ==> t.reply == Err(Refused(404, MessageNotFound))
    ensures amount >= MinimumAmount && !HasBoughtMessage(s, caller.id, messageId) && messageId in s.messages
            && !s.messages[messageId].isPaid
            ==> t.reply == Err(Refused(400, MessageIsFree))
    ensures amount >= MinimumAmount && !HasBoughtMessage(s, caller.id, messageId) && messageId in s.messages
            && s.messages[messageId].isPaid && s.messages[messageId].price != Some(amount)
            ==> t.reply == Err(Refused(400, InvalidAmount))
    ensures t.reply.Ok? <==>
            && amount >= MinimumAmount
            && !HasBoughtMessage(s, caller.id, messageId)
            && messageId in s.messages && s.messages[messageId].isPaid
            && s.messages[messageId].price == Some(amount)
            && Commits(db, MessagePurchaseStatements)
    ensures t.reply.Ok? ==> t.reply.value && t.state == RecordMessagePurchase(s, caller.id, messageId, amount)
    ensures t.reply.Ok? ==> t.state.messages[messageId].isUnlocked
  {
    if amount < MinimumAmount then Transition(Err(Invalid), s)
    else if exists p :: p in s.messagePurchases && p.fanId == caller.id && p.messageId == messageId then
      Transition(Err(Refused(400, AlreadyPurchasedMessage)), s)
    else if messageId !in s.messages then Transition(Err(Refused(404, MessageNotFound)), s)
    else
      var m := s.messages[messageId];
      if !m.isPaid then Transition(Err(Refused(400, MessageIsFree)), s)
      else if m.price != Some(amount) then Transition(Err(Refused(400, InvalidAmount)), s)
      else if !Commits(db, MessagePurchaseStatements) then
        Transition(Err(Fault(MessagePurchaseFailed)), s)
      else Transition(Ok(true), RecordMessagePurchase(s, caller.id, messageId, amount))
  }

  // ---------------------------------------------------------------------------
  // Earnings
  // ---------------------------------------------------------------------------

  predicate IsContentSale(k: TxnKind) { k == ContentSale }

  predicate IsMessageSale(k: TxnKind) { k == MessageSale }

  datatype Earnings = Earnings(totalEarnings: Pence, contentEarnings: Pence,
                               messageEarnings: Pence, totalSales: nat)

  /** The aggregate query of GET /earnings over a user's completed ledger rows. */
  function EarningsOf(ledger: seq<Txn>, user: Id): Earnings {
    Earnings(Sum(ledger, user, IsSale), Sum(ledger, user, IsContentSale),
             Sum(ledger, user, IsMessageSale), Count(ledger, user, IsSale))
  }

  /** Total earnings are always the content earnings plus the message earnings. */
  lemma EarningsSplit(ledger: seq<Txn>, user: Id)
    ensures EarningsOf(ledger, user).totalEarnings
            == EarningsOf(ledger, user).contentEarnings + EarningsOf(ledger, user).messageEarnings
  {
    SumSplit(ledger, user, IsSale, IsContentSale, IsMessageSale);
  }

  /**
    GET /earnings: creator-only, and the totals satisfy
    totalEarnings = contentEarnings + messageEarnings.
   */
  function GetEarnings(s: State, caller: Principal): (r: Result<Earnings>)
    ensures r.Err? <==> caller.role != Creator
    ensures r.Err? ==> r.error == Refused(403, Middleware.CreatorRequired)
    ensures r.Ok? ==> r.value.totalEarnings == r.value.contentEarnings + r.value.messageEarnings
  {
    if caller.role != Creator then Err(Refused(403, Middleware.CreatorRequired))
    else
      EarningsSplit(s.ledger, caller.id);
      Ok(EarningsOf(s.ledger, caller.id))
  }

  /** A creator with no ledger rows is reported zero earnings and zero sales. */
  lemma EarningsOfEmptyLedger(s: State, caller: Principal)
    requires caller.role == Creator && s.ledger == []
    ensures GetEarnings(s, caller) == Ok(Earnings(0, 0, 0, 0))
  {
  }

  /**
    One more ledger row changes a creator's report only if it is a completed sale row of
    theirs: its amount is added to the total and to the content or message figure its kind
    names, and the sale count rises by one. With the empty ledger this fixes the report as
    the sums over the caller's completed sale rows.
   */
  lemma {:induction false} EarningsReportAppend(s: State, caller: Principal, row: Txn)
    requires caller.role == Creator
    ensures var own := row.userId == caller.id && row.status == Completed;
            var before := GetEarnings(s, caller).value;
            GetEarnings(s.(ledger := s.ledger + [row]), caller)
            == Ok(Earnings(before.totalEarnings + (if own && IsSale(row.kind) then row.amount else 0),
                           before.contentEarnings + (if own && row.kind == ContentSale then row.amount else 0),
                           before.messageEarnings + (if own && row.kind == MessageSale then row.amount else 0),
                           before.totalSales + (if own && IsSale(row.kind) then 1 else 0)))
  {
    assert (s.ledger + [row])[..|s.ledger|] == s.ledger;
  }

  /** The positions of `user`'s completed sale rows, one per row id the report's COUNT(DISTINCT) sees. */
  function SaleRows(ledger: seq<Txn>, user: Id): set<int> {
    set i | 0 <= i < |ledger| && ledger[i].userId == user && ledger[i].status == Completed && IsSale(ledger[i].kind)
  }

  /** The recursive count of sale rows is the number of distinct such rows. */
  lemma {:induction false} CountIsSaleRows(ledger: seq<Txn>, user: Id)
    ensures Count(ledger, user, IsSale) == |SaleRows(ledger, user)|
    decreases |ledger|
  {
    if |ledger| > 0 {
      var n := |ledger| - 1;
      var init := ledger[..n];
      CountIsSaleRows(init, user);
      assert forall i :: 0 <= i < n ==> init[i] == ledger[i];
      var before := SaleRows(init, user);
      assert n !in before;
      if ledger[n].userId == user && ledger[n].status == Completed && IsSale(ledger[n].kind) {
        assert SaleRows(ledger, user) == before + {n};
      } else {
        assert SaleRows(ledger, user) == before;
      }
    }
  }

  /** A creator's `totalSales` is the number of their completed sale rows in the ledger. */
  lemma EarningsCountSaleRows(s: State, caller: Principal)
    requires caller.role == Creator
    ensures GetEarnings(s, caller).value.totalSales == |SaleRows(s.ledger, caller.id)|
  {
    CountIsSaleRows(s.ledger, caller.id);
  }

  /** The sums and counts over a two-row ledger extension. */
  lemma SumOfPair(a: Txn, b: Txn, user: Id, counts: TxnKind -> bool)
    ensures Sum([a, b], user, counts)
            == (if a.userId == user && a.status == Completed && counts(a.kind) then a.amount else 0)
             + (if b.userId == user && b.status == Completed && counts(b.kind) then b.amount else 0)
    ensures Count([a, b], user, counts)
            == (if a.userId == user && a.status == Completed && counts(a.kind) then 1 else 0)
             + (if b.userId == user && b.status == Completed && counts(b.kind) then 1 else 0)
    ensures LedgerTotal([a, b], counts)
            == (if a.status == Completed && counts(a.kind) then a.amount else 0)
             + (if b.status == Completed && counts(b.kind) then b.amount else 0)
  {
    assert [a, b][..1] == [a];
    assert [a][..0] == [];
    assert Sum([a], user, counts) == Sum([], user, counts)
      + (if a.userId == user && a.status == Completed && counts(a.kind) then a.amount else 0);
    assert Count([a], user, counts) == Count([], user, counts)
      + (if a.userId == user && a.status == Completed && counts(a.kind) then 1 else 0);
    assert LedgerTotal([a], counts) == LedgerTotal([], counts)
      + (if a.status == Completed && counts(a.kind) then a.amount else 0);
  }

  /**
    After a successful content purchase the seller's earnings report rises by exactly the
    amount (all of it content earnings) and their sale count by one; every other creator's
    report, the buyer's included, is unchanged.
   */
  lemma PurchaseContentCreditsSeller(s: State, caller: Principal, contentId: Id, amount: Pence, db: Db, creator: Principal)
    requires PurchaseContent(s, caller, contentId, amount, db).reply.Ok?
    requires creator.role == Creator
    ensures var before := GetEarnings(s, creator).value;
            var after := GetEarnings(PurchaseContent(s, caller, contentId, amount, db).state, creator).value;
            if creator.id == s.posts[contentId].creatorId then
              after == before.(totalEarnings := before.totalEarnings + amount,
                               contentEarnings := before.contentEarnings + amount,
                               totalSales := before.totalSales + 1)
            else after == before
  {
    var seller := s.posts[contentId].creatorId;
    var a := Txn(caller.id, ContentPurchase, amount, Completed, "Purchased PPV content");
    var b := Txn(seller, ContentSale, amount, Completed, "Content sale earnings");
    var user := creator.id;
    SumAppend(s.ledger, [a, b], user, IsSale);
    SumAppend(s.ledger, [a, b], user, IsContentSale);
    SumAppend(s.ledger, [a, b], user, IsMessageSale);
    SumOfPair(a, b, user, IsSale);
    SumOfPair(a, b, user, IsContentSale);
    SumOfPair(a, b, user, IsMessageSale);
  }

  /** The message counterpart: the sender is credited as message earnings. */
  lemma PurchaseMessageCreditsSender(s: State, caller: Principal, messageId: Id, amount: Pence, db: Db, creator: Principal)
    requires PurchaseMessage(s, caller, messageId, amount, db).reply.Ok?
    requires creator.role == Creator
    ensures var before := GetEarnings(s, creator).value;
            var after := GetEarnings(PurchaseMessage(s, caller, messageId, amount, db).state, creator).value;
            if creator.id == s.messages[messageId].senderId then
              after == before.(totalEarnings := before.totalEarnings + amount,
                               messageEarnings := before.messageEarnings + amount,
                               totalSales := before.totalSales + 1)
            else after == before
  {
    var seller := s.messages[messageId].senderId;
    var a := Txn(caller.id, MessagePurchase, amount, Completed, "Purchased paid message");
    var b := Txn(seller, MessageSale, amount, Completed, "Paid message earnings");
    var user := creator.id;
    SumAppend(s.ledger, [a, b], user, IsSale);
    SumAppend(s.ledger, [a, b], user, IsContentSale);
    SumAppend(s.ledger, [a, b], user, IsMessageSale);
    SumOfPair(a, b, user, IsSale);
    SumOfPair(a, b, user, IsContentSale);
    SumOfPair(a, b, user, IsMessageSale);
  }

  /**
    Buying the same content twice: the second attempt is refused as already purchased and
    changes nothing, so exactly one purchase row and one pair of ledger rows exist.
   */
  lemma NoDoubleContentPurchase(s: State, caller: Principal, contentId: Id, amount: Pence, db1: Db, db2: Db)
    requires PurchaseContent(s, caller, contentId, amount, db1).reply.Ok?
    ensures var s1 := PurchaseContent(s, caller, contentId, amount, db1).state;
            var t2 := PurchaseContent(s1, caller, contentId, amount, db2);
            && t2.reply == Err(Refused(400, AlreadyPurchasedContent))
            && t2.state == s1
            && |s1.contentPurchases| == |s.contentPurchases| + 1
            && |s1.ledger| == |s.ledger| + 2
  {
    var s1 := PurchaseContent(s, caller, contentId, amount, db1).state;
    assert s1.contentPurchases[|s.contentPurchases|] == ContentPurchaseRow(caller.id, contentId, amount);
  }

  /** A content purchase keeps every store invariant, the double-entry balance included. */
  lemma PurchaseContentKeepsConsistent(s: State, caller: Principal, contentId: Id, amount: Pence, db: Db)
    requires Consistent(s)
    ensures Consistent(PurchaseContent(s, caller, contentId, amount, db).state)
  {
    var t := PurchaseContent(s, caller, contentId, amount, db);
    if t.reply.Ok? {
      var seller := s.posts[contentId].creatorId;
      var a := Txn(caller.id, ContentPurchase, amount, Completed, "Purchased PPV content");
      var b := Txn(seller, ContentSale, amount, Completed, "Content sale earnings");
      var row := ContentPurchaseRow(caller.id, contentId, amount);
      SumAppend(s.ledger, [a, b], 0, IsSale);
      SumAppend(s.ledger, [a, b], 0, IsPurchase);
      SumOfPair(a, b, 0, IsSale);
      SumOfPair(a, b, 0, IsPurchase);
      assert (s.contentPurchases + [row])[..|s.contentPurchases|] == s.contentPurchases;
      var ps := t.state.contentPurchases;
      forall i, j | 0 <= i < j < |ps|
        ensures !(ps[i].fanId == ps[j].fanId && ps[i].contentId == ps[j].contentId)
      {
        if j == |s.contentPurchases| {
          assert ps[i] in s.contentPurchases;
        }
      }
    }
  }

  /** Recording a message purchase adds its amount to both sides of the double entry. */
  lemma RecordMessagePurchaseBalances(s: State, fan: Id, messageId: Id, amount: Pence)
    requires messageId in s.messages && LedgerBalanced(s)
    ensures LedgerBalanced(RecordMessagePurchase(s, fan, messageId, amount))
  {
    var a := Txn(fan, MessagePurchase, amount, Completed, "Purchased paid message");
    var b := Txn(s.messages[messageId].senderId, MessageSale, amount, Completed, "Paid message earnings");
    var row := MessagePurchaseRow(fan, messageId, amount);
    SumAppend(s.ledger, [a, b], 0, IsSale);
    SumAppend(s.ledger, [a, b], 0, IsPurchase);
    SumOfPair(a, b, 0, IsSale);
    SumOfPair(a, b, 0, IsPurchase);
    assert (s.messagePurchases + [row])[..|s.messagePurchases|] == s.messagePurchases;
  }

  /** A fan's first purchase of a message keeps the purchase rows unique. */
  lemma RecordMessagePurchaseKeepsUnique(s: State, fan: Id, messageId: Id, amount: Pence)
    requires messageId in s.messages && PurchasesUnique(s) && !HasBoughtMessage(s, fan, messageId)
    ensures PurchasesUnique(RecordMessagePurchase(s, fan, messageId, amount))
  {
    var ps := RecordMessagePurchase(s, fan, messageId, amount).messagePurchases;
    forall i, j | 0 <= i < j < |ps|
      ensures !(ps[i].fanId == ps[j].fanId && ps[i].messageId == ps[j].messageId)
    {
      if j == |s.messagePurchases| {
        assert ps[i] in s.messagePurchases;
      }
    }
  }

  /** A message purchase keeps every store invariant, the double-entry balance included. */
  lemma PurchaseMessageKeepsConsistent(s: State, caller: Principal, messageId: Id, amount: Pence, db: Db)
    requires Consistent(s)
    ensures Consistent(PurchaseMessage(s, caller, messageId, amount, db).state)
  {
    if PurchaseMessage(s, caller, messageId, amount, db).reply.Ok? {
      RecordMessagePurchaseBalances(s, caller.id, messageId, amount);
      RecordMessagePurchaseKeepsUnique(s, caller.id, messageId, amount);
    }
  }
}

=== FILE: store.dfy ===
/**
  The ledger store: every table the backend reads or writes, held in one immutable
  `State` record, plus the row lookups the route handlers share and the invariants the
  handlers are proved to keep.

  Money is integer pence. Identifiers are natural numbers drawn from `nextId`, which stands
  in for the database's UUID generation.
 */
module Store {

  datatype Option<+T> = None | Some(value: T)

  type Id = nat

  /** An amount of money in pence (the source carries decimals such as 9.99). */
  type Pence = int

  /** `isFloat({ min: 0.50 })`: the smallest amount or price a request may carry. */
  const MinimumAmount: Pence := 50

  datatype Role = Creator | Fan

  /** How a request is refused: the validator's 400, a 4xx with a message, or a 500. */
  datatype Error =
    | Invalid                                 // express-validator: 400 with an `errors` array
    | Refused(status: nat, message: string)   // 4xx with `error.message`
    | Fault(message: string)                  // 500 with `error.message`
  {
    function Status(): nat {
      match this
      case Invalid => 400
      case Refused(status, _) => status
      case Fault(_) => 500
    }
  }

  datatype Result<+T> = Ok(value: T) | Err(error: Error)

  // ---------------------------------------------------------------------------
  // Rows
  // ---------------------------------------------------------------------------

  /** A `users` row; `passwordHash` is whatever the hashing collaborator produced. */
  datatype Account = Account(id: Id, email: string, passwordHash: string, role: Role,
                             active: bool, verified: bool)

  /** A `profiles` row, keyed by its user's id. */
  datatype Profile = Profile(displayName: string, username: string, bio: Option<string>,
                             location: Option<string>, website: Option<string>)

  /** A `user_settings` row; `None` is the column's schema default. */
  datatype Settings = Settings(emailNotifications: Option<bool>, pushNotifications: Option<bool>,
                               profileVisibility: Option<string>, showOnlineStatus: Option<bool>,
                               allowMessagesFrom: Option<string>)

  datatype ContentType = Image | Video | Text

  /** A `content_posts` row. */
  datatype Post = Post(creatorId: Id, kind: ContentType, caption: string, isPaid: bool,
                       price: Option<Pence>, mediaUrls: seq<string>, viewCount: int, likeCount: int)

  /** A `messages` row. */
  datatype Message = Message(senderId: Id, recipientId: Id, body: string, isPaid: bool,
                             price: Option<Pence>, mediaUrls: seq<string>,
                             isUnlocked: bool, isRead: bool)

  /** A `likes` row. */
  datatype Like = Like(userId: Id, contentId: Id)

  /** A `subscription_tiers` row. */
  datatype Tier = Tier(id: Id, creatorId: Id, name: string, level: int, price: Pence,
                       description: string, active: bool)

  datatype SubscriptionStatus = Active | Canceled

  /** A `fan_subscriptions` row (the period columns are not modelled). */
  datatype FanSubscription = FanSubscription(fanId: Id, creatorId: Id, tierId: Id,
                                             status: SubscriptionStatus)

  datatype PlatformStatus = PlatformActive | PastDue | PlatformCanceled

  /** A `creator_subscriptions` row: the creator's own platform plan. */
  datatype CreatorSubscription = CreatorSubscription(creatorId: Id, status: PlatformStatus)

  datatype ContentPurchaseRow = ContentPurchaseRow(fanId: Id, contentId: Id, amount: Pence)
  datatype MessagePurchaseRow = MessagePurchaseRow(fanId: Id, messageId: Id, amount: Pence)

  datatype TxnKind = ContentPurchase | ContentSale | MessagePurchase | MessageSale | Subscription

  datatype TxnStatus = Completed | OtherStatus(name: string)

  /** A `transactions` row: the append-only ledger. */
  datatype Txn = Txn(userId: Id, kind: TxnKind, amount: Pence, status: TxnStatus,
                     description: string)

  datatype State = State(
    accounts: seq<Account>,
    profiles: map<Id, Profile>,
    settings: map<Id, Settings>,
    posts: map<Id, Post>,
    messages: map<Id, Message>,
    likes: set<Like>,
    contentPurchases: seq<ContentPurchaseRow>,
    messagePurchases: seq<MessagePurchaseRow>,
    tiers: seq<Tier>,
    fanSubscriptions: map<Id, FanSubscription>,
    creatorSubscriptions: seq<CreatorSubscription>,
    ledger: seq<Txn>,
    nextId: Id)

  /** The user `authenticateToken` attaches to the request. */
  datatype Principal = Principal(id: Id, role: Role)

  /** What a handler answers and the state it leaves behind. */
  datatype Transition<+T> = Transition(reply: Result<T>, state: State)

  /**
    How the database behaves during a handler's write statements: every statement
    succeeds, or the statement with the given index (counting from 0) throws.
   */
  datatype Db = Healthy | FailsAt(statement: nat)

  /** A block of `statements` writes runs to its end under `db`. */
  predicate Commits(db: Db, statements: nat) {
    db.Healthy? || statements <= db.statement
  }

  // ---------------------------------------------------------------------------
  // Lookups
  // ---------------------------------------------------------------------------

  /** The first row satisfying `p`, as `rows[0]` of a filtering query. */
  function FirstWhere<T>(rows: seq<T>, p: T -> bool): (r: Option<T>)
    ensures r.Some? ==> exists i :: 0 <= i < |rows| && rows[i] == r.value && p(rows[i])
                                    && forall j :: 0 <= j < i ==> !p(rows[j])
    ensures r.None? <==> forall i :: 0 <= i < |rows| ==> !p(rows[i])
    decreases |rows|
  {
    if |rows| == 0 then None
    else if p(rows[0]) then Some(rows[0])
    else FirstWhere(rows[1..], p)
  }

  /** A row appended after rows none of which satisfies `p` is the first row that does. */
  lemma FirstWhereAppended<T>(rows: seq<T>, x: T, p: T -> bool)
    requires forall i :: 0 <= i < |rows| ==> !p(rows[i])
    requires p(x)
    ensures FirstWhere(rows + [x], p) == Some(x)
  {
    assert (rows + [x])[|rows|] == x;
    forall i | 0 <= i < |rows|
      ensures (rows + [x])[i] == rows[i]
    {
    }
  }

  function AccountById(s: State, id: Id): Option<Account> {
    FirstWhere(s.accounts, (a: Account) => a.id == id)
  }

  function AccountByEmail(s: State, email: string): Option<Account> {
    FirstWhere(s.accounts, (a: Account) => a.email == email)
  }

  predicate EmailTaken(s: State, email: string) {
    exists a :: a in s.accounts && a.email == email
  }

  predicate UsernameTaken(s: State, username: string) {
    exists id :: id in s.profiles && s.profiles[id].username == username
  }

  predicate HasBoughtContent(s: State, fan: Id, contentId: Id) {
    exists p :: p in s.contentPurchases && p.fanId == fan && p.contentId == contentId
  }

  predicate HasBoughtMessage(s: State, fan: Id, messageId: Id) {
    exists p :: p in s.messagePurchases && p.fanId == fan && p.messageId == messageId
  }

  predicate HasActiveSubscription(s: State, fan: Id, creator: Id) {
    exists id :: id in s.fanSubscriptions && s.fanSubscriptions[id].fanId == fan
                 && s.fanSubscriptions[id].creatorId == creator
                 && s.fanSubscriptions[id].status == Active
  }

  // ---------------------------------------------------------------------------
  // Ledger sums (the earnings aggregate is always derived, never stored)
  // ---------------------------------------------------------------------------

  predicate IsSale(k: TxnKind) { k == ContentSale || k == MessageSale }

  predicate IsPurchase(k: TxnKind) { k == ContentPurchase || k == MessagePurchase }

  /** The sum of the completed rows of `user` whose kind satisfies `counts`. */
  function Sum(ledger: seq<Txn>, user: Id, counts: TxnKind -> bool): Pence
    decreases |ledger|
  {
    if |ledger| == 0 then 0
    else
      var t := ledger[|ledger| - 1];
      Sum(ledger[..|ledger| - 1], user, counts)
      + (if t.userId == user && t.status == Completed && counts(t.kind) then t.amount else 0)
  }

  /** The number of completed rows of `user` whose kind satisfies `counts`. */
  function Count(ledger: seq<Txn>, user: Id, counts: TxnKind -> bool): nat
    decreases |ledger|
  {
    if |ledger| == 0 then 0
    else
      var t := ledger[|ledger| - 1];
      Count(ledger[..|ledger| - 1], user, counts)
      + (if t.userId == user && t.status == Completed && counts(t.kind) then 1 else 0)
  }

  /** The sum over all users of the completed rows whose kind satisfies `counts`. */
  function LedgerTotal(ledger: seq<Txn>, counts: TxnKind -> bool): Pence
    decreases |ledger|
  {
    if |ledger| == 0 then 0
    else
      var t := ledger[|ledger| - 1];
      LedgerTotal(ledger[..|ledger| - 1], counts)
      + (if t.status == Completed && counts(t.kind) then t.amount else 0)
  }

  function ContentPurchaseTotal(rows: seq<ContentPurchaseRow>): Pence
    decreases |rows|
  {
    if |rows| == 0 then 0 else ContentPurchaseTotal(rows[..|rows| - 1]) + rows[|rows| - 1].amount
  }

  function MessagePurchaseTotal(rows: seq<MessagePurchaseRow>): Pence
    decreases |rows|
  {
    if |rows| == 0 then 0 else MessagePurchaseTotal(rows[..|rows| - 1]) + rows[|rows| - 1].amount
  }

  /** Appending rows to the ledger adds their contributions to a user's sum and count. */
  lemma {:induction false} SumAppend(ledger: seq<Txn>, extra: seq<Txn>, user: Id, counts: TxnKind -> bool)
    ensures Sum(ledger + extra, user, counts) == Sum(ledger, user, counts) + Sum(extra, user, counts)
    ensures Count(ledger + extra, user, counts) == Count(ledger, user, counts) + Count(extra, user, counts)
    ensures LedgerTotal(ledger + extra, counts) == LedgerTotal(ledger, counts) + LedgerTotal(extra, counts)
    decreases |extra|
  {
    if |extra| == 0 {
      assert ledger + extra == ledger;
    } else {
      var init := extra[..|extra| - 1];
      assert (ledger + extra)[..|ledger + extra| - 1] == ledger + init;
      SumAppend(ledger, init, user, counts);
    }
  }

  /** Splitting the counted kinds into two disjoint groups splits the sum. */
  lemma {:induction false} SumSplit(ledger: seq<Txn>, user: Id, both: TxnKind -> bool,
                                    left: TxnKind -> bool, right: TxnKind -> bool)
    requires forall k :: both(k) == (left(k) || right(k))
    requires forall k :: !(left(k) && right(k))
    ensures Sum(ledger, user, both) == Sum(ledger, user, left) + Sum(ledger, user, right)
    decreases |ledger|
  {
    if |ledger| > 0 {
      SumSplit(ledger[..|ledger| - 1], user, both, left, right);
    }
  }

  // ---------------------------------------------------------------------------
  // Invariants
  // ---------------------------------------------------------------------------

  /** At most one purchase row per (fan, content) and per (fan, message). */
  predicate PurchasesUnique(s: State) {
    && (forall i, j :: 0 <= i < j < |s.contentPurchases| ==>
          !(s.contentPurchases[i].fanId == s.contentPurchases[j].fanId
            && s.contentPurchases[i].contentId == s.contentPurchases[j].contentId))
    && (forall i, j :: 0 <= i < j < |s.messagePurchases| ==>
          !(s.messagePurchases[i].fanId == s.messagePurchases[j].fanId
            && s.messagePurchases[i].messageId == s.messagePurchases[j].messageId))
  }

  /** At most one active fan subscription per (fan, creator). */
  predicate SingleActiveSubscription(s: State) {
    forall a, b :: a in s.fanSubscriptions && b in s.fanSubscriptions && a != b
      && s.fanSubscriptions[a].status == Active && s.fanSubscriptions[b].status == Active
      ==> !(s.fanSubscriptions[a].fanId == s.fanSubscriptions[b].fanId
            && s.fanSubscriptions[a].creatorId == s.fanSubscriptions[b].creatorId)
  }

  predicate EmailsUnique(s: State) {
    forall i, j :: 0 <= i < j < |s.accounts| ==> s.accounts[i].email != s.accounts[j].email
  }

  predicate UsernamesUnique(s: State) {
    forall a, b :: a in s.profiles && b in s.profiles && a != b
      ==> s.profiles[a].username != s.profiles[b].username
  }

  /** A paid item carries a price of at least the minimum; a free one carries none. */
  predicate WellPriced(isPaid: bool, price: Option<Pence>) {
    if isPaid then price.Some? && price.value >= MinimumAmount else price.None?
  }

  predicate PricesWellFormed(s: State) {
    && (forall id :: id in s.posts ==> WellPriced(s.posts[id].isPaid, s.posts[id].price))
    && (forall id :: id in s.messages ==> WellPriced(s.messages[id].isPaid, s.messages[id].price))
  }

  /**
    Double entry: the completed sale rows, the completed purchase rows and the purchase
    tables all total the same amount.
   */
  predicate LedgerBalanced(s: State) {
    var purchased := ContentPurchaseTotal(s.contentPurchases) + MessagePurchaseTotal(s.messagePurchases);
    && LedgerTotal(s.ledger, IsSale) == purchased
    && LedgerTotal(s.ledger, IsPurchase) == purchased
  }

  /** The invariants every request keeps. */
  predicate Consistent(s: State) {
    && PurchasesUnique(s)
    && SingleActiveSubscription(s)
    && EmailsUnique(s)
    && UsernamesUnique(s)
    && PricesWellFormed(s)
    && LedgerBalanced(s)
  }

  /** A profile added under a new id, with a username no profile has, keeps usernames unique. */
  lemma NewProfileKeepsUsernamesUnique(s: State, s1: State, id: Id, p: Profile)
    requires UsernamesUnique(s) && id !in s.profiles
    requires s1.profiles == s.profiles[id := p]
    requires forall k :: k in s.profiles ==> s.profiles[k].username != p.username
    ensures UsernamesUnique(s1)
  {
    forall a, b | a in s1.profiles && b in s1.profiles && a != b
      ensures s1.profiles[a].username != s1.profiles[b].username
    {
      if a == id {
        assert s1.profiles[b] == s.profiles[b];
      } else if b == id {
        assert s1.profiles[a] == s.profiles[a];
      } else {
        assert s1.profiles[a] == s.profiles[a] && s1.profiles[b] == s.profiles[b];
      }
    }
  }

  /**
    The invariants that do not read accounts, profiles, settings or tiers hold of a state
    that shares the other tables with one where they hold.
   */
  lemma SameRowsKeepConsistent(s: State, s1: State)
    requires Consistent(s) && EmailsUnique(s1) && UsernamesUnique(s1)
    requires s1.posts == s.posts && s1.messages == s.messages && s1.fanSubscriptions == s.fanSubscriptions
    requires s1.ledger == s.ledger && s1.contentPurchases == s.contentPurchases
    requires s1.messagePurchases == s.messagePurchases
    ensures Consistent(s1)
  {
  }
}

=== FILE: subscriptions.dfy ===
/**
  backend/src/routes/subscriptions.js: subscribing a fan to a creator's tier, cancelling,
  and the status check.
 */
module Subscriptions {
  import opened Store
  import Payments

  const FansOnly := "Only fans can subscribe to creators"
  const AlreadySubscribed := "Already subscribed to this creator"
  const TierNotFound := "Subscription tier not found"
  const SubscribeFailed := "Failed to subscribe"
  const SubscriptionNotFound := "Subscription not found"
  const UnsubscribeFailed := "Failed to unsubscribe"

  /** `SELECT * FROM subscription_tiers WHERE id = tierId AND creator_id = creatorId`, first row. */
  function FindTier(tiers: seq<Tier>, tierId: Id, creatorId: Id): (r: Option<Tier>)
    ensures r.Some? ==> r.value in tiers && r.value.id == tierId && r.value.creatorId == creatorId
    ensures r.None? <==> forall i :: 0 <= i < |tiers| ==> !(tiers[i].id == tierId && tiers[i].creatorId == creatorId)
  {
    FirstWhere(tiers, (t: Tier) => t.id == tierId && t.creatorId == creatorId)
  }

  /** The ledger row a subscription writes: the fan's side only, at the tier's price. */
  function SubscriptionTxn(fan: Id, tier: Tier): Txn {
    Txn(fan, Subscription, tier.price, Completed, "Subscribed to creator - " + tier.name + " tier")
  }

  /**
    POST /subscribe: fans only; no second active subscription to the same creator; the tier
    must belong to the creator (its active flag is not consulted). The subscription row and
    the ledger row are two autocommitted statements, so a failure of the second keeps the
    first.
   */
  function Subscribe(s: State, caller: Principal, creatorId: Id, tierId: Id, db: Db): (t: Transition<Id>)
    ensures caller.role != Fan ==> t == Transition(Err(Refused(403, FansOnly)), s)
    ensures caller.role == Fan && HasActiveSubscription(s, caller.id, creatorId)
            ==> t == Transition(Err(Refused(400, AlreadySubscribed)), s)
    ensures caller.role == Fan && !HasActiveSubscription(s, caller.id, creatorId)
            && FindTier(s.tiers, tierId, creatorId).None?
            ==> t == Transition(Err(Refused(404, TierNotFound)), s)
    ensures t.reply.Ok? <==>
            && caller.role == Fan && !HasActiveSubscription(s, caller.id, creatorId)
            && FindTier(s.tiers, tierId, creatorId).Some? && Commits(db, 2)
    ensures t.reply.Ok? ==>
            var tier := FindTier(s.tiers, tierId, creatorId).value;
            && t.reply.value == s.nextId
            && t.state == s.(fanSubscriptions := s.fanSubscriptions[s.nextId := FanSubscription(caller.id, creatorId, tierId, Active)],
                             ledger := s.ledger + [SubscriptionTxn(caller.id, tier)],
                             nextId := s.nextId + 1)
    ensures db == FailsAt(0) ==> t.state == s
    ensures db == FailsAt(1) && caller.role == Fan && !HasActiveSubscription(s, caller.id, creatorId)
            && FindTier(s.tiers, tierId, creatorId).Some?
            ==> t == Transition(Err(Fault(SubscribeFailed)),
                                s.(fanSubscriptions := s.fanSubscriptions[s.nextId := FanSubscription(caller.id, creatorId, tierId, Active)],
                                   nextId := s.nextId + 1))
  {
    if caller.role != Fan then Transition(Err(Refused(403, FansOnly)), s)
    else if exists id :: id in s.fanSubscriptions && s.fanSubscriptions[id].fanId == caller.id
                         && s.fanSubscriptions[id].creatorId == creatorId
                         && s.fanSubscriptions[id].status == Active then
      Transition(Err(Refused(400, AlreadySubscribed)), s)
    else
      match FindTier(s.tiers, tierId, creatorId)
      case None => Transition(Err(Refused(404, TierNotFound)), s)
      case Some(tier) =>
        var s1 := s.(fanSubscriptions := s.fanSubscriptions[s.nextId := FanSubscription(caller.id, creatorId, tierId, Active)],
                     nextId := s.nextId + 1);
        if !Commits(db, 1) then Transition(Err(Fault(SubscribeFailed)), s)
        else if !Commits(db, 2) then Transition(Err(Fault(SubscribeFailed)), s1)
        else Transition(Ok(s.nextId), s1.(ledger := s.ledger + [SubscriptionTxn(caller.id, tier)]))
  }

  /** `UPDATE fan_subscriptions SET status = 'canceled' WHERE fan_id = ... AND creator_id = ... AND status = 'active'`. */
  function CancelAll(subs: map<Id, FanSubscription>, fan: Id, creator: Id): map<Id, FanSubscription> {
    map id | id in subs ::
      if subs[id].fanId == fan && subs[id].creatorId == creator && subs[id].status == Active
      then subs[id].(status := Canceled) else subs[id]
  }

  /**
    POST /unsubscribe/:creatorId: cancels every active subscription of the caller to the
    creator in one statement; 404 when there was none.
   */
  function Unsubscribe(s: State, caller: Principal, creatorId: Id, db: Db): (t: Transition<()>)
    ensures !Commits(db, 1) ==> t == Transition(Err(Fault(UnsubscribeFailed)), s)
    ensures Commits(db, 1) && !HasActiveSubscription(s, caller.id, creatorId)
            ==> t == Transition(Err(Refused(404, SubscriptionNotFound)), s)
    ensures t.reply.Ok? <==> Commits(db, 1) && HasActiveSubscription(s, caller.id, creatorId)
    ensures t.reply.Ok? ==>
            && t.state == s.(fanSubscriptions := t.state.fanSubscriptions)
            && t.state.fanSubscriptions.Keys == s.fanSubscriptions.Keys
            && !HasActiveSubscription(t.state, caller.id, creatorId)
            && (forall id :: id in s.fanSubscriptions ==>
                  var before := s.fanSubscriptions[id];
                  t.state.fanSubscriptions[id]
                  == (if before.fanId == caller.id && before.creatorId == creatorId then before.(status := Canceled) else before))
  {
    if !Commits(db, 1) then Transition(Err(Fault(UnsubscribeFailed)), s)
    else if !exists id :: id in s.fanSubscriptions && s.fanSubscriptions[id].fanId == caller.id
                          && s.fanSubscriptions[id].creatorId == creatorId
                          && s.fanSubscriptions[id].status == Active then
      Transition(Err(Refused(404, SubscriptionNotFound)), s)
    else
      Transition(Ok(()), s.(fanSubscriptions := CancelAll(s.fanSubscriptions, caller.id, creatorId)))
  }

  predicate TierExists(s: State, tierId: Id) {
    exists i :: 0 <= i < |s.tiers| && s.tiers[i].id == tierId
  }

  /**
    GET /status/:creatorId: subscribed iff an active subscription of the caller to the
    creator joins to an existing tier row.
   */
  function Status(s: State, caller: Principal, creatorId: Id): (subscribed: bool)
    ensures subscribed ==> HasActiveSubscription(s, caller.id, creatorId)
    ensures subscribed <==>
            exists id :: id in s.fanSubscriptions && s.fanSubscriptions[id].fanId == caller.id
                         && s.fanSubscriptions[id].creatorId == creatorId
                         && s.fanSubscriptions[id].status == Active
                         && TierExists(s, s.fanSubscriptions[id].tierId)
  {
    exists id :: id in s.fanSubscriptions && s.fanSubscriptions[id].fanId == caller.id
                 && s.fanSubscriptions[id].creatorId == creatorId
                 && s.fanSubscriptions[id].status == Active
                 && exists i :: 0 <= i < |s.tiers| && s.tiers[i].id == s.fanSubscriptions[id].tierId
  }

  /** Every fan subscription points at an existing tier row. */
  predicate TiersReferenced(s: State) {
    forall id :: id in s.fanSubscriptions ==> TierExists(s, s.fanSubscriptions[id].tierId)
  }

  /** While every subscription's tier exists, the status check agrees with the subscribe guard. */
  lemma StatusMatchesGuard(s: State, caller: Principal, creatorId: Id)
    requires TiersReferenced(s)
    ensures Status(s, caller, creatorId) == HasActiveSubscription(s, caller.id, creatorId)
  {
    if HasActiveSubscription(s, caller.id, creatorId) {
      var id :| id in s.fanSubscriptions && s.fanSubscriptions[id].fanId == caller.id
                && s.fanSubscriptions[id].creatorId == creatorId
                && s.fanSubscriptions[id].status == Active;
      assert TierExists(s, s.fanSubscriptions[id].tierId);
    }
  }

  /** A successful subscription is reported by the status check and blocks a second one. */
  lemma SubscribeThenStatus(s: State, caller: Principal, creatorId: Id, tierId: Id, db: Db)
    requires Subscribe(s, caller, creatorId, tierId, db).reply.Ok?
    ensures var s1 := Subscribe(s, caller, creatorId, tierId, db).state;
            && Status(s1, caller, creatorId)
            && Subscribe(s1, caller, creatorId, tierId, db).reply == Err(Refused(400, AlreadySubscribed))
  {
    var s1 := Subscribe(s, caller, creatorId, tierId, db).state;
    var tier := FindTier(s.tiers, tierId, creatorId).value;
    assert s1.fanSubscriptions[s.nextId] == FanSubscription(caller.id, creatorId, tierId, Active);
    var i :| 0 <= i < |s.tiers| && s.tiers[i] == tier;
    assert TierExists(s1, tierId);
  }

  /** Cancelling ends the subscription; the fan may then subscribe again. */
  lemma UnsubscribeThenResubscribe(s: State, caller: Principal, creatorId: Id, tierId: Id)
    requires caller.role == Fan
    requires Unsubscribe(s, caller, creatorId, Healthy).reply.Ok?
    requires FindTier(s.tiers, tierId, creatorId).Some?
    ensures var s1 := Unsubscribe(s, caller, creatorId, Healthy).state;
            && !Status(s1, caller, creatorId)
            && Subscribe(s1, caller, creatorId, tierId, Healthy).reply.Ok?
  {
  }

  /** A subscription keeps at most one active row per fan and creator. */
  lemma SubscribeKeepsSingleActive(s: State, caller: Principal, creatorId: Id, tierId: Id, db: Db)
    requires SingleActiveSubscription(s)
    ensures SingleActiveSubscription(Subscribe(s, caller, creatorId, tierId, db).state)
  {
  }

  /** The subscription charge is recorded for the fan only: no user's earnings change. */
  lemma SubscribeCreditsNoEarnings(s: State, caller: Principal, creatorId: Id, tierId: Id, db: Db, user: Id)
    ensures Payments.EarningsOf(Subscribe(s, caller, creatorId, tierId, db).state.ledger, user)
            == Payments.EarningsOf(s.ledger, user)
  {
    var t := Subscribe(s, caller, creatorId, tierId, db);
    if t.reply.Ok? {
      var x := SubscriptionTxn(caller.id, FindTier(s.tiers, tierId, creatorId).value);
      assert [x][..0] == [];
      SumAppend(s.ledger, [x], user, IsSale);
      SumAppend(s.ledger, [x], user, Payments.IsContentSale);
      SumAppend(s.ledger, [x], user, Payments.IsMessageSale);
    }
  }

  /** A subscription leaves every invariant of the store intact, whatever the database does. */
  lemma SubscribeKeepsConsistent(s: State, caller: Principal, creatorId: Id, tierId: Id, db: Db)
    requires Consistent(s)
    ensures Consistent(Subscribe(s, caller, creatorId, tierId, db).state)
  {
    var t := Subscribe(s, caller, creatorId, tierId, db);
    if t.reply.Ok? {
      var x := SubscriptionTxn(caller.id, FindTier(s.tiers, tierId, creatorId).value);
      assert [x][..0] == [];
      SumAppend(s.ledger, [x], 0, IsSale);
      SumAppend(s.ledger, [x], 0, IsPurchase);
    }
  }

  /** Cancelling keeps at most one active row per fan and creator. */
  lemma UnsubscribeKeepsSingleActive(s: State, caller: Principal, creatorId: Id, db: Db)
    requires SingleActiveSubscription(s)
    ensures SingleActiveSubscription(Unsubscribe(s, caller, creatorId, db).state)
  {
  }
}

=== FILE: text.dfy ===
/**
  String helpers the validators and the Explore filter rely on: `trim()`, `toLowerCase()`,
  `includes()`, a suffix test and the username character class.

  `trim()` is modelled on the six ASCII whitespace characters below (space, tab, line feed,
  vertical tab, form feed, carriage return); the non-ASCII spaces and line terminators it
  also removes are not. `toLowerCase()` folds `A`-`Z` only.
 */
module Text {

  predicate IsSpace(c: char) {
    c == ' ' || c == '\t' || c == '\n' || c == '\r' || c == '\U{000B}' || c == '\U{000C}'
  }

  function TrimStart(s: string): (r: string)
    ensures |r| <= |s| && r == s[|s| - |r|..]
    ensures |r| == 0 || !IsSpace(r[0])
    ensures forall i :: 0 <= i < |s| - |r| ==> IsSpace(s[i])
    decreases |s|
  {
    if |s| > 0 && IsSpace(s[0]) then TrimStart(s[1..]) else s
  }

  function TrimEnd(s: string): (r: string)
    ensures |r| <= |s| && r == s[..|r|]
    ensures |r| == 0 || !IsSpace(r[|r| - 1])
    ensures forall i :: |r| <= i < |s| ==> IsSpace(s[i])
    decreases |s|
  {
    if |s| > 0 && IsSpace(s[|s| - 1]) then TrimEnd(s[..|s| - 1]) else s
  }

  /** `String.prototype.trim`: the longest slice of `s` with no whitespace at either end. */
  function Trim(s: string): (r: string)
    ensures |r| <= |s|
    ensures exists k :: TrimmedAt(s, k, r)
    ensures |r| == 0 || (!IsSpace(r[0]) && !IsSpace(r[|r| - 1]))
  {
    var t := TrimStart(s);
    var r := TrimEnd(t);
    assert TrimmedAt(s, |s| - |t|, r);
    r
  }

  /** `r` is the slice of `s` at `k`, and everything of `s` around it is whitespace. */
  predicate TrimmedAt(s: string, k: int, r: string) {
    && 0 <= k <= |s| - |r| && r == s[k..k + |r|]
    && (forall i :: 0 <= i < k ==> IsSpace(s[i]))
    && (forall i :: k + |r| <= i < |s| ==> IsSpace(s[i]))
  }

  /** Trimming twice is trimming once. */
  lemma TrimIdempotent(s: string)
    ensures Trim(Trim(s)) == Trim(s)
  {
    var r := Trim(s);
    assert TrimStart(r) == r;
    assert TrimEnd(r) == r;
  }

  function LowerChar(c: char): (d: char)
    ensures 'A' <= c <= 'Z' ==> 'a' <= d <= 'z'
    ensures !('A' <= c <= 'Z') ==> d == c
  {
    if 'A' <= c <= 'Z' then (c as int + 32) as char else c
  }

  /** `String.prototype.toLowerCase`, restricted to ASCII letters. */
  function Lower(s: string): (r: string)
    ensures |r| == |s|
    ensures forall i :: 0 <= i < |s| ==> r[i] == LowerChar(s[i])
  {
    seq(|s|, i requires 0 <= i < |s| => LowerChar(s[i]))
  }

  /** `hay.includes(needle)`, defined by walking `hay`. */
  predicate Contains(hay: string, needle: string)
    decreases |hay|
  {
    needle <= hay || (|hay| > 0 && Contains(hay[1..], needle))
  }

  /** `needle` occurs in `hay` starting at position `i`. */
  predicate OccursAt(hay: string, needle: string, i: int) {
    0 <= i && i + |needle| <= |hay| && hay[i..i + |needle|] == needle
  }

  /** `Contains` holds exactly when `needle` occurs at some position of `hay`. */
  lemma {:induction false} ContainsIffOccurs(hay: string, needle: string)
    ensures Contains(hay, needle) <==> exists i :: OccursAt(hay, needle, i)
    decreases |hay|
  {
    if needle <= hay {
      assert OccursAt(hay, needle, 0);
    } else if |hay| > 0 {
      ContainsIffOccurs(hay[1..], needle);
      if exists i :: OccursAt(hay, needle, i) {
        var i :| OccursAt(hay, needle, i);
        assert i != 0;
        assert OccursAt(hay[1..], needle, i - 1);
      }
      if exists i :: OccursAt(hay[1..], needle, i) {
        var i :| OccursAt(hay[1..], needle, i);
        assert OccursAt(hay, needle, i + 1);
      }
    }
  }

  /** Every string includes the empty string. */
  lemma ContainsEmpty(hay: string)
    ensures Contains(hay, "")
  {
  }

  /** `s` ends with `suffix`, as a `/suffix$/` test does. */
  predicate EndsWith(s: string, suffix: string) {
    |suffix| <= |s| && s[|s| - |suffix|..] == suffix
  }

  /** The character class `[a-zA-Z0-9_]`. */
  predicate IsWordChar(c: char) {
    ('a' <= c <= 'z') || ('A' <= c <= 'Z') || ('0' <= c <= '9') || c == '_'
  }

  /** `/^[a-zA-Z0-9_]+$/.test(s)`. */
  predicate IsWord(s: string) {
    |s| > 0 && forall i :: 0 <= i < |s| ==> IsWordChar(s[i])
  }
}

=== FILE: users.dfy ===
/**
  backend/src/routes/users.js: the public profile lookup, partial profile and settings
  updates, and the atomic replacement of a creator's subscription tiers.
 */
module Users {
  import opened Store
  import opened Text
  import Middleware
  import Subscriptions

  const UserNotFound := "User not found"
  const NoUpdates := "No updates provided"
  const ProfileUpdateFailed := "Failed to update profile"
  const TiersUpdateFailed := "Failed to update subscription tiers"
  const SettingsUpdateFailed := "Failed to update settings"

  // ---------------------------------------------------------------------------
  // Tier lists
  // ---------------------------------------------------------------------------

  /** The tiers of `creator`, in table order. */
  function CreatorTiers(tiers: seq<Tier>, creator: Id): (r: seq<Tier>)
    ensures forall t :: t in r <==> t in tiers && t.creatorId == creator
    decreases |tiers|
  {
    if |tiers| == 0 then []
    else (if tiers[0].creatorId == creator then [tiers[0]] else []) + CreatorTiers(tiers[1..], creator)
  }

  /** The rows `DELETE FROM subscription_tiers WHERE creator_id = creator` leaves, in table order. */
  function OtherTiers(tiers: seq<Tier>, creator: Id): (r: seq<Tier>)
    ensures forall t :: t in r <==> t in tiers && t.creatorId != creator
    decreases |tiers|
  {
    if |tiers| == 0 then []
    else (if tiers[0].creatorId != creator then [tiers[0]] else []) + OtherTiers(tiers[1..], creator)
  }

  lemma {:induction false} CreatorTiersAppend(a: seq<Tier>, b: seq<Tier>, c: Id)
    ensures CreatorTiers(a + b, c) == CreatorTiers(a, c) + CreatorTiers(b, c)
    decreases |a|
  {
    if |a| == 0 {
      assert a + b == b;
    } else {
      assert (a + b)[1..] == a[1..] + b;
      CreatorTiersAppend(a[1..], b, c);
    }
  }

  /** Deleting the rows of `creator` removes exactly that creator's list and keeps every other one. */
  lemma {:induction false} CreatorTiersOfOthers(tiers: seq<Tier>, creator: Id, c: Id)
    ensures CreatorTiers(OtherTiers(tiers, creator), c) == (if c == creator then [] else CreatorTiers(tiers, c))
    decreases |tiers|
  {
    if |tiers| > 0 {
      var head := if tiers[0].creatorId != creator then [tiers[0]] else [];
      CreatorTiersAppend(head, OtherTiers(tiers[1..], creator), c);
      CreatorTiersOfOthers(tiers[1..], creator, c);
      if head != [] {
        assert head[1..] == [];
      }
    }
  }

  /** A list of rows that all belong to `c` is its own list of `c`'s tiers. */
  lemma {:induction false} CreatorTiersAllMatch(tiers: seq<Tier>, c: Id)
    requires forall i :: 0 <= i < |tiers| ==> tiers[i].creatorId == c
    ensures CreatorTiers(tiers, c) == tiers
    decreases |tiers|
  {
    if |tiers| > 0 {
      CreatorTiersAllMatch(tiers[1..], c);
    }
  }

  /** A list of rows none of which belongs to `c` contributes nothing to `c`'s list. */
  lemma {:induction false} CreatorTiersNoneMatch(tiers: seq<Tier>, c: Id)
    requires forall i :: 0 <= i < |tiers| ==> tiers[i].creatorId != c
    ensures CreatorTiers(tiers, c) == []
    decreases |tiers|
  {
    if |tiers| > 0 {
      CreatorTiersNoneMatch(tiers[1..], c);
    }
  }

  // ---------------------------------------------------------------------------
  // PUT /subscription-tiers
  // ---------------------------------------------------------------------------

  /** One element of the request's `tiers` array. */
  datatype TierSpec = TierSpec(level: int, name: string, price: Pence, description: Option<string>)

  predicate ValidTierSpec(spec: TierSpec) {
    && 1 <= spec.level <= 3
    && 1 <= |Trim(spec.name)| <= 50
    && spec.price >= MinimumAmount
  }

  /** The validator chain: one to three tiers, each well formed. */
  predicate ValidTierSpecs(specs: seq<TierSpec>) {
    1 <= |specs| <= 3 && forall i :: 0 <= i < |specs| ==> ValidTierSpec(specs[i])
  }

  /** The inserted rows, in request order, with fresh ids from `firstId` (name and description trimmed). */
  function NewTiers(creator: Id, specs: seq<TierSpec>, firstId: Id): (r: seq<Tier>)
    ensures |r| == |specs|
    ensures forall i :: 0 <= i < |r| ==>
              && r[i].id == firstId + i && r[i].creatorId == creator && r[i].active
              && r[i].level == specs[i].level && r[i].name == Trim(specs[i].name)
              && r[i].price == specs[i].price
              && r[i].description == (if specs[i].description.Some? then Trim(specs[i].description.value) else "")
  {
    seq(|specs|, i requires 0 <= i < |specs| =>
      Tier(firstId + i, creator, Trim(specs[i].name), specs[i].level, specs[i].price,
           if specs[i].description.Some? then Trim(specs[i].description.value) else "", true))
  }

  /** The number of write statements of the replace block: one delete, then one insert per tier. */
  function ReplaceStatements(specs: seq<TierSpec>): nat {
    1 + |specs|
  }

  /**
    PUT /subscription-tiers: the role is checked before the validators, then the delete and
    the inserts run in one transaction, so any failure keeps the old tiers.
   */
  function ReplaceTiers(s: State, caller: Principal, specs: seq<TierSpec>, db: Db): (t: Transition<seq<Tier>>)
    ensures t.reply.Err? ==> t.state == s
    ensures caller.role != Creator ==> t.reply == Err(Refused(403, Middleware.CreatorRequired))
    ensures caller.role == Creator && !ValidTierSpecs(specs) ==> t.reply == Err(Invalid)
    ensures caller.role == Creator && ValidTierSpecs(specs) && !Commits(db, ReplaceStatements(specs))
            ==> t.reply == Err(Fault(TiersUpdateFailed))
    ensures t.reply.Ok? <==> caller.role == Creator && ValidTierSpecs(specs) && Commits(db, ReplaceStatements(specs))
    ensures t.reply.Ok? ==>
            && t.reply.value == NewTiers(caller.id, specs, s.nextId)
            && t.state == s.(tiers := OtherTiers(s.tiers, caller.id) + t.reply.value,
                             nextId := s.nextId + |specs|)
  {
    if caller.role != Creator then Transition(Err(Refused(403, Middleware.CreatorRequired)), s)
    else if !ValidTierSpecs(specs) then Transition(Err(Invalid), s)
    else if !Commits(db, ReplaceStatements(specs)) then Transition(Err(Fault(TiersUpdateFailed)), s)
    else
      var inserted := NewTiers(caller.id, specs, s.nextId);
      Transition(Ok(inserted), s.(tiers := OtherTiers(s.tiers, caller.id) + inserted, nextId := s.nextId + |specs|))
  }

  /**
    After a successful replace the caller's tier list is exactly the submitted list, in
    order, and every other creator's list is what it was.
   */
  lemma ReplaceTiersEffect(s: State, caller: Principal, specs: seq<TierSpec>, db: Db, c: Id)
    requires ReplaceTiers(s, caller, specs, db).reply.Ok?
    ensures var t := ReplaceTiers(s, caller, specs, db);
            CreatorTiers(t.state.tiers, c) == (if c == caller.id then t.reply.value else CreatorTiers(s.tiers, c))
  {
    var inserted := NewTiers(caller.id, specs, s.nextId);
    CreatorTiersAppend(OtherTiers(s.tiers, caller.id), inserted, c);
    CreatorTiersOfOthers(s.tiers, caller.id, c);
    if c == caller.id {
      CreatorTiersAllMatch(inserted, c);
    } else {
      CreatorTiersNoneMatch(inserted, c);
    }
  }

  /**
    Replacing tiers gives them new ids, so an active subscription to one of the old tiers
    no longer joins to a tier: the status check then reports not subscribed while the
    subscribe guard still refuses a new subscription. This assumes the subscription's
    `tier_id` neither blocks nor cascades the deletion of its tier.
   */
  lemma TierReplaceHidesSubscription(s: State, caller: Principal, specs: seq<TierSpec>, db: Db, sid: Id)
    requires SingleActiveSubscription(s)
    requires sid in s.fanSubscriptions
    requires s.fanSubscriptions[sid].creatorId == caller.id && s.fanSubscriptions[sid].status == Active
    requires s.fanSubscriptions[sid].tierId < s.nextId
    requires forall i :: 0 <= i < |s.tiers| && s.tiers[i].id == s.fanSubscriptions[sid].tierId
               ==> s.tiers[i].creatorId == caller.id
    requires ReplaceTiers(s, caller, specs, db).reply.Ok?
    ensures var s1 := ReplaceTiers(s, caller, specs, db).state;
            var fan := Principal(s.fanSubscriptions[sid].fanId, Fan);
            && !Subscriptions.Status(s1, fan, caller.id)
            && HasActiveSubscription(s1, fan.id, caller.id)
  {
    var s1 := ReplaceTiers(s, caller, specs, db).state;
    var sub := s.fanSubscriptions[sid];
    var others := OtherTiers(s.tiers, caller.id);
    var inserted := NewTiers(caller.id, specs, s.nextId);
    assert !Subscriptions.TierExists(s1, sub.tierId) by {
      forall i | 0 <= i < |s1.tiers|
        ensures s1.tiers[i].id != sub.tierId
      {
        if i < |others| {
          assert s1.tiers[i] in others;
        } else {
          assert s1.tiers[i] == inserted[i - |others|];
        }
      }
    }
  }

  // ---------------------------------------------------------------------------
  // GET /profile/:username
  // ---------------------------------------------------------------------------

  predicate SortedByLevel(tiers: seq<Tier>) {
    forall i, j :: 0 <= i < j < |tiers| ==> tiers[i].level <= tiers[j].level
  }

  /** A row at or below the level of every row of a sorted sequence may go in front of it. */
  lemma ConsSorted(h: Tier, rest: seq<Tier>)
    requires SortedByLevel(rest)
    requires forall x :: x in rest ==> h.level <= x.level
    ensures SortedByLevel([h] + rest)
  {
    var r := [h] + rest;
    forall i, j | 0 <= i < j < |r|
      ensures r[i].level <= r[j].level
    {
      assert r[j] == rest[j - 1];
      if i > 0 {
        assert r[i] == rest[i - 1];
      }
    }
  }

  function InsertByLevel(t: Tier, sorted: seq<Tier>): (r: seq<Tier>)
    ensures multiset(r) == multiset(sorted) + multiset{t}
    ensures forall x :: x in r ==> x == t || x in sorted
    ensures SortedByLevel(sorted) ==> SortedByLevel(r)
    decreases |sorted|
  {
    if |sorted| == 0 || t.level <= sorted[0].level then
      assert SortedByLevel(sorted) ==> SortedByLevel([t] + sorted) by {
        if SortedByLevel(sorted) {
          ConsSorted(t, sorted);
        }
      }
      [t] + sorted
    else
      assert sorted == [sorted[0]] + sorted[1..];
      var rest := InsertByLevel(t, sorted[1..]);
      assert SortedByLevel(sorted) ==> SortedByLevel([sorted[0]] + rest) by {
        if SortedByLevel(sorted) {
          forall x | x in rest
            ensures sorted[0].level <= x.level
          {
            if x != t {
              var k :| 0 <= k < |sorted[1..]| && sorted[1..][k] == x;
              assert sorted[k + 1] == x;
            }
          }
          ConsSorted(sorted[0], rest);
        }
      }
      [sorted[0]] + rest
  }

  /** `ORDER BY tier_level`: the rows rearranged into ascending level (equal levels keep table order). */
  function SortByLevel(tiers: seq<Tier>): (r: seq<Tier>)
    ensures SortedByLevel(r)
    ensures multiset(r) == multiset(tiers)
    decreases |tiers|
  {
    if |tiers| == 0 then []
    else
      assert tiers == [tiers[0]] + tiers[1..];
      InsertByLevel(tiers[0], SortByLevel(tiers[1..]))
  }

  /** Rearranging keeps exactly the same rows. */
  lemma SameRows(a: seq<Tier>, b: seq<Tier>)
    requires multiset(a) == multiset(b)
    ensures forall t :: t in a <==> t in b
  {
    assert forall t :: t in a <==> t in multiset(a);
    assert forall t :: t in b <==> t in multiset(b);
  }

  /** `WHERE creator_id = creator AND is_active = true`, in table order. */
  function ActiveTiers(tiers: seq<Tier>, creator: Id): (r: seq<Tier>)
    ensures forall t :: t in r <==> t in tiers && t.creatorId == creator && t.active
    decreases |tiers|
  {
    if |tiers| == 0 then []
    else (if tiers[0].creatorId == creator && tiers[0].active then [tiers[0]] else []) + ActiveTiers(tiers[1..], creator)
  }

  /** The active fan subscriptions to `creator` (`COUNT(DISTINCT fs.id)`). */
  function Subscribers(s: State, creator: Id): set<Id> {
    set id | id in s.fanSubscriptions && s.fanSubscriptions[id].creatorId == creator
                                     && s.fanSubscriptions[id].status == Active
  }

  /** A user the lookup can find: active, with a profile carrying the username. */
  predicate Findable(s: State, a: Account, username: string) {
    a.active && a.id in s.profiles && s.profiles[a.id].username == username
  }

  datatype ProfileView = ProfileView(id: Id, role: Role, profile: Profile, subscriberCount: nat,
                                     tiers: seq<Tier>)

  /**
    GET /profile/:username (no token needed): 404 for an unknown username or an inactive
    user; a creator's active tiers sorted by level, and no tiers for a fan.
   */
  function LookupProfile(s: State, username: string): (r: Result<ProfileView>)
    ensures r.Err? <==> forall i :: 0 <= i < |s.accounts| ==> !Findable(s, s.accounts[i], username)
    ensures r.Err? ==> r.error == Refused(404, UserNotFound)
    ensures r.Ok? ==>
            exists a :: a in s.accounts && Findable(s, a, username)
                        && a.id == r.value.id && a.role == r.value.role && r.value.profile == s.profiles[a.id]
    ensures r.Ok? ==> r.value.subscriberCount == |Subscribers(s, r.value.id)|
    ensures r.Ok? && r.value.role == Fan ==> r.value.tiers == []
    ensures r.Ok? && r.value.role == Creator ==>
            && SortedByLevel(r.value.tiers)
            && multiset(r.value.tiers) == multiset(ActiveTiers(s.tiers, r.value.id))
            && (forall t :: t in r.value.tiers <==> t in s.tiers && t.creatorId == r.value.id && t.active)
  {
    match FirstWhere(s.accounts, (a: Account) => a.active && a.id in s.profiles && s.profiles[a.id].username == username)
    case None => Err(Refused(404, UserNotFound))
    case Some(a) =>
      var tiers := if a.role == Creator then SortByLevel(ActiveTiers(s.tiers, a.id)) else [];
      assert a.role == Creator ==> forall t :: t in tiers <==> t in ActiveTiers(s.tiers, a.id) by {
        if a.role == Creator { SameRows(tiers, ActiveTiers(s.tiers, a.id)); }
      }
      Ok(ProfileView(a.id, a.role, s.profiles[a.id], |Subscribers(s, a.id)|, tiers))
  }

  /** Deactivating the only account with a username hides its profile. */
  lemma DeactivatedProfileIsHidden(s: State, username: string, k: nat)
    requires k < |s.accounts| && Findable(s, s.accounts[k], username)
    requires forall i :: 0 <= i < |s.accounts| && i != k ==> !Findable(s, s.accounts[i], username)
    ensures LookupProfile(s.(accounts := s.accounts[k := s.accounts[k].(active := false)]), username).Err?
  {
  }

  // ---------------------------------------------------------------------------
  // PUT /profile
  // ---------------------------------------------------------------------------

  /** The body of PUT /profile; an absent field is `None`. */
  datatype ProfileUpdate = ProfileUpdate(displayName: Option<string>, bio: Option<string>,
                                         location: Option<string>, website: Option<string>)

  /** The length validators, applied to the trimmed values (the URL format check is not modelled). */
  predicate ValidProfileUpdate(u: ProfileUpdate) {
    && (u.displayName.Some? ==> 2 <= |Trim(u.displayName.value)| <= 100)
    && (u.bio.Some? ==> |Trim(u.bio.value)| <= 500)
    && (u.location.Some? ==> |Trim(u.location.value)| <= 100)
  }

  predicate HasProfileField(u: ProfileUpdate) {
    u.displayName.Some? || u.bio.Some? || u.location.Some? || u.website.Some?
  }

  /** The value a field takes: the trimmed new value when supplied, the old one otherwise. */
  function Updated(current: Option<string>, given: Option<string>): Option<string> {
    if given.Some? then Some(Trim(given.value)) else current
  }

  function ApplyProfileUpdate(p: Profile, u: ProfileUpdate): Profile {
    Profile(if u.displayName.Some? then Trim(u.displayName.value) else p.displayName,
            p.username,
            Updated(p.bio, u.bio), Updated(p.location, u.location), Updated(p.website, u.website))
  }

  /**
    PUT /profile: validation, then "No updates provided" when no field is present, then one
    UPDATE of the caller's own row that sets exactly the supplied fields.
   */
  function UpdateProfile(s: State, caller: Principal, u: ProfileUpdate, db: Db): (t: Transition<Option<Profile>>)
    ensures t.reply.Err? ==> t.state == s
    ensures !ValidProfileUpdate(u) ==> t.reply == Err(Invalid)
    ensures ValidProfileUpdate(u) && !HasProfileField(u) ==> t.reply == Err(Refused(400, NoUpdates))
    ensures ValidProfileUpdate(u) && HasProfileField(u) && !Commits(db, 1) ==> t.reply == Err(Fault(ProfileUpdateFailed))
    ensures t.reply.Ok? <==> ValidProfileUpdate(u) && HasProfileField(u) && Commits(db, 1)
    ensures t.reply.Ok? && caller.id !in s.profiles ==> t == Transition(Ok(None), s)
    ensures t.reply.Ok? && caller.id in s.profiles ==>
            var p := s.profiles[caller.id];
            && t.reply.value.Some?
            && t.state == s.(profiles := s.profiles[caller.id := t.reply.value.value])
            && t.reply.value.value.username == p.username
            && t.reply.value.value.displayName == (if u.displayName.Some? then Trim(u.displayName.value) else p.displayName)
            && t.reply.value.value.bio == (if u.bio.Some? then Some(Trim(u.bio.value)) else p.bio)
            && t.reply.value.value.location == (if u.location.Some? then Some(Trim(u.location.value)) else p.location)
            && t.reply.value.value.website == (if u.website.Some? then Some(Trim(u.website.value)) else p.website)
  {
    if !ValidProfileUpdate(u) then Transition(Err(Invalid), s)
    else if !HasProfileField(u) then Transition(Err(Refused(400, NoUpdates)), s)
    else if !Commits(db, 1) then Transition(Err(Fault(ProfileUpdateFailed)), s)
    else if caller.id !in s.profiles then Transition(Ok(None), s)
    else
      var q := ApplyProfileUpdate(s.profiles[caller.id], u);
      Transition(Ok(Some(q)), s.(profiles := s.profiles[caller.id := q]))
  }

  /** Submitting the same profile update twice leaves the state the first one left. */
  lemma UpdateProfileIdempotent(s: State, caller: Principal, u: ProfileUpdate)
    requires UpdateProfile(s, caller, u, Healthy).reply.Ok?
    ensures var s1 := UpdateProfile(s, caller, u, Healthy).state;
            UpdateProfile(s1, caller, u, Healthy).state == s1
  {
    var s1 := UpdateProfile(s, caller, u, Healthy).state;
    if caller.id in s.profiles {
      var q := ApplyProfileUpdate(s.profiles[caller.id], u);
      assert s1 == s.(profiles := s.profiles[caller.id := q]);
      assert s1.profiles[caller.id] == q;
      assert ApplyProfileUpdate(q, u) == q;
      assert s1.(profiles := s1.profiles[caller.id := q]) == s1;
    }
  }

  // ---------------------------------------------------------------------------
  // PUT /settings
  // ---------------------------------------------------------------------------

  /** The body of PUT /settings; an absent field is `None`. No validator runs on it. */
  datatype SettingsUpdate = SettingsUpdate(emailNotifications: Option<bool>, pushNotifications: Option<bool>,
                                           profileVisibility: Option<string>, showOnlineStatus: Option<bool>,
                                           allowMessagesFrom: Option<string>)

  predicate HasSettingsField(u: SettingsUpdate) {
    || u.emailNotifications.Some? || u.pushNotifications.Some? || u.profileVisibility.Some?
    || u.showOnlineStatus.Some? || u.allowMessagesFrom.Some?
  }

  function Override<T>(current: Option<T>, given: Option<T>): Option<T> {
    if given.Some? then given else current
  }

  function ApplySettingsUpdate(r: Settings, u: SettingsUpdate): Settings {
    Settings(Override(r.emailNotifications, u.emailNotifications), Override(r.pushNotifications, u.pushNotifications),
             Override(r.profileVisibility, u.profileVisibility), Override(r.showOnlineStatus, u.showOnlineStatus),
             Override(r.allowMessagesFrom, u.allowMessagesFrom))
  }

  /**
    PUT /settings: "No updates provided" when no field is present, otherwise one UPDATE of the
    caller's own row setting exactly the supplied fields.
   */
  function UpdateSettings(s: State, caller: Principal, u: SettingsUpdate, db: Db): (t: Transition<Option<Settings>>)
    ensures t.reply.Err? ==> t.state == s
    ensures !HasSettingsField(u) ==> t.reply == Err(Refused(400, NoUpdates))
    ensures HasSettingsField(u) && !Commits(db, 1) ==> t.reply == Err(Fault(SettingsUpdateFailed))
    ensures t.reply.Ok? <==> HasSettingsField(u) && Commits(db, 1)
    ensures t.reply.Ok? && caller.id !in s.settings ==> t == Transition(Ok(None), s)
    ensures t.reply.Ok? && caller.id in s.settings ==>
            var before := s.settings[caller.id];
            && t.reply.value.Some?
            && t.state == s.(settings := s.settings[caller.id := t.reply.value.value])
            && var after := t.reply.value.value;
            && after.emailNotifications == (if u.emailNotifications.Some? then u.emailNotifications else before.emailNotifications)
            && after.pushNotifications == (if u.pushNotifications.Some? then u.pushNotifications else before.pushNotifications)
            && after.profileVisibility == (if u.profileVisibility.Some? then u.profileVisibility else before.profileVisibility)
            && after.showOnlineStatus == (if u.showOnlineStatus.Some? then u.showOnlineStatus else before.showOnlineStatus)
            && after.allowMessagesFrom == (if u.allowMessagesFrom.Some? then u.allowMessagesFrom else before.allowMessagesFrom)
  {
    if !HasSettingsField(u) then Transition(Err(Refused(400, NoUpdates)), s)
    else if !Commits(db, 1) then Transition(Err(Fault(SettingsUpdateFailed)), s)
    else if caller.id !in s.settings then Transition(Ok(None), s)
    else
      var r := ApplySettingsUpdate(s.settings[caller.id], u);
      Transition(Ok(Some(r)), s.(settings := s.settings[caller.id := r]))
  }

  /** Two successive settings updates act as one update where the later value of each field wins. */
  lemma UpdateSettingsCompose(s: State, caller: Principal, u: SettingsUpdate, v: SettingsUpdate)
    requires HasSettingsField(u) && HasSettingsField(v)
    ensures var s1 := UpdateSettings(s, caller, u, Healthy).state;
            var w := SettingsUpdate(Override(u.emailNotifications, v.emailNotifications),
                                    Override(u.pushNotifications, v.pushNotifications),
                                    Override(u.profileVisibility, v.profileVisibility),
                                    Override(u.showOnlineStatus, v.showOnlineStatus),
                                    Override(u.allowMessagesFrom, v.allowMessagesFrom));
            UpdateSettings(s1, caller, v, Healthy).state == UpdateSettings(s, caller, w, Healthy).state
  {
  }
}
